=== FILE: README.md ===
# Graph: a verified model of the PurpleSky-NS graph library core

The library is a header-only C++ collection of in-memory graphs. It has four concrete representations:

- directed and undirected adjacency matrices;
- directed and undirected adjacency lists, where each vertex owns a linked chain of edge nodes;
- a weighted and an unweighted flavour of each.

On top of these sit:

- the generic `GraphBase` layer: vertex lookup, `ForeachVertex`, BFS and DFS;
- the single-source shortest-path result `SSSP`, which runs breadth-first search or Dijkstra's algorithm;
- the parent-array tree container `MST_Parent`.

This project models that core in Dafny and proves what the code guarantees.

The model uses immutable data:

- **Matrix graphs** (`MatrixGraph.Graph`):
  - `vertexData`, the edge counter `edgeNum`, and the `NullValue` template argument as the field `nullValue`;
  - a storage that is either `Square(rows)`, the directed vector of rows, or `Triangle(cells)`, the undirected packed lower triangle indexed by `max*(max+1)/2+min`.
- **Link graphs** (`DirectedLink.Graph`): one `seq<Node>` per vertex stands for the linked chain, and node order is chain order.
  - The unweighted classes are the same datatype with `W = bool`, every node holding `true`.
  - `UndirectedLink` reuses this datatype. It adds the mirroring invariant and the logical edge count.
  - `DirectedLink.NoNull` says no node holds NullValue. The weighted classes create or overwrite a node only for a non-null weight and send NullValue to RemoveEdge, so every operation keeps it, and on such graphs GetWeight reads NullValue exactly for a missing edge.
- **Shared pieces:**
  - the counter `m_edgeNum` is an unbounded `int`, read as a `size_t` through `Common.Size(k) = k mod 2^64`;
  - the renumbering after a vertex removal is `Common.Shift(v, k)`, which is `k` below `v` and `k + 1` from `v` on.
- **Iterations:** every callback iteration (`ForeachOutNeighbor`, `ForeachEdge`, BFS, DFS, `ForeachPath`) returns the sequence of values the callback would receive, in call order.
- **Shortest paths:**
  - `SSSP<unsigned long long>` is `ShortestPath.Sssp`: one `(dist, prev)` pair per vertex.
  - Distance `2^64 - 1` means "unreached", and predecessor `n` means "none".
  - Breadth-first search sees the graph as out-neighbour lists.
  - Dijkstra's algorithm also sees an `n x n` matrix of optional weights that agrees with those lists.
- **`MST_Parent<T>`** is `MstParent.Mst`. It is parameterised by the width and signedness of the integral index type `T`, and every narrowing `static_cast` is written out as a modular cast.

Where the code does something its authors evidently did not intend, the model follows the code, and a lemma shows the effect (the list at the end of "## Left out"). There are two exceptions, the rows of "## Findings". For each of them the model defines both the code as written and the corrected behaviour, and the rest of the model uses the corrected form. So the Dijkstra run and `Execute` start from the corrected seed (see `Dijkstra.WeightedSSSP` and `ShortestPathRun.Execute` under "## Left out"). The header comment on `GetDistance` (`Graph/ShortestPath.h:42`) says a zero distance means "unreachable". The code instead initialises every distance to the maximum value, so the model follows the code.

## Model

| member | source | states |
|---|---|---|
| GraphBase.ExistVertex | Graph/GraphBase.h:105-112 | true exactly when some stored payload equals `v` |
| GraphBase.GetVertexPos | Graph/GraphBase.h:114-121 | NPOS exactly when `v` is not stored; otherwise the least position holding `v` |
| GraphBase.ForeachVertex | Graph/GraphBase.h:192-197 | the callback sees `0, 1, ..., n-1` in ascending order |
| GraphBase.BFS | Graph/GraphBase.h:167-190 | visits `s` first, every vertex reachable from `s` exactly once and no other vertex, in non-decreasing hop distance from `s` |
| GraphBase.BfsStart | Graph/GraphBase.h:170-174 | marking and queuing only `s` establishes the loop invariant (layered queue, nothing expanded) |
| GraphBase.EnqueueNeighbours | Graph/GraphBase.h:180-187 | the neighbour callback keeps the queue layered, extends it at the end only, and leaves the dequeued vertex fully expanded |
| GraphBase.Enqueue | Graph/GraphBase.h:182-186 | after one callback step the neighbour is marked at most one layer beyond the vertex being expanded, and marked vertices keep their layer |
| GraphBase.MarkOne | Graph/GraphBase.h:182-186 | enqueuing an unmarked neighbour one layer further out keeps the queue sorted by layer, with every marked vertex on a path of its layer's length |
| GraphBase.BfsResult | Graph/GraphBase.h:175-188 | once the queue is drained, the queued vertices are exactly the reachable ones, each at its hop distance, in non-decreasing distance order |
| GraphBase.DFS | Graph/GraphBase.h:147-165 | visits `s` first and every vertex reachable from `s` exactly once, and no other vertex |
| GraphBase.DfsVisit | Graph/GraphBase.h:152-161 | the recursive visitor reports only previously unmarked vertices reachable from `v`, each once, marks exactly those, and leaves every neighbour of a reported vertex marked |
| MatrixGraph.TriClosedForm | Graph/WeightedUndirectedMatrixGraph.h:56-60 | the triangular number `1 + 2 + ... + k` equals `k*(k+1)/2`, the row offset the packed index uses |
| MatrixGraph.PosBound | Graph/WeightedUndirectedMatrixGraph.h:56-60 | the packed position of a pair `i <= j < n` lies below `n(n+1)/2` |
| MatrixGraph.PosInjective | Graph/WeightedUndirectedMatrixGraph.h:56-60 | distinct pairs `i <= j` have distinct packed positions |
| MatrixGraph.PosOnto | Graph/WeightedUndirectedMatrixGraph.h:56-60 | every position below `n(n+1)/2` is the packed position of some pair `i <= j < n` |
| MatrixGraph.TriIndex | Graph/WeightedUndirectedMatrixGraph.h:56-66 | the source's index expression picks the packed cell of the unordered pair, whichever argument is larger |
| MatrixGraph.TriIndexBound | Graph/WeightedUndirectedMatrixGraph.h:56-66 | every GetWeight/SetWeight access of an n-vertex triangle is in bounds |
| MatrixGraph.GetWeight | Graph/WeightedDirectedMatrixGraph.h:56-60 | reads cell `[a][b]` of the square storage, or the packed cell of `{a, b}` of the triangle |
| MatrixGraph.SetWeight | Graph/WeightedDirectedMatrixGraph.h:56-66 | afterwards GetWeight(a, b) reads `w`, and every cell not naming the written storage cell reads as before; payloads and counter unchanged |
| MatrixGraph.TriangleSymmetric | Graph/WeightedUndirectedMatrixGraph.h:56-60 | an undirected matrix reads the same weight in both directions |
| MatrixGraph.ExistEdge | Graph/MatrixGraph.h:45-49 | true exactly when the stored weight differs from NullValue |
| MatrixGraph.InsertEdge | Graph/MatrixGraph.h:36-43 | on an existing edge nothing changes; otherwise the counter rises by one and GetWeight(a, b) reads `w`, every other cell unchanged |
| MatrixGraph.RemoveEdge | Graph/MatrixGraph.h:51-58 | on a missing edge nothing changes; otherwise the counter drops by one; afterwards the edge does not exist and other cells are unchanged |
| MatrixGraph.RemoveEdgeIdempotent | Graph/MatrixGraph.h:51-58 | removing the same edge twice equals removing it once |
| MatrixGraph.OutNeighbors | Graph/MatrixGraph.h:60-66 | ForeachOutNeighbor(v) yields, strictly ascending, exactly the `i` with an edge `v -> i` |
| MatrixGraph.InNeighbors | Graph/MatrixGraph.h:68-74 | ForeachInNeighbor(v) yields, strictly ascending, exactly the `i` with an edge `i -> v` |
| MatrixGraph.TriangleNeighbors | Graph/MatrixGraph.h:60-74 | on an undirected matrix the in-neighbour and out-neighbour sequences are equal |
| MatrixGraph.SetWeightCount | Graph/MatrixGraph.h:36-58 | writing one cell changes the number of non-null cells by exactly that cell's change of state |
| MatrixGraph.InsertEdgeCounted | Graph/MatrixGraph.h:36-43 | with a non-null weight, InsertEdge keeps the counter equal to the number of non-null cells |
| MatrixGraph.InsertNullDrift | Graph/MatrixGraph.h:36-43 | inserting NullValue on a missing edge raises the counter while no cell changes, so the counter ends one above the cell count |
| MatrixGraph.RemoveEdgeCounted | Graph/MatrixGraph.h:51-58 | RemoveEdge keeps the counter equal to the number of non-null cells |
| MatrixGraph.RowEdges | Graph/WeightedDirectedMatrixGraph.h:80-87 | one row of the edge scan reports exactly the row's existing edges (from the diagonal on in the undirected scan), each with its weight, in column order |
| MatrixGraph.ScanEdges | Graph/WeightedDirectedMatrixGraph.h:80-87 | the scan of the first `k` rows reports exactly their existing edges with their weights, strictly row-major |
| DirectedMatrix.InsertVertex | Graph/WeightedDirectedMatrixGraph.h:46-54 | appends the payload; the matrix stays square; the new row and column read NullValue and every old cell is unchanged |
| DirectedMatrix.InsertVertexCounted | Graph/WeightedDirectedMatrixGraph.h:46-54 | a new vertex keeps the counter equal to the number of non-null cells |
| DirectedMatrix.RemoveVertex | Graph/WeightedDirectedMatrixGraph.h:68-78 | the new weight of `(i, j)` is the old weight of `(shift_v(i), shift_v(j))`, the matrix stays square, and the counter drops by the out-degree of `v` only |
| DirectedMatrix.RemoveVertexDrift | Graph/WeightedDirectedMatrixGraph.h:71-77 | afterwards the counter exceeds the number of edges by the number of edges into `v` from other vertices |
| DirectedMatrix.RemoveVertexCounted | Graph/WeightedDirectedMatrixGraph.h:68-78 | the counter stays exact if and only if no other vertex has an edge into `v` |
| DirectedMatrix.ForeachEdge | Graph/WeightedDirectedMatrixGraph.h:80-87 | reports exactly the existing edges with their weights, each once, in row-major order |
| DirectedMatrix.GetAdjacencyMatrix | Graph/WeightedDirectedMatrixGraph.h:89-98 | a vector of `n*n` cells whose entry `[i*n+j]` is GetWeight(i, j) |
| UndirectedMatrix.InsertVertex | Graph/WeightedUndirectedMatrixGraph.h:47-54 | appends the payload; the storage grows to `(n+1)(n+2)/2`; the new vertex has only NullValue weights and old weights are unchanged |
| UndirectedMatrix.InsertVertexCounted | Graph/WeightedUndirectedMatrixGraph.h:47-54 | a new vertex keeps the counter equal to the number of non-null cells |
| UndirectedMatrix.SetWeightSymmetric | Graph/WeightedUndirectedMatrixGraph.h:62-66 | after SetWeight(a, b, w) both GetWeight(a, b) and GetWeight(b, a) read `w` |
| UndirectedMatrix.ShiftColumns | Graph/WeightedUndirectedMatrixGraph.h:94-97 | the first copy phase moves every cell `(i, j)`, `i < v <= j`, one column left, reading each source cell before it is overwritten |
| UndirectedMatrix.ShiftCorner | Graph/WeightedUndirectedMatrixGraph.h:98-101 | the second copy phase moves every cell `(i, j)`, `v <= i <= j`, one step down the diagonal, reading each source cell before it is overwritten |
| UndirectedMatrix.Shifted | Graph/WeightedUndirectedMatrixGraph.h:94-101 | after both phases, cell `(a, b)` of the first `n-1` packed rows holds the old cell `(shift_v(a), shift_v(b))` |
| UndirectedMatrix.RemoveVertex | Graph/WeightedUndirectedMatrixGraph.h:68-104 | the new weight of `(i, j)` is the old weight of `(shift_v(i), shift_v(j))`, the storage is cut to `(n-1)n/2`, and the counter drops once per neighbour of `v` (a self-loop once); an exact counter stays exact |
| UndirectedMatrix.RemoveVertexCounted | Graph/WeightedUndirectedMatrixGraph.h:68-104 | taking one off per neighbour of `v` keeps the counter equal to the number of non-null cells, because the cells that leave the triangle are exactly the cells naming `v` |
| UndirectedMatrix.ShiftedWeight | Graph/WeightedUndirectedMatrixGraph.h:94-103 | reading a cell of the cut triangle reads the renumbered old weight, in either argument order |
| UndirectedMatrix.ForeachEdge | Graph/WeightedUndirectedMatrixGraph.h:119-126 | reports each existing edge once as `(i, j)` with `i <= j` and its weight, in row-major order |
| UndirectedMatrix.UpperDisjoint | Graph/WeightedUndirectedMatrixGraph.h:110-125 | strictly row-major reports with `from <= to` never write a common cell of the adjacency vector, even mirrored |
| UndirectedMatrix.GetAdjacencyMatrix | Graph/WeightedUndirectedMatrixGraph.h:106-117 | a vector of `n*n` cells whose entry `[i*n+j]` is GetWeight(i, j), hence symmetric |
| UndirectedMatrix.PaintedCell | Graph/WeightedUndirectedMatrixGraph.h:106-117 | painting the ForeachEdge reports into a NullValue vector leaves GetWeight(i, j) at `[i*n+j]` |
| UndirectedMatrix.ReportedCell | Graph/WeightedUndirectedMatrixGraph.h:110-125 | an existing edge is reported by an edge that writes its cell with its weight |
| UndirectedMatrix.UnreportedCell | Graph/WeightedUndirectedMatrixGraph.h:110-125 | no report writes the cell of a missing edge |
| UnweightedMatrix.Normalize | Graph/UnweightedDirectedMatrixGraph.h:22-26 | `weight && 1` is 1 for a non-zero char and 0 for zero |
| UnweightedMatrix.DirectedInsertEdge | Graph/UnweightedDirectedMatrixGraph.h:22-26 | on an existing edge nothing changes; otherwise the counter rises by one and the cell holds the normalised weight, so a non-zero weight makes the edge exist; other cells unchanged |
| UnweightedMatrix.UndirectedInsertEdge | Graph/UnweightedUndirectedMatrixGraph.h:18-22 | as the directed form, with both GetWeight(a, b) and GetWeight(b, a) reading the normalised weight |
| UnweightedMatrix.InsertEdgeBinary | Graph/UnweightedDirectedMatrixGraph.h:22-26 | both normalising inserts keep every cell 0 or 1 |
| UnweightedMatrix.InsertEdgeCharCounted | Graph/UnweightedDirectedMatrixGraph.h:22-26 | a non-zero weight keeps the counter exact; a zero weight on a missing edge leaves the counter one above the number of edges |
| UnweightedMatrix.ReverseInsertNoop | Graph/UnweightedUndirectedMatrixGraph.h:18-22 | after an undirected insert of a non-zero weight, inserting the reversed pair changes nothing |
| UnweightedMatrix.TinyInsertEdge | Graph/UnweightedDirectedMatrixGraph.h:54-58 | the bool weight reaches the matrix insert unchanged: the edge exists afterwards iff it existed or the weight is true |
| DirectedLink.IndexOf | Graph/UnweightedDirectedLinkGraph.h:285-296 | the position of the first node for `b`, or the chain length when there is none |
| DirectedLink.GetNode | Graph/UnweightedDirectedLinkGraph.h:285-296 | finds a node exactly when the chain has one for `b`, and it is the first such node |
| DirectedLink.ExistEdge | Graph/UnweightedDirectedLinkGraph.h:136-140 | true exactly when the chain of `a` has a node for `b` |
| DirectedLink.GetWeight | Graph/WeightedDirectedLinkGraph.h:79-84 | NullValue when no node for `b` exists, otherwise that node's weight; on a graph whose nodes hold no NullValue (`NoNull`), the result is NullValue exactly when no node for `b` exists |
| DirectedLink.UnweightedGetWeight | Graph/UnweightedDirectedLinkGraph.h:142-146 | the existence of the edge |
| DirectedLink.UnweightedGetWeightAgrees | Graph/UnweightedDirectedLinkGraph.h:142-146 | on unweighted chains the weighted reading and the unweighted reading agree |
| DirectedLink.InsertVertex | Graph/UnweightedDirectedLinkGraph.h:103-108 | appends the payload and an empty chain; no existing chain changes; keeps `NoNull` |
| DirectedLink.InsertVertexCounted | Graph/UnweightedDirectedLinkGraph.h:103-108 | a new vertex keeps the counter equal to the node count and the chains free of repeated targets |
| DirectedLink.Append | Graph/UnweightedDirectedLinkGraph.h:119-133 | if a node for `b` exists nothing changes; otherwise one node is appended at the chain's end and the counter rises by one; other chains unchanged; the edge exists afterwards; a non-null weight keeps `NoNull` |
| DirectedLink.InsertEdge | Graph/WeightedDirectedLinkGraph.h:54-77 | a null weight is RemoveEdge; a non-null weight makes the edge exist, appending `(b, w)` and raising the counter only when `b` was absent; keeps `NoNull`, since only a non-null weight creates a node |
| DirectedLink.InsertEdgeCounted | Graph/UnweightedDirectedLinkGraph.h:110-134 | InsertEdge keeps the counter equal to the number of nodes and the chains free of repeated targets, whatever the weight |
| DirectedLink.InsertEdgeMarked | Graph/UnweightedDirectedLinkGraph.h:110-134 | unweighted inserts only ever create nodes holding `true` |
| DirectedLink.RemoveEdge | Graph/UnweightedDirectedLinkGraph.h:202-223 | on a missing edge nothing changes; otherwise one node goes and the counter drops by one; every other target of the chain and every other chain is kept; a duplicate-free chain loses `b`; keeps `NoNull` |
| DirectedLink.RemoveEdgeShape | Graph/UnweightedDirectedLinkGraph.h:207-222 | the unlinked node is the first node for `b`, and the rest of the chain keeps its order |
| DirectedLink.RemoveEdgeIdempotent | Graph/UnweightedDirectedLinkGraph.h:202-223 | removing the same edge twice equals removing it once |
| DirectedLink.RemoveEdgeCounted | Graph/UnweightedDirectedLinkGraph.h:202-223 | RemoveEdge keeps the counter equal to the number of nodes and the chains free of repeated targets |
| DirectedLink.UnweightedSetWeight | Graph/UnweightedDirectedLinkGraph.h:148-155 | a non-null weight makes the edge exist; NullValue makes it absent |
| DirectedLink.UnweightedSetWeightIsInsert | Graph/UnweightedDirectedLinkGraph.h:148-155 | on the directed class SetWeight is InsertEdge |
| DirectedLink.Assign | Graph/WeightedDirectedLinkGraph.h:94-108 | overwrites the weight of the first node for `b` in place (counter unchanged), or appends `(b, w)` (counter plus one); no other node, target or chain changes |
| DirectedLink.AssignNoNull | Graph/WeightedDirectedLinkGraph.h:95-108 | the only weight the write stores is `w`, so a non-null `w` keeps `NoNull` |
| DirectedLink.WeightedSetWeight | Graph/WeightedDirectedLinkGraph.h:86-109 | NullValue is RemoveEdge; any other weight makes the edge exist with GetWeight(a, b) reading `w`; keeps `NoNull` |
| DirectedLink.WeightedSetWeightCounted | Graph/WeightedDirectedLinkGraph.h:86-109 | SetWeight keeps the counter equal to the number of nodes and the chains free of repeated targets |
| DirectedLink.Strip | Graph/UnweightedDirectedLinkGraph.h:171-198 | one chain after the removal loop loses exactly its nodes for `v` |
| DirectedLink.StripHas | Graph/UnweightedDirectedLinkGraph.h:171-198 | the stripped chain has a node for `j` iff the old chain had one for `shift_v(j)` |
| DirectedLink.StripOrder | Graph/UnweightedDirectedLinkGraph.h:171-198 | the surviving nodes keep their relative order, with targets above `v` moved down by one and weights kept |
| DirectedLink.StripUnique | Graph/UnweightedDirectedLinkGraph.h:171-198 | stripping keeps a chain free of repeated targets |
| DirectedLink.StripBound | Graph/UnweightedDirectedLinkGraph.h:171-198 | every remaining target names one of the `n-1` surviving vertices |
| DirectedLink.RemoveVertex | Graph/UnweightedDirectedLinkGraph.h:157-200 | `ExistEdge(i, j)` afterwards iff `ExistEdge(shift_v(i), shift_v(j))` before; each chain is the stripped old chain; the counter drops by the number of destroyed nodes; keeps `NoNull`, since surviving nodes keep their weights |
| DirectedLink.StrippedEdges | Graph/UnweightedDirectedLinkGraph.h:167-199 | an edge between survivors exists after the removal iff it existed between their old indices |
| DirectedLink.RemoveVertexCounted | Graph/UnweightedDirectedLinkGraph.h:157-200 | RemoveVertex keeps the counter equal to the number of nodes |
| DirectedLink.ForeachOutNeighbor | Graph/UnweightedDirectedLinkGraph.h:225-230 | yields the chain's targets in node order, which are exactly the out-neighbours |
| DirectedLink.ForeachInNeighbor | Graph/UnweightedDirectedLinkGraph.h:232-238 | yields, strictly ascending, exactly the `i` with an edge `i -> v` |
| DirectedLink.ChainEdgesAll | Graph/UnweightedDirectedLinkGraph.h:243-245 | a chain's reports are its nodes, one for one and in order |
| DirectedLink.ChainEdgesExact | Graph/UnweightedUndirectedLinkGraph.h:72-75 | the filtered chain reports come from the chain's own nodes and cover each node with target at least the chain's index |
| DirectedLink.ScanOrdered | Graph/UnweightedDirectedLinkGraph.h:240-246 | reports come chain by chain, in ascending chain order |
| DirectedLink.ScanDistinct | Graph/UnweightedDirectedLinkGraph.h:240-246 | with duplicate-free chains no two reports name the same pair |
| DirectedLink.ScanCount | Graph/UnweightedDirectedLinkGraph.h:240-246 | without the filter there is one report per node |
| DirectedLink.ForeachEdge | Graph/WeightedDirectedLinkGraph.h:111-117 | one report `(i, target, weight)` per node, each standing for a node of chain `i`, chains in ascending order |
| DirectedLink.ForeachEdgeComplete | Graph/WeightedDirectedLinkGraph.h:111-117 | every node is reported |
| DirectedLink.ForeachEdgeLayout | Graph/WeightedDirectedLinkGraph.h:111-117 | the reports of chain `i` follow those of chains `0..i-1`, in node order |
| DirectedLink.ReportsPaintable | Graph/UnweightedDirectedLinkGraph.h:248-258 | the reports lie inside the `n x n` grid and no two write the same cell |
| DirectedLink.GetAdjacencyMatrix | Graph/UnweightedDirectedLinkGraph.h:248-258 | a vector of `n*n` cells whose entry `[i*n+j]` is the edge's weight when it exists and the initial `W(false)` otherwise |
| DirectedLink.PaintedLinkCell | Graph/UnweightedDirectedLinkGraph.h:248-258 | painting the ForeachEdge reports leaves the weight of an existing edge, and the initial value elsewhere |
| DirectedLink.UnweightedAdjacency | Graph/UnweightedDirectedLinkGraph.h:248-258 | on an unweighted graph entry `[i*n+j]` is set iff `ExistEdge(i, j)` |
| UndirectedLink.BaseInsert | Graph/UnweightedDirectedLinkGraph.h:110-134 | the inherited insert: a null weight on a missing edge changes nothing, any other weight is the directed append; keeps `NoNull` |
| UndirectedLink.RemoveEdge | Graph/UnweightedUndirectedLinkGraph.h:49-60 | on a missing edge nothing changes; keeps `NoNull` |
| UndirectedLink.InsertEdge | Graph/UnweightedUndirectedLinkGraph.h:37-47 | a null weight on a missing edge changes nothing; keeps `NoNull` |
| UndirectedLink.InsertVertexInv | Graph/UnweightedDirectedLinkGraph.h:103-108 | a new vertex keeps the chains mirrored, duplicate-free and the counter equal to the logical edges |
| UndirectedLink.RemoveEdgeInv | Graph/UnweightedUndirectedLinkGraph.h:49-60 | on a consistent graph both directions go, the counter drops by exactly one for an existing edge, the invariant holds and no other pair changes |
| UndirectedLink.RemoveFrame | Graph/UnweightedUndirectedLinkGraph.h:53-59 | removing `(a, b)` and `(b, a)` changes the chains at that pair only and keeps them duplicate-free |
| UndirectedLink.InsertShape | Graph/UnweightedUndirectedLinkGraph.h:37-47 | on a missing edge: one node `b` appended to chain `a`, one node `a` to chain `b` (just one for a self-loop), the counter up by one |
| UndirectedLink.InsertWeights | Graph/WeightedUndirectedLinkGraph.h:41-51 | the new nodes carry `w` in both directions and keep the chains duplicate-free |
| UndirectedLink.InsertEdgeInv | Graph/UnweightedUndirectedLinkGraph.h:37-47 | on a consistent graph with a non-null weight: an existing edge is left alone; a missing one gets two nodes (one for a self-loop), the counter up by exactly one, GetWeight reading `w` both ways; the invariant holds and no other pair changes |
| UndirectedLink.NullInsertDrift | Graph/UnweightedUndirectedLinkGraph.h:40-46 | InsertEdge(a, b, NullValue) on an existing edge `a != b` removes both directions but leaves the counter unchanged, one above the logical edges |
| UndirectedLink.ForeachInNeighbor | Graph/UnweightedUndirectedLinkGraph.h:62-67 | on a mirrored graph the out-neighbour chain lists exactly the in-neighbours |
| UndirectedLink.ForeachEdge | Graph/UnweightedUndirectedLinkGraph.h:69-76 | reports only pairs `from <= to` that are nodes, no pair twice, and as many reports as the counter on a counted graph |
| UndirectedLink.ForeachEdgeCovers | Graph/UnweightedUndirectedLinkGraph.h:69-76 | every edge of a mirrored graph is reported in its ordered form |
| UndirectedLink.GetAdjacencyMatrix | Graph/WeightedUndirectedLinkGraph.h:82-93 | a symmetric vector of `n*n` cells: the weight of the ordered pair's node where it exists, the initial `W(false)` elsewhere |
| UndirectedLink.MirrorCell | Graph/WeightedUndirectedLinkGraph.h:82-93 | painting the canonical reports both ways leaves at `[i*n+j]` the weight of the node of `(min, max)`, or the initial value |
| UndirectedLink.UnweightedAdjacency | Graph/UnweightedUndirectedLinkGraph.h:78-89 | on an unweighted mirrored graph entry `[i*n+j]` is true iff `ExistEdge(i, j)` |
| UndirectedLink.UnweightedSetWeight | Graph/UnweightedDirectedLinkGraph.h:148-155 | on a consistent graph the edge exists in both directions afterwards iff the weight is non-null, and the invariant holds |
| UndirectedLink.WeightedSetWeight | Graph/WeightedDirectedLinkGraph.h:86-109 | NullValue removes both directions and keeps the invariant; any other weight is the one-chain directed write; keeps `NoNull` |
| UndirectedLink.WeightedSetWeightOneSided | Graph/WeightedDirectedLinkGraph.h:94-108 | a non-null write reaches `(a, b)` only: `(b, a)` keeps its old weight, and a missing edge becomes one-directional |
| UndirectedLink.RemoveVertexSymmetric | Graph/UnweightedDirectedLinkGraph.h:157-200 | the inherited RemoveVertex keeps the chains mirrored |
| UndirectedLink.RemoveVertexOvercount | Graph/UnweightedDirectedLinkGraph.h:157-166 | on two vertices joined by one edge, removing vertex 0 leaves no edge and a counter of -1, read as `2^64 - 1` |
| ShortestPath.Clear | Graph/ShortestPath.h:76-87 | the result is empty afterwards and the source is kept |
| ShortestPath.Init | Graph/ShortestPath.h:120-126 | `num` entries, each unreached with predecessor `num`; empty iff `num == 0` |
| ShortestPath.ForeachPath | Graph/ShortestPath.h:101-118 | nothing when the target has no predecessor; otherwise the source followed by the predecessor chain up to the target, root first |
| ShortestPath.Visit | Graph/ShortestPath.h:156-164 | the neighbour callback reaches `i` at most one hop beyond `pos`, never changes a reached entry, and only extends the queue |
| ShortestPath.Mark | Graph/ShortestPath.h:158-163 | giving an unreached neighbour distance `dist[pos] + 1` and predecessor `pos` keeps the breadth-first invariant |
| ShortestPath.MarkTree | Graph/ShortestPath.h:158-163 | that step keeps every reached vertex one edge behind a reached predecessor with distance one more |
| ShortestPath.Expand | Graph/ShortestPath.h:154-164 | one dequeue-and-expand pass keeps the breadth-first invariant one queue entry further on |
| ShortestPath.UnweightedSSSP | Graph/ShortestPath.h:144-166 | a vertex has a distance iff it is reachable from the source, that distance is the least number of edges, and each reached non-source vertex sits one edge behind its predecessor |
| ShortestPath.BfsStart | Graph/ShortestPath.h:148-150 | the initial state with only the source queued satisfies the invariant |
| ShortestPath.BfsDone | Graph/ShortestPath.h:152-165 | with the queue drained the result is hop-solved |
| ShortestPath.HopRanked | Graph/ShortestPath.h:158-163 | breadth-first distances strictly rise along predecessor links, so every chain ForeachPath follows ends |
| ShortestPath.TreeLength | Graph/ShortestPath.h:101-118 | the predecessor chain of a reached target has exactly as many vertices as its distance |
| ShortestPath.TreePath | Graph/ShortestPath.h:101-118 | behind the source, the predecessor chain of a reached target other than the source is a path to it |
| ShortestPath.HopPath | Graph/ShortestPath.h:101-118 | after a breadth-first run the emitted path runs from the source to the target along edges with the least number of edges |
| Dijkstra.SeedAsWritten | Graph/ShortestPath.h:197-201 | every out-neighbour of the source, the source included, takes the edge weight as distance and the source as predecessor |
| Dijkstra.SeedSelfLoop | Graph/ShortestPath.h:197-201 | with a self-loop at the source, the seed as written makes the source its own predecessor with the loop's weight as its distance, and no ranking of the predecessor links exists |
| Dijkstra.Seed | Graph/ShortestPath.h:197-201 | every out-neighbour other than the source takes the edge weight and the source as predecessor; the source keeps `(0, n)` |
| Dijkstra.SeedInv | Graph/ShortestPath.h:191-201 | after the seed, with only the source collected, the Dijkstra invariant holds |
| Dijkstra.Top | Graph/ShortestPath.h:179-209 | the top of the rebuilt queue is the uncollected vertex of least distance, the least index among equals |
| Dijkstra.Relaxed | Graph/ShortestPath.h:215-223 | an entry either stays or takes a strictly smaller distance with predecessor `u`; collected vertices and non-neighbours stay |
| Dijkstra.Relax | Graph/ShortestPath.h:215-223 | the neighbour pass relaxes every vertex's entry, whatever the order or repetitions of the neighbour list |
| Dijkstra.RelaxedPlain | Graph/ShortestPath.h:217-222 | under the weight bound the 64-bit sum through `u` does not wrap, so relaxing takes the plain smaller sum |
| Dijkstra.Cut | Graph/ShortestPath.h:203-224 | every walk from the source to an uncollected vertex weighs at least the least uncollected distance |
| Dijkstra.Closed | Graph/ShortestPath.h:211-212 | when every uncollected vertex is unreached, every walk from the source stays among collected vertices |
| Dijkstra.Stuck | Graph/ShortestPath.h:211-212 | when the top of the queue is unreached, so is every uncollected vertex |
| Dijkstra.CollectStep | Graph/ShortestPath.h:203-224 | collecting the least uncollected vertex and relaxing its edges keeps the invariant |
| Dijkstra.DoneTree | Graph/ShortestPath.h:203-224 | the invariant gives the weighted predecessor tree and a ranking of its links |
| Dijkstra.DijkstraDone | Graph/ShortestPath.h:203-224 | at either exit of the loop the result is solved |
| Dijkstra.TreeWeight | Graph/ShortestPath.h:215-223 | along the weighted predecessor tree the chain of a reached target other than the source is a walk from the source weighing exactly its distance |
| Dijkstra.WeightPath | Graph/ShortestPath.h:101-118 | after a weighted run the emitted path is a walk from the source to the target of weight equal to its distance, and no walk weighs less |
| Dijkstra.WeightedSSSP | Graph/ShortestPath.h:168-225 | a vertex has a distance iff some walk from the source reaches it, that distance is the least walk weight, each reached non-source vertex sits one edge behind its predecessor with the edge weight making up the difference, and the predecessor links are ranked |
| ShortestPathRun.Execute | Graph/ShortestPath.h:129-142 | with no vertices the result is cleared and empty; otherwise `n` entries, the given source at distance 0 with no predecessor, and a hop-solved or weight-solved result as IsWeighted answers, with terminating predecessor chains |
| ShortestPathRun.SameReach | Graph/ShortestPath.h:138-141 | the breadth-first and the weighted result from one source mark the same vertices reached |
| ShortestPathRun.ExecutePath | Graph/ShortestPath.h:101-118 | after Execute the emitted path is empty iff the target is the source or unreached; otherwise a least-weight walk or a least-hop path from the source to the target |
| MstParent.Cast | Graph/MST.h:125-130 | the cast yields the value of `T` congruent to its argument modulo `2^bits`, and leaves values of `T` unchanged |
| MstParent.Npos | Graph/MST.h:40-41 | NPOS is -1 for a signed `T` and the largest value of an unsigned `T` |
| MstParent.DefaultAsWritten | Graph/MST.h:43-63 | the defaulted constructor leaves the array null but the size holding whatever the storage held |
| MstParent.DefaultIndeterminate | Graph/MST.h:43-63 | a default-initialised tree can claim a vertex while owning no array: it is not empty and its array does not cover its size |
| MstParent.Default | Graph/MST.h:43-63 | with the size initialised, a default tree is empty, of size 0, without an array |
| MstParent.Clear | Graph/MST.h:94-107 | afterwards the tree is empty, of size 0, without an array |
| MstParent.ClearGet | Graph/MST.h:94-113 | after Clear every query answers NPOS |
| MstParent.GetParent | Graph/MST.h:109-113 | the stored parent of an in-range vertex; NPOS for any vertex whose size_t reading is at least the size |
| MstParent.SetVertexNum | Graph/MST.h:115-123 | afterwards the tree has the requested size, is empty iff that size is 0, and holds one `T` value per vertex |
| MstParent.SetParent | Graph/MST.h:125-130 | an out-of-range vertex changes nothing; the size is kept |
| MstParent.SetGet | Graph/MST.h:125-130 | a root (`size_t(-1)`) reads back as NPOS, a parent `T` can hold reads back unchanged, a wider one reads back truncated to `T` |
| MstParent.SetOther | Graph/MST.h:125-130 | SetParent leaves the parent of every other vertex unchanged |
| MstParent.Move | Graph/MST.h:73-80 | the new tree answers every query as the old one did and has its size; the moved-from tree is empty without an array |

## Findings

| source | as written | input that shows it | evidently intended | confidence | as-written member | corrected member |
|---|---|---|---|---|---|---|
| Graph/ShortestPath.h:197-201 | the seeding pass writes every out-neighbour of the source, the source itself included, without the `collected` check the relaxation pass makes | one vertex with a self-loop of weight 5, `Execute(g, 0)` on a weighted graph | the collected source keeps distance 0 and no predecessor; ForeachPath from the source emits nothing | medium, not executed | Dijkstra.SeedAsWritten (lemma Dijkstra.SeedSelfLoop: the source becomes its own predecessor at distance 5, so ForeachPath's loop never ends) | Dijkstra.Seed (used by Dijkstra.WeightedSSSP, whose result is weight-solved with ranked predecessor links) |
| Graph/MST.h:43-63 | the defaulted constructor initialises `m_vertex` but not `m_size` | `MST_Parent<int> t;` as a local, then `t.IsEmpty()` or `t.GetParent(0)` | a fresh tree is empty | medium, not executed | MstParent.DefaultAsWritten (lemma MstParent.DefaultIndeterminate: with leftover size 1 the tree is not empty and its array does not cover its size) | MstParent.Default (empty, size 0, no array) |

## Left out

- GetMemoryUsage and Shrink_To_Fit in every class: they report `sizeof`, pointer-width and vector-capacity figures and change no observable state.
- new/delete, destructors, CreateEdgeNode/DestroyEdgeNode pointer handling, allocation failure and the edge-type `static_assert`s: chains are sequences, and creation and destruction appear only as the counter's +1 and -1.
- Callbacks: every `std::function` iteration returns the sequence of values the callback would receive.
- Prim, Kruskal, union-find and Floyd-Warshall: GetMST is only declared (Graph/GraphBase.h:98, Graph/WeightedUndirectedLinkGraph.h:101-106) and the algorithms are not part of this model. MST_Parent is modelled as a container.
- DecimalSSSP: floating point is not modelled; only the `unsigned long long` instance is.
- Graph/Graph.h only includes the other headers.
- Default arguments: the C++ default weights of the unweighted InsertEdge overloads are written out at each call, since Dafny has no default parameters. They are `const char& weight = 1` and `const bool& weight = true` (Graph/UnweightedDirectedMatrixGraph.h:18,43; Graph/UnweightedUndirectedMatrixGraph.h:14,34), and `= true` in the link headers (Graph/UnweightedDirectedLinkGraph.h:40; Graph/UnweightedUndirectedLinkGraph.h:18).
- Field readers carry no contract of their own; each returns the datatype field, and the contracts that use them state their values:
  - GetVertex, GetVertexNum and GetEdgeNum of GraphBase;
  - ShortestPath.GetVertexNum, ShortestPath.IsEmpty, ShortestPath.GetSrc and ShortestPath.GetDistance, which read `m_info.size()`, `m_info.empty()`, `m_src` and `m_info[target].dist` (Graph/ShortestPath.h:69-99);
  - MstParent.GetVertexNum and MstParent.IsEmpty, which read `m_size` (Graph/MST.h:88-107).
- ShortestPath.GetDistance: requires `target < GetVertexNum()`. The code indexes `m_info[target]` without a bounds check, and an out-of-range target is undefined behaviour.
- WeightedSSSP hands ForeachOutNeighbor a three-argument callback, and Execute calls an IsWeighted that GraphBase does not declare. The model gives the weighted run an `n x n` matrix of optional weights that agrees with the out-neighbour lists, and passes the IsWeighted answer as the `weighted` argument.
- The `dist < 0` tests in WeightedSSSP (operator< and the relaxation) are always false for the unsigned distance type and are left out.
- Indeterminate memory: `new T[size]` contents in SetVertexNum and a default-initialised `m_size` are a `junk` parameter.
- Signed index types: conversions of out-of-range values to a signed `T` follow the two's-complement rule of C++20.
- ShortestPathRun.Execute: requires `src < n` on a non-empty graph (the source indexes `m_info` unchecked). It also requires fewer than `2^64 - 1` vertices, and for a weighted run weights no larger than `(2^64 - 2) / n`, so that no 64-bit sum wraps.
- Dijkstra.WeightedSSSP: the same weight bound (`Light`) as Execute.
- Dijkstra.WeightedSSSP: runs the corrected seed `Dijkstra.Seed`, which skips the source. The seeding pass as written also writes the source when it has a self-loop (`Dijkstra.SeedAsWritten`, "## Findings").
- ShortestPathRun.Execute: the source's distance 0 and missing predecessor hold because the corrected seed is used. As written, a self-loop at the source overwrites both (`Dijkstra.SeedSelfLoop`).
- ShortestPath.UnweightedSSSP: the same vertex-count bound as Execute, so no hop count reaches the "unreached" mark.
- GraphBase.GetVertexPos: requires fewer than `2^64 - 1` payloads, which any vector meets.
- DirectedLink.WeightedSetWeight: a non-null weight requires a non-empty chain, because the code reads the chain head before searching (Graph/WeightedDirectedLinkGraph.h:95) and an empty chain is a null dereference.
- UndirectedLink.WeightedSetWeight: the same non-empty-chain requirement, since it runs the inherited SetWeight.
- DirectedLink.GetWeight: the node's weight is stated only for chains without repeated targets. That is the invariant every operation keeps, and on any chain it is the first node's weight. "NullValue means no edge" is stated for graphs satisfying `NoNull`, which every weighted operation keeps.
- UndirectedLink.InsertEdge: the function's own contract states only the null no-op. Its effect on consistent graphs is stated by UndirectedLink.InsertEdgeInv, UndirectedLink.InsertShape, UndirectedLink.InsertWeights and UndirectedLink.NullInsertDrift.
- UndirectedLink.RemoveEdge: the function's own contract states only the no-op. Its effect on consistent graphs is stated by UndirectedLink.RemoveEdgeInv and UndirectedLink.RemoveFrame.
- UndirectedLink.RemoveEdgeInv and UndirectedLink.InsertEdgeInv: require the counter to stay below `2^64` (less two for an insert). Above that the size_t comparison that picks the correction wraps.
- MatrixGraph.InsertEdgeCounted: requires a non-null weight. A null weight raises the counter without storing an edge, and MatrixGraph.InsertNullDrift states that case.
- Source behaviours modelled as written and exhibited by lemmas rather than corrected:
  - the directed-matrix RemoveVertex counts only out-edges (DirectedMatrix.RemoveVertexDrift);
  - a null-weight matrix insert raises the counter (MatrixGraph.InsertNullDrift);
  - undirected link graphs inherit a RemoveVertex that takes one off per physical node (UndirectedLink.RemoveVertexOvercount);
  - a null-weight undirected link insert leaves the counter one too high (UndirectedLink.NullInsertDrift);
  - the undirected weighted SetWeight writes one direction (UndirectedLink.WeightedSetWeightOneSided).

=== FILE: adjacency.dfy ===
/** The flat n*n adjacency vector every representation hands out from
    GetAdjacencyMatrix: cell (i, j) lives at i*n+j. Two ways of filling
    it occur: concatenating the rows of a square matrix, and painting the
    edges reported by ForeachEdge over a vector of default values. */
module Adjacency {
  import opened Common

  /** One report of ForeachEdge: source, target and weight. */
  datatype Edge<W> = Edge(from: nat, to: nat, w: W)

  /** Position of cell (i, j) in a row-major vector with rows of width n. */
  function Cell(n: nat, i: nat, j: nat): nat
  {
    i * n + j
  }

  /** Cells of the first m rows come before position m*n. */
  lemma CellBound(n: nat, m: nat, i: nat, j: nat)
    requires i < m && j < n
    ensures Cell(n, i, j) < m * n
  {
    assert (i + 1) * n == i * n + n;
    MulLe(i + 1, m, n);
  }

  lemma CellInjective(n: nat, i: nat, j: nat, i': nat, j': nat)
    requires j < n && j' < n
    requires Cell(n, i, j) == Cell(n, i', j')
    ensures i == i' && j == j'
  {
    if i < i' {
      CellBound(n, i', i, j);
      MulLe(i', i' , n);
    } else if i' < i {
      CellBound(n, i, i', j');
    }
  }

  /** Rows of width n, concatenated in order. */
  function Flatten<W>(rows: seq<seq<W>>, n: nat): (r: seq<W>)
    requires forall i :: 0 <= i < |rows| ==> |rows[i]| == n
    ensures |r| == |rows| * n
  {
    if |rows| == 0 then []
    else
      assert |rows| * n == (|rows| - 1) * n + n;
      Flatten(rows[..|rows| - 1], n) + rows[|rows| - 1]
  }

  lemma {:induction false} FlattenCell<W>(rows: seq<seq<W>>, n: nat, i: nat, j: nat)
    requires forall k :: 0 <= k < |rows| ==> |rows[k]| == n
    requires i < |rows| && j < n
    ensures Cell(n, i, j) < |Flatten(rows, n)|
    ensures Flatten(rows, n)[Cell(n, i, j)] == rows[i][j]
  {
    CellBound(n, |rows|, i, j);
    var init := rows[..|rows| - 1];
    if i < |rows| - 1 {
      FlattenCell(init, n, i, j);
    } else {
      assert |Flatten(init, n)| == i * n;
    }
  }

  lemma FlattenAll<W>(rows: seq<seq<W>>, n: nat)
    requires forall k :: 0 <= k < |rows| ==> |rows[k]| == n
    ensures forall i, j :: 0 <= i < |rows| && 0 <= j < n ==>
              Cell(n, i, j) < |Flatten(rows, n)| && Flatten(rows, n)[Cell(n, i, j)] == rows[i][j]
  {
    forall i, j | 0 <= i < |rows| && 0 <= j < n
      ensures Cell(n, i, j) < |Flatten(rows, n)| && Flatten(rows, n)[Cell(n, i, j)] == rows[i][j]
    {
      FlattenCell(rows, n, i, j);
    }
  }

  /** Edge `e` paints cell (i, j): its own cell, and with `mirror` also
      the transposed one. */
  predicate Hits<W>(e: Edge<W>, i: nat, j: nat, mirror: bool)
  {
    (e.from == i && e.to == j) || (mirror && e.from == j && e.to == i)
  }

  /** No two edges paint a common cell. */
  predicate Disjoint<W>(edges: seq<Edge<W>>, mirror: bool)
  {
    forall a, b :: 0 <= a < b < |edges| ==> !Hits(edges[b], edges[a].from, edges[a].to, mirror)
  }

  predicate InGrid<W>(edges: seq<Edge<W>>, n: nat)
  {
    forall k :: 0 <= k < |edges| ==> edges[k].from < n && edges[k].to < n
  }

  /** The adjacency vector after the ForeachEdge callback that stores each
      reported weight at [from*n+to] and, with `mirror`, also at
      [to*n+from]. */
  function Paint<W>(cells: seq<W>, n: nat, edges: seq<Edge<W>>, mirror: bool): (r: seq<W>)
    requires |cells| == n * n && InGrid(edges, n)
    ensures |r| == n * n
    decreases |edges|
  {
    if |edges| == 0 then cells
    else
      var e := edges[|edges| - 1];
      var c := Paint(cells, n, edges[..|edges| - 1], mirror);
      CellBound(n, n, e.from, e.to);
      CellBound(n, n, e.to, e.from);
      var c1 := c[Cell(n, e.from, e.to) := e.w];
      if mirror then c1[Cell(n, e.to, e.from) := e.w] else c1
  }

  /** With disjoint edges, a painted cell holds the weight of the edge that
      paints it and every other cell keeps its initial value. */
  lemma {:induction false} PaintCells<W>(cells: seq<W>, n: nat, edges: seq<Edge<W>>, mirror: bool, i: nat, j: nat)
    requires |cells| == n * n && InGrid(edges, n) && Disjoint(edges, mirror)
    requires i < n && j < n
    ensures Cell(n, i, j) < n * n
    ensures forall k :: 0 <= k < |edges| && Hits(edges[k], i, j, mirror) ==>
              Paint(cells, n, edges, mirror)[Cell(n, i, j)] == edges[k].w
    ensures (forall k :: 0 <= k < |edges| ==> !Hits(edges[k], i, j, mirror)) ==>
              Paint(cells, n, edges, mirror)[Cell(n, i, j)] == cells[Cell(n, i, j)]
    decreases |edges|
  {
    CellBound(n, n, i, j);
    if |edges| > 0 {
      var last := |edges| - 1;
      var e := edges[last];
      var init := edges[..last];
      assert Disjoint(init, mirror) && InGrid(init, n);
      PaintCells(cells, n, init, mirror, i, j);
      var c := Paint(cells, n, init, mirror);
      var r := Paint(cells, n, edges, mirror);
      var x := Cell(n, i, j);
      CellBound(n, n, e.from, e.to);
      CellBound(n, n, e.to, e.from);
      assert r == (var c1 := c[Cell(n, e.from, e.to) := e.w];
                   if mirror then c1[Cell(n, e.to, e.from) := e.w] else c1);
      if Hits(e, i, j, mirror) {
        assert r[x] == e.w;
        forall k | 0 <= k < |edges| && Hits(edges[k], i, j, mirror)
          ensures k == last
        {
          assert k < last ==> !Hits(e, edges[k].from, edges[k].to, mirror);
        }
      } else {
        if x == Cell(n, e.from, e.to) {
          CellInjective(n, i, j, e.from, e.to);
        }
        if mirror && x == Cell(n, e.to, e.from) {
          CellInjective(n, i, j, e.to, e.from);
        }
        assert r[x] == c[x];
        forall k | 0 <= k < last
          ensures init[k] == edges[k]
        {
        }
      }
    }
  }
}

=== FILE: common.dfy ===
/** Definitions shared by every graph representation: the optional-weight
    view, the size_t counter reading, vector erasure, the index renumbering
    that vertex removal performs, and ascending index filters. */
module Common {

  datatype Option<T> = None | Some(value: T)

  /** size_t has 64 bits. */
  const SIZE_MOD: int := 0x1_0000_0000_0000_0000

  /** static_cast<size_t>(-1), the "no position" marker. */
  const NPOS: int := SIZE_MOD - 1

  /** The value a size_t counter holds after the same sequence of
      increments and decrements as the unbounded `k` (size_t arithmetic
      wraps modulo 2^64, and reduction commutes with +1 and -1). */
  function Size(k: int): (r: nat)
    ensures r < SIZE_MOD
    ensures 0 <= k < SIZE_MOD ==> r == k
    ensures -SIZE_MOD <= k < 0 ==> r == k + SIZE_MOD
  {
    k % SIZE_MOD
  }

  /** Multiplication by a natural number is monotone. */
  lemma MulLe(a: nat, b: nat, n: nat)
    requires a <= b
    ensures a * n <= b * n
  {
    assert b * n == a * n + (b - a) * n;
  }

  /** Old index of the vertex that sits at index `k` once vertex `v` has
      been removed: indices below `v` keep their place, the others moved
      down by one. */
  function Shift(v: nat, k: nat): nat
  {
    if k < v then k else k + 1
  }

  /** New index of the surviving old vertex `m` after removing `v`. */
  function Unshift(v: nat, m: nat): nat
    requires m != v
  {
    if m < v then m else m - 1
  }

  lemma ShiftUnshift(v: nat, k: nat, m: nat)
    ensures Shift(v, k) != v
    ensures Unshift(v, Shift(v, k)) == k
    ensures m != v ==> Shift(v, Unshift(v, m)) == m
  {
  }

  /** std::vector::erase of the element at `i`. */
  function Erase<X>(s: seq<X>, i: nat): (r: seq<X>)
    requires i < |s|
    ensures |r| == |s| - 1
    ensures forall k :: 0 <= k < |r| ==> r[k] == s[Shift(i, k)]
  {
    s[..i] + s[i + 1..]
  }

  /** The indices `i` with `mask[i]`, in ascending order: what a loop
      `for (i = 0; i < size; ++i) if (cond(i)) func(i);` reports. */
  function Indices(mask: seq<bool>): (r: seq<nat>)
    ensures forall k :: 0 <= k < |r| ==> r[k] < |mask| && mask[r[k]]
    ensures forall i :: 0 <= i < |mask| && mask[i] ==> i in r
    ensures forall a, b :: 0 <= a < b < |r| ==> r[a] < r[b]
  {
    if |mask| == 0 then []
    else
      var init := Indices(mask[..|mask| - 1]);
      if mask[|mask| - 1] then init + [|mask| - 1] else init
  }

  /** A sequence without repeated elements. */
  ghost predicate Distinct<X>(s: seq<X>)
  {
    forall a, b :: 0 <= a < b < |s| ==> s[a] != s[b]
  }

  /** Number of elements of `s` different from `nv`. */
  function CountNot<X(==)>(s: seq<X>, nv: X): nat
  {
    if |s| == 0 then 0
    else CountNot(s[..|s| - 1], nv) + (if s[|s| - 1] != nv then 1 else 0)
  }

  lemma {:induction false} CountNotAppend<X>(s: seq<X>, t: seq<X>, nv: X)
    ensures CountNot(s + t, nv) == CountNot(s, nv) + CountNot(t, nv)
    decreases |t|
  {
    if |t| == 0 {
      assert s + t == s;
    } else {
      assert (s + t)[..|s + t| - 1] == s + t[..|t| - 1];
      CountNotAppend(s, t[..|t| - 1], nv);
    }
  }

  /** Overwriting one element changes the count by the difference of the
      old and the new element's contribution. */
  lemma CountNotUpdate<X>(s: seq<X>, i: nat, x: X, nv: X)
    requires i < |s|
    ensures CountNot(s[i := x], nv)
            == CountNot(s, nv) - (if s[i] != nv then 1 else 0) + (if x != nv then 1 else 0)
  {
    assert s == s[..i] + [s[i]] + s[i + 1..];
    assert s[i := x] == s[..i] + [x] + s[i + 1..];
    CountNotAppend(s[..i] + [s[i]], s[i + 1..], nv);
    CountNotAppend(s[..i], [s[i]], nv);
    CountNotAppend(s[..i] + [x], s[i + 1..], nv);
    CountNotAppend(s[..i], [x], nv);
    assert [s[i]][..0] == [];
    assert [x][..0] == [];
  }

  lemma CountNotErase<X>(s: seq<X>, i: nat, nv: X)
    requires i < |s|
    ensures CountNot(Erase(s, i), nv) == CountNot(s, nv) - (if s[i] != nv then 1 else 0)
  {
    var a, b := s[..i], s[i + 1..];
    SplitAt(s, i);
    CountNotAppend(a + [s[i]], b, nv);
    CountNotAppend(a, [s[i]], nv);
    CountNotAppend(a, b, nv);
    assert [s[i]][..0] == [];
  }

  /** A sequence is its prefix, the element at `i` and its suffix. */
  lemma SplitAt<X>(s: seq<X>, i: nat)
    requires i < |s|
    ensures s == s[..i] + [s[i]] + s[i + 1..]
  {
  }

  lemma CountNotAllNull<X>(s: seq<X>, nv: X)
    requires forall k :: 0 <= k < |s| ==> s[k] == nv
    ensures CountNot(s, nv) == 0
  {
    if |s| > 0 {
      CountNotAllNull(s[..|s| - 1], nv);
    }
  }

  /** Number of set entries of `mask`. */
  function Count(mask: seq<bool>): nat
  {
    if |mask| == 0 then 0
    else Count(mask[..|mask| - 1]) + (if mask[|mask| - 1] then 1 else 0)
  }

  lemma {:induction false} CountLe(mask: seq<bool>)
    ensures Count(mask) <= |mask|
  {
    if |mask| > 0 {
      CountLe(mask[..|mask| - 1]);
    }
  }

  /** Setting a clear entry adds one to the count. */
  lemma {:induction false} CountSet(mask: seq<bool>, i: nat)
    requires i < |mask| && !mask[i]
    ensures Count(mask[i := true]) == Count(mask) + 1
  {
    var n := |mask| - 1;
    if i == n {
      assert mask[i := true][..n] == mask[..n];
    } else {
      assert mask[i := true][..n] == mask[..n][i := true];
      CountSet(mask[..n], i);
    }
  }

  /** A clear entry keeps the count below the length. */
  lemma {:induction false} CountBelow(mask: seq<bool>, i: nat)
    requires i < |mask| && !mask[i]
    ensures Count(mask) < |mask|
  {
    var n := |mask| - 1;
    CountLe(mask[..n]);
    if i < n {
      CountBelow(mask[..n], i);
    }
  }

  /** An all-clear mask counts zero. */
  lemma {:induction false} CountNone(n: nat)
    ensures Count(seq(n, _ => false)) == 0
  {
    if n > 0 {
      assert seq(n, _ => false)[..n - 1] == seq(n - 1, _ => false);
      CountNone(n - 1);
    }
  }

  /** An all-set mask counts its length. */
  lemma {:induction false} CountFull(mask: seq<bool>)
    requires forall i :: 0 <= i < |mask| ==> mask[i]
    ensures Count(mask) == |mask|
  {
    if |mask| > 0 {
      CountFull(mask[..|mask| - 1]);
    }
  }

  /** A mask counting less than its length has a clear entry. */
  lemma {:induction false} SomeClear(mask: seq<bool>) returns (i: nat)
    requires Count(mask) < |mask|
    ensures i < |mask| && !mask[i]
  {
    var n := |mask| - 1;
    if !mask[n] {
      i := n;
    } else {
      i := SomeClear(mask[..n]);
    }
  }

  /** A mask counting its length is all set. */
  lemma {:induction false} AllSet(mask: seq<bool>)
    requires Count(mask) == |mask|
    ensures forall i :: 0 <= i < |mask| ==> mask[i]
  {
    if |mask| > 0 {
      var n := |mask| - 1;
      CountLe(mask[..n]);
      AllSet(mask[..n]);
      assert forall i :: 0 <= i < n ==> mask[i] == mask[..n][i];
    }
  }

  /** The ascending filter reports one index per set entry. */
  lemma {:induction false} IndicesCount(mask: seq<bool>)
    ensures |Indices(mask)| == Count(mask)
  {
    if |mask| > 0 {
      IndicesCount(mask[..|mask| - 1]);
    }
  }

  /** Counting the entries different from `nv` is counting the set entries
      of the mask that marks them. */
  lemma {:induction false} CountNotMask<X>(s: seq<X>, nv: X)
    ensures CountNot(s, nv) == Count(seq(|s|, k requires 0 <= k < |s| => s[k] != nv))
  {
    if |s| > 0 {
      var init := s[..|s| - 1];
      CountNotMask(init, nv);
      var m := seq(|s|, k requires 0 <= k < |s| => s[k] != nv);
      assert m[..|s| - 1] == seq(|init|, k requires 0 <= k < |init| => init[k] != nv);
    }
  }

  /** The set of indices below `n`. */
  function Range(n: nat): (r: set<nat>)
    ensures forall i: nat :: i in r <==> i < n
    ensures |r| == n
  {
    if n == 0 then {} else Range(n - 1) + {n - 1}
  }

  /** A repetition-free sequence of indices below `n` has at most `n`
      elements. */
  lemma {:induction false} DistinctBound(s: seq<nat>, n: nat)
    requires Distinct(s)
    requires forall k :: 0 <= k < |s| ==> s[k] < n
    ensures |s| <= n
  {
    var elems := set k | 0 <= k < |s| :: s[k];
    DistinctCard(s);
    assert elems <= Range(n);
    SubsetCard(elems, Range(n));
  }

  lemma {:induction false} DistinctCard(s: seq<nat>)
    requires Distinct(s)
    ensures |set k | 0 <= k < |s| :: s[k]| == |s|
  {
    if |s| > 0 {
      var t := s[..|s| - 1];
      DistinctCard(t);
      var a := set k | 0 <= k < |t| :: t[k];
      var b := set k | 0 <= k < |s| :: s[k];
      assert b == a + {s[|s| - 1]};
      assert s[|s| - 1] !in a;
    }
  }

  lemma SubsetCard<X>(a: set<X>, b: set<X>)
    requires a <= b
    ensures |a| <= |b|
  {
    assert b == a + (b - a);
  }
}

=== FILE: dijkstra.dfy ===
/** WeightedSSSP of ShortestPath.h: Dijkstra's algorithm. The source is
    collected first and its out-neighbours seeded; each round rebuilds a
    priority queue from the uncollected vertices, collects its top and
    relaxes the top's out-edges, until n - 1 rounds have run or the top is
    unreached. Distances are 64-bit unsigned; the graph is seen as an
    n x n matrix of optional weights agreeing with its out-neighbour
    lists. */
module Dijkstra {
  import opened Common
  import opened Paths
  import opened WeightedPaths
  import opened ShortestPath

  /** The largest distance that is not the "unreached" mark. */
  const MAX_DIST: nat := NULL_DIST - 1

  /** Weights small enough that no distance the run computes wraps or
      reaches the "unreached" mark: n times any weight stays within
      MAX_DIST. */
  ghost predicate Light(wt: seq<seq<Option<nat>>>)
  {
    && Square(wt)
    && forall u, v :: 0 <= u < |wt| && 0 <= v < |wt| && wt[u][v].Some? ==> |wt| * wt[u][v].value <= MAX_DIST
  }

  /* ---------------- the pieces of one run ---------------- */

  /** The initial ForeachOutNeighbor(src) as written: every out-neighbour
      takes the edge weight as its distance and the source as its
      predecessor, with nothing checked. */
  method SeedAsWritten(adj: seq<seq<nat>>, wt: seq<seq<Option<nat>>>, info: seq<Info>, src: nat)
    returns (info': seq<Info>)
    requires Agree(adj, wt) && |info| == |wt| && src < |wt|
    ensures |info'| == |info|
    ensures forall v :: 0 <= v < |info| ==>
              info'[v] == if wt[src][v].Some? then Info(Size(wt[src][v].value), src) else info[v]
  {
    info' := info;
    for k := 0 to |adj[src]|
      invariant |info'| == |info|
      invariant forall v :: 0 <= v < |info| ==>
                  info'[v] == if v in adj[src][..k] then Info(Size(wt[src][v].value), src) else info[v]
    {
      var v := adj[src][k];
      assert adj[src][..k + 1] == adj[src][..k] + [v];
      info' := info'[v := Info(Size(wt[src][v].value), src)];
    }
    assert adj[src][..|adj[src]|] == adj[src];
  }

  /** With a self-loop at the source, the seeding as written makes the
      source its own predecessor: no ranking of the predecessor links
      exists, so the chain ForeachPath follows from the source never
      reaches the "none" mark, and the source's distance becomes the loop
      weight instead of 0. */
  lemma SeedSelfLoop(wt: seq<seq<Option<nat>>>, src: nat, info: seq<Info>, info': seq<Info>)
    requires Square(wt) && src < |wt| && |info| == |wt| && |info'| == |wt| && wt[src][src].Some?
    requires forall v :: 0 <= v < |info| ==>
               info'[v] == if wt[src][v].Some? then Info(Size(wt[src][v].value), src) else info[v]
    ensures info'[src].prev == src && info'[src].dist == Size(wt[src][src].value)
    ensures forall rank :: !Ranked(Sssp(src, info'), rank)
  {
    assert info'[src] == Info(Size(wt[src][src].value), src);
  }

  /** The seeding pass with the check the relaxation pass makes: the
      collected source is skipped, every other out-neighbour takes the edge
      weight and the source as predecessor. */
  method Seed(adj: seq<seq<nat>>, wt: seq<seq<Option<nat>>>, info: seq<Info>, src: nat) returns (info': seq<Info>)
    requires Agree(adj, wt) && |info| == |wt| && src < |wt|
    ensures |info'| == |info| && info'[src] == info[src]
    ensures forall v :: 0 <= v < |info| ==>
              info'[v] == if wt[src][v].Some? && v != src then Info(Size(wt[src][v].value), src) else info[v]
  {
    info' := info;
    for k := 0 to |adj[src]|
      invariant |info'| == |info|
      invariant forall v :: 0 <= v < |info| ==>
                  info'[v] == if v in adj[src][..k] && v != src then Info(Size(wt[src][v].value), src) else info[v]
    {
      var v := adj[src][k];
      assert adj[src][..k + 1] == adj[src][..k] + [v];
      if v != src {
        info' := info'[v := Info(Size(wt[src][v].value), src)];
      }
    }
    assert adj[src][..|adj[src]|] == adj[src];
  }

  /** One priority-queue element, _VertexInfo: a vertex and its distance. */
  datatype Entry = Entry(pos: nat, dist: nat)

  /** _VertexInfo::operator<: between equal distances the higher vertex is
      smaller, otherwise the longer distance is. The distance is unsigned,
      so the two `dist < 0` tests never hold and are left out. */
  predicate Less(a: Entry, b: Entry)
  {
    if a.dist == b.dist then a.pos > b.pos else a.dist > b.dist
  }

  /** pq.top() of the queue rebuilt from the uncollected vertices: the
      entry no other entry outranks, which is the uncollected vertex of
      least distance, the least such vertex among equals. */
  method Top(col: seq<bool>, info: seq<Info>) returns (u: nat)
    requires |col| == |info| && exists v :: 0 <= v < |col| && !col[v]
    ensures u < |col| && !col[u]
    ensures forall v :: 0 <= v < |col| && !col[v] ==> !Less(Entry(u, info[u].dist), Entry(v, info[v].dist))
    ensures forall v :: 0 <= v < |col| && !col[v] ==>
              info[u].dist < info[v].dist || (info[u].dist == info[v].dist && u <= v)
  {
    var found := false;
    u := 0;
    for i := 0 to |col|
      invariant found ==> u < i && !col[u]
      invariant found ==> forall v :: 0 <= v < i && !col[v] ==> !Less(Entry(u, info[u].dist), Entry(v, info[v].dist))
      invariant !found ==> forall v :: 0 <= v < i ==> col[v]
    {
      if !col[i] && (!found || Less(Entry(u, info[u].dist), Entry(i, info[i].dist))) {
        u := i;
        found := true;
      }
    }
  }

  /** The entry of `v` once the edges of the collected `u` are relaxed: an
      uncollected out-neighbour whose distance the 64-bit sum through `u`
      beats takes that sum and `u` as predecessor. */
  function Relaxed(wt: seq<seq<Option<nat>>>, col: seq<bool>, info: seq<Info>, u: nat, v: nat): (r: Info)
    requires Square(wt) && |col| == |wt| && |info| == |wt| && u < |wt| && v < |wt|
    ensures r == info[v] || (r.prev == u && r.dist < info[v].dist)
    ensures col[v] || wt[u][v].None? ==> r == info[v]
  {
    if wt[u][v].Some? && !col[v] && Size(info[u].dist + wt[u][v].value) < info[v].dist
    then Info(Size(info[u].dist + wt[u][v].value), u)
    else info[v]
  }

  /** The ForeachOutNeighbor(top) pass of a round. Listing a neighbour
      twice changes nothing, so the result is the relaxed entry of every
      vertex whatever the order of the list. */
  method Relax(adj: seq<seq<nat>>, wt: seq<seq<Option<nat>>>, col: seq<bool>, info: seq<Info>, u: nat)
    returns (info': seq<Info>)
    requires Agree(adj, wt) && |col| == |wt| && |info| == |wt| && u < |wt| && col[u]
    ensures |info'| == |info|
    ensures forall v :: 0 <= v < |info| ==> info'[v] == Relaxed(wt, col, info, u, v)
  {
    info' := info;
    for k := 0 to |adj[u]|
      invariant |info'| == |info| && info'[u] == info[u]
      invariant forall v :: 0 <= v < |info| ==>
                  info'[v] == if v in adj[u][..k] then Relaxed(wt, col, info, u, v) else info[v]
    {
      var v := adj[u][k];
      var w := wt[u][v].value;
      assert adj[u][..k + 1] == adj[u][..k] + [v];
      if !col[v] && Size(info'[u].dist + w) < info'[v].dist {
        info' := info'[v := Info(Size(info'[u].dist + w), u)];
      }
    }
    assert adj[u][..|adj[u]|] == adj[u];
  }

  /* ---------------- the invariant of the rounds ---------------- */

  /** Sizes, the collected source at (0, n), and `cnt` collected vertices. */
  ghost predicate Shape(wt: seq<seq<Option<nat>>>, src: nat, info: seq<Info>, col: seq<bool>, cnt: nat,
                        rank: seq<nat>)
  {
    && Square(wt) && src < |wt| && |info| == |wt| && |col| == |wt| && |rank| == |wt|
    && col[src] && info[src] == Info(0, |wt|) && Count(col) == cnt && 0 < cnt <= |wt|
  }

  /** `v` hangs below its predecessor: a collected vertex joined to `v` by
      an edge whose weight makes up the difference, and ranked lower. */
  ghost predicate Linked(wt: seq<seq<Option<nat>>>, info: seq<Info>, col: seq<bool>, rank: seq<nat>, v: nat)
    requires Square(wt) && |info| == |wt| && |col| == |wt| && |rank| == |wt| && v < |wt|
  {
    var p := info[v].prev;
    && p < |wt| && col[p] && wt[p][v].Some?
    && info[v].dist == info[p].dist + wt[p][v].value && rank[p] < rank[v]
  }

  /** What holds of every vertex between rounds: its predecessor link, its
      rank (the round it was collected in, n while uncollected), a bound
      that keeps every sum below the "unreached" mark, and, once
      collected, a distance no walk from the source undercuts. */
  ghost predicate Node(wt: seq<seq<Option<nat>>>, src: nat, info: seq<Info>, col: seq<bool>, cnt: nat,
                       rank: seq<nat>, v: nat)
    requires Shape(wt, src, info, col, cnt, rank) && v < |wt|
  {
    && info[v].prev <= |wt| && info[v].dist <= NULL_DIST
    && (info[v].dist == NULL_DIST ==> info[v].prev == |wt| && !col[v])
    && (v != src && info[v].dist != NULL_DIST ==> Linked(wt, info, col, rank, v))
    && (col[v] ==> rank[v] < cnt && |wt| * info[v].dist <= (cnt - 1) * MAX_DIST)
    && (!col[v] ==> rank[v] == |wt| && (info[v].dist != NULL_DIST ==> |wt| * info[v].dist <= cnt * MAX_DIST))
    && (col[v] ==> forall p :: WPathFromTo(wt, p, src, v) ==> info[v].dist <= Weight(wt, p))
  }

  /** What holds of a collected `c` and an uncollected `v`: `c` is no
      further out, and an edge from `c` bounds the distance of `v`. */
  ghost predicate Front(wt: seq<seq<Option<nat>>>, info: seq<Info>, col: seq<bool>, c: nat, v: nat)
    requires Square(wt) && |info| == |wt| && |col| == |wt| && c < |wt| && v < |wt|
  {
    col[c] && !col[v] ==>
      && info[c].dist <= info[v].dist
      && (wt[c][v].Some? ==> info[v].dist <= info[c].dist + wt[c][v].value)
  }

  ghost predicate DInv(wt: seq<seq<Option<nat>>>, src: nat, info: seq<Info>, col: seq<bool>, cnt: nat,
                       rank: seq<nat>)
  {
    && Shape(wt, src, info, col, cnt, rank)
    && (forall v :: 0 <= v < |wt| ==> Node(wt, src, info, col, cnt, rank, v))
    && (forall c, v :: 0 <= c < |wt| && 0 <= v < |wt| ==> Front(wt, info, col, c, v))
  }

  /** The arithmetic that keeps sums small: a distance within k shares of
      MAX_DIST plus one weight stays within k + 1 shares. */
  lemma Fits(n: nat, k: nat, d: nat, w: nat)
    requires k < n && n * d <= k * MAX_DIST && n * w <= MAX_DIST
    ensures d + w <= MAX_DIST && n * (d + w) <= (k + 1) * MAX_DIST
  {
    assert n * (d + w) == n * d + n * w;
    assert (k + 1) * MAX_DIST == k * MAX_DIST + MAX_DIST;
    MulLe(k + 1, n, MAX_DIST);
    if d + w > MAX_DIST {
      MulLe(MAX_DIST + 1, d + w, n);
    }
  }

  /** An edge out of a collected vertex adds up to no more than MAX_DIST. */
  lemma CollectedFits(wt: seq<seq<Option<nat>>>, src: nat, info: seq<Info>, col: seq<bool>, cnt: nat,
                      rank: seq<nat>, c: nat, v: nat)
    requires DInv(wt, src, info, col, cnt, rank) && Light(wt)
    requires c < |wt| && v < |wt| && col[c] && wt[c][v].Some?
    ensures info[c].dist + wt[c][v].value <= MAX_DIST
  {
    assert Node(wt, src, info, col, cnt, rank, c);
    Fits(|wt|, cnt - 1, info[c].dist, wt[c][v].value);
  }

  /** The state after the seeding pass. */
  lemma SeedInv(wt: seq<seq<Option<nat>>>, src: nat, info0: seq<Info>, info: seq<Info>)
    requires Light(wt) && src < |wt| && info0 == Start(|wt|, src).info
    requires |info| == |wt|
    requires forall v :: 0 <= v < |wt| ==>
               info[v] == if wt[src][v].Some? && v != src then Info(Size(wt[src][v].value), src) else info0[v]
    ensures DInv(wt, src, info, seq(|wt|, v => v == src), 1, seq(|wt|, v => if v == src then 0 else |wt|))
  {
    var n := |wt|;
    var col := seq(n, v => v == src);
    var rank := seq(n, v => if v == src then 0 else n);
    CountNone(n);
    assert col == seq(n, _ => false)[src := true];
    CountSet(seq(n, _ => false), src);
    forall v | 0 <= v < n
      ensures Node(wt, src, info, col, 1, rank, v)
    {
      if wt[src][v].Some? {
        MulLe(1, n, wt[src][v].value);
      }
      if v == src {
        assert forall p :: WPathFromTo(wt, p, src, v) ==> info[v].dist <= Weight(wt, p);
      }
    }
    forall c, v | 0 <= c < n && 0 <= v < n
      ensures Front(wt, info, col, c, v)
    {
      if wt[c][v].Some? {
        MulLe(1, n, wt[c][v].value);
      }
    }
  }

  /** Every walk from the source that ends at an uncollected vertex weighs
      at least `m`, a lower bound of the uncollected distances: it leaves
      the collected set along some edge, and the far end of that edge is
      already that far out. */
  lemma {:induction false} Cut(wt: seq<seq<Option<nat>>>, src: nat, info: seq<Info>, col: seq<bool>, cnt: nat,
                               rank: seq<nat>, m: nat, p: seq<nat>)
    requires DInv(wt, src, info, col, cnt, rank)
    requires forall v :: 0 <= v < |wt| && !col[v] ==> m <= info[v].dist
    requires WPath(wt, p) && p[0] == src && !col[p[|p| - 1]]
    ensures m <= Weight(wt, p)
    decreases |p|
  {
    var q := p[..|p| - 1];
    var x, t := p[|p| - 2], p[|p| - 1];
    WTrim(wt, p);
    if col[x] {
      assert Node(wt, src, info, col, cnt, rank, x);
      assert WPathFromTo(wt, q, src, x);
      assert Front(wt, info, col, x, t);
    } else {
      Cut(wt, src, info, col, cnt, rank, m, q);
    }
  }

  /** When every uncollected vertex is unreached, every walk from the
      source stays among the collected vertices. */
  lemma {:induction false} Closed(wt: seq<seq<Option<nat>>>, src: nat, info: seq<Info>, col: seq<bool>,
                                  cnt: nat, rank: seq<nat>, p: seq<nat>)
    requires DInv(wt, src, info, col, cnt, rank) && Light(wt)
    requires forall v :: 0 <= v < |wt| && !col[v] ==> info[v].dist == NULL_DIST
    requires WPath(wt, p) && p[0] == src
    ensures col[p[|p| - 1]]
    decreases |p|
  {
    if |p| > 1 {
      var x, t := p[|p| - 2], p[|p| - 1];
      WTrim(wt, p);
      Closed(wt, src, info, col, cnt, rank, p[..|p| - 1]);
      CollectedFits(wt, src, info, col, cnt, rank, x, t);
      assert Front(wt, info, col, x, t);
    }
  }

  /* ---------------- one round ---------------- */

  /** What relaxing from the newly collected `u` does to `v`, spelled out
      with the 64-bit sums shown not to wrap. */
  lemma RelaxedPlain(wt: seq<seq<Option<nat>>>, src: nat, info: seq<Info>, col: seq<bool>, cnt: nat,
                     rank: seq<nat>, u: nat, v: nat)
    requires DInv(wt, src, info, col, cnt, rank) && Light(wt)
    requires u < |wt| && !col[u] && info[u].dist != NULL_DIST && v < |wt|
    ensures cnt < |wt|
    ensures col[v] || v == u || wt[u][v].None? ==> Relaxed(wt, col[u := true], info, u, v) == info[v]
    ensures !col[v] && v != u && wt[u][v].Some? ==>
              && info[u].dist + wt[u][v].value <= MAX_DIST
              && |wt| * (info[u].dist + wt[u][v].value) <= (cnt + 1) * MAX_DIST
              && Relaxed(wt, col[u := true], info, u, v)
                 == if info[u].dist + wt[u][v].value < info[v].dist then Info(info[u].dist + wt[u][v].value, u)
                    else info[v]
  {
    CountBelow(col, u);
    assert Node(wt, src, info, col, cnt, rank, u);
    if wt[u][v].Some? {
      Fits(|wt|, cnt, info[u].dist, wt[u][v].value);
    }
  }

  /** The shape after a round. */
  lemma StepShape(wt: seq<seq<Option<nat>>>, src: nat, info: seq<Info>, col: seq<bool>, cnt: nat,
                  rank: seq<nat>, u: nat, info': seq<Info>)
    requires Shape(wt, src, info, col, cnt, rank) && u < |wt| && !col[u]
    requires |info'| == |wt| && info'[src] == info[src]
    ensures Shape(wt, src, info', col[u := true], cnt + 1, rank[u := cnt])
  {
    CountSet(col, u);
    CountLe(col[u := true]);
  }

  /** Every vertex keeps its invariant through a round. */
  lemma StepNode(wt: seq<seq<Option<nat>>>, src: nat, info: seq<Info>, col: seq<bool>, cnt: nat,
                 rank: seq<nat>, u: nat, info': seq<Info>, v: nat)
    requires DInv(wt, src, info, col, cnt, rank) && Light(wt)
    requires u < |wt| && !col[u] && info[u].dist != NULL_DIST
    requires forall x :: 0 <= x < |wt| && !col[x] ==> info[u].dist <= info[x].dist
    requires |info'| == |wt| && forall x :: 0 <= x < |wt| ==> info'[x] == Relaxed(wt, col[u := true], info, u, x)
    requires Shape(wt, src, info', col[u := true], cnt + 1, rank[u := cnt]) && v < |wt|
    ensures Node(wt, src, info', col[u := true], cnt + 1, rank[u := cnt], v)
  {
    RelaxedPlain(wt, src, info, col, cnt, rank, u, v);
    assert Node(wt, src, info, col, cnt, rank, v);
    var p := info[v].prev;
    if v != src && info[v].dist != NULL_DIST && p < |wt| && col[p] {
      RelaxedPlain(wt, src, info, col, cnt, rank, u, p);
      assert Node(wt, src, info, col, cnt, rank, p);
    }
    if v == u {
      forall q | WPathFromTo(wt, q, src, u)
        ensures info[u].dist <= Weight(wt, q)
      {
        Cut(wt, src, info, col, cnt, rank, info[u].dist, q);
      }
      MulLe(cnt - 1, cnt, MAX_DIST);
    } else if col[v] {
      MulLe(cnt - 1, cnt, MAX_DIST);
    } else {
      MulLe(cnt, cnt + 1, MAX_DIST);
      RelaxedPlain(wt, src, info, col, cnt, rank, u, u);
    }
  }

  /** Every collected-uncollected pair keeps its invariant through a round. */
  lemma StepFront(wt: seq<seq<Option<nat>>>, src: nat, info: seq<Info>, col: seq<bool>, cnt: nat,
                  rank: seq<nat>, u: nat, info': seq<Info>, c: nat, v: nat)
    requires DInv(wt, src, info, col, cnt, rank) && Light(wt)
    requires u < |wt| && !col[u] && info[u].dist != NULL_DIST
    requires forall x :: 0 <= x < |wt| && !col[x] ==> info[u].dist <= info[x].dist
    requires |info'| == |wt| && forall x :: 0 <= x < |wt| ==> info'[x] == Relaxed(wt, col[u := true], info, u, x)
    requires c < |wt| && v < |wt|
    ensures Front(wt, info', col[u := true], c, v)
  {
    if col[u := true][c] && !col[u := true][v] {
      RelaxedPlain(wt, src, info, col, cnt, rank, u, v);
      RelaxedPlain(wt, src, info, col, cnt, rank, u, c);
      RelaxedPlain(wt, src, info, col, cnt, rank, u, u);
      if c != u {
        assert Front(wt, info, col, c, u);
        assert Front(wt, info, col, c, v);
      }
    }
  }

  /** A round keeps the invariant: collecting the uncollected vertex of
      least distance and relaxing its edges. */
  lemma CollectStep(wt: seq<seq<Option<nat>>>, src: nat, info: seq<Info>, col: seq<bool>, cnt: nat,
                    rank: seq<nat>, u: nat, info': seq<Info>)
    requires DInv(wt, src, info, col, cnt, rank) && Light(wt)
    requires u < |wt| && !col[u] && info[u].dist != NULL_DIST
    requires forall x :: 0 <= x < |wt| && !col[x] ==> info[u].dist <= info[x].dist
    requires |info'| == |wt| && forall x :: 0 <= x < |wt| ==> info'[x] == Relaxed(wt, col[u := true], info, u, x)
    ensures DInv(wt, src, info', col[u := true], cnt + 1, rank[u := cnt])
  {
    RelaxedPlain(wt, src, info, col, cnt, rank, u, src);
    StepShape(wt, src, info, col, cnt, rank, u, info');
    var col', cnt', rank' := col[u := true], cnt + 1, rank[u := cnt];
    forall v | 0 <= v < |wt|
      ensures Node(wt, src, info', col', cnt', rank', v)
    {
      StepNode(wt, src, info, col, cnt, rank, u, info', v);
    }
    forall c, v | 0 <= c < |wt| && 0 <= v < |wt|
      ensures Front(wt, info', col', c, v)
    {
      StepFront(wt, src, info, col, cnt, rank, u, info', c, v);
    }
  }

  /** When the top of the queue is unreached, so is every uncollected
      vertex. */
  lemma Stuck(wt: seq<seq<Option<nat>>>, src: nat, info: seq<Info>, col: seq<bool>, cnt: nat,
              rank: seq<nat>, u: nat)
    requires DInv(wt, src, info, col, cnt, rank)
    requires u < |wt| && info[u].dist == NULL_DIST
    requires forall x :: 0 <= x < |wt| && !col[x] ==> info[u].dist <= info[x].dist
    ensures forall x :: 0 <= x < |wt| && !col[x] ==> info[x].dist == NULL_DIST
  {
    forall x | 0 <= x < |wt| && !col[x]
      ensures info[x].dist == NULL_DIST
    {
      assert Node(wt, src, info, col, cnt, rank, x);
    }
  }

  /* ---------------- the result ---------------- */

  /** The weighted predecessor tree: the source at (0, n), every other
      reached vertex one edge behind a reached predecessor with the edge
      weight making up the difference, every unreached one at (NULL, n). */
  ghost predicate WTree(wt: seq<seq<Option<nat>>>, r: Sssp)
  {
    && Square(wt) && |r.info| == |wt| && r.src < |wt| && r.info[r.src] == Info(0, |wt|)
    && (forall v :: 0 <= v < |wt| && r.info[v].dist == NULL_DIST ==> r.info[v].prev == |wt|)
    && (forall v :: 0 <= v < |wt| && v != r.src && r.info[v].dist != NULL_DIST ==>
          && r.info[v].prev < |wt| && r.info[r.info[v].prev].dist != NULL_DIST
          && wt[r.info[v].prev][v].Some?
          && r.info[v].dist == r.info[r.info[v].prev].dist + wt[r.info[v].prev][v].value)
  }

  /** What a weighted run guarantees: the predecessor tree, a distance
      exactly for the vertices some walk reaches, and that distance the
      least weight of such a walk. */
  ghost predicate WSolved(wt: seq<seq<Option<nat>>>, r: Sssp)
  {
    && WTree(wt, r)
    && (forall v :: 0 <= v < |wt| ==> (r.info[v].dist != NULL_DIST <==> WReach(wt, r.src, v)))
    && (forall v :: 0 <= v < |wt| && r.info[v].dist != NULL_DIST ==> IsWDist(wt, r.src, v, r.info[v].dist))
  }

  /** Along a weighted predecessor tree, the chain of a reached `t` other
      than the source, behind the source, is a walk to `t` weighing
      exactly the distance of `t`. */
  lemma {:induction false} TreeWeight(wt: seq<seq<Option<nat>>>, r: Sssp, t: nat, rank: seq<nat>)
    requires WTree(wt, r) && Ranked(r, rank)
    requires t < |wt| && t != r.src && r.info[t].dist != NULL_DIST
    ensures WPathFromTo(wt, [r.src] + Up(r, t, rank), r.src, t)
    ensures Weight(wt, [r.src] + Up(r, t, rank)) == r.info[t].dist
    decreases rank[t]
  {
    var p := r.info[t].prev;
    var up := Up(r, p, rank);
    assert Up(r, t, rank) == up + [t];
    assert [r.src] + Up(r, t, rank) == ([r.src] + up) + [t];
    if p == r.src {
      assert up == [];
      assert WPath(wt, [r.src]);
    } else {
      TreeWeight(wt, r, p, rank);
    }
    WExtend(wt, [r.src] + up, t);
  }

  /** On a weighted result, the path ForeachPath emits for a reached `t`
      other than the source is a walk from the source to `t` of weight
      equal to the distance of `t`, and no walk from the source to `t`
      weighs less. */
  lemma WeightPath(wt: seq<seq<Option<nat>>>, r: Sssp, t: nat, rank: seq<nat>)
    requires WSolved(wt, r) && Ranked(r, rank)
    requires t < |wt| && t != r.src && r.info[t].dist != NULL_DIST
    ensures WPathFromTo(wt, [r.src] + Up(r, t, rank), r.src, t)
    ensures Weight(wt, [r.src] + Up(r, t, rank)) == r.info[t].dist
    ensures forall q :: WPathFromTo(wt, q, r.src, t) ==> Weight(wt, [r.src] + Up(r, t, rank)) <= Weight(wt, q)
  {
    TreeWeight(wt, r, t, rank);
  }

  /** The invariant yields the tree and the ranking of the result. */
  lemma DoneTree(wt: seq<seq<Option<nat>>>, src: nat, info: seq<Info>, col: seq<bool>, cnt: nat, rank: seq<nat>)
    requires DInv(wt, src, info, col, cnt, rank)
    ensures WTree(wt, Sssp(src, info)) && Ranked(Sssp(src, info), rank)
  {
    forall v | 0 <= v < |wt|
      ensures info[v].dist == NULL_DIST ==> info[v].prev == |wt|
      ensures info[v].prev <= |wt| && (info[v].prev < |wt| ==> rank[info[v].prev] < rank[v])
      ensures v != src && info[v].dist != NULL_DIST ==>
                && info[v].prev < |wt| && info[info[v].prev].dist != NULL_DIST
                && wt[info[v].prev][v].Some?
                && info[v].dist == info[info[v].prev].dist + wt[info[v].prev][v].value
    {
      assert Node(wt, src, info, col, cnt, rank, v);
      if v != src && info[v].dist != NULL_DIST {
        assert Node(wt, src, info, col, cnt, rank, info[v].prev);
      }
    }
  }

  /** The run is over when every vertex is collected or every uncollected
      one is unreached; then the result is solved. */
  lemma DijkstraDone(wt: seq<seq<Option<nat>>>, src: nat, info: seq<Info>, col: seq<bool>, cnt: nat,
                     rank: seq<nat>)
    requires DInv(wt, src, info, col, cnt, rank) && Light(wt)
    requires cnt == |wt| || forall v :: 0 <= v < |wt| && !col[v] ==> info[v].dist == NULL_DIST
    ensures WSolved(wt, Sssp(src, info)) && Ranked(Sssp(src, info), rank)
  {
    var r := Sssp(src, info);
    DoneTree(wt, src, info, col, cnt, rank);
    if cnt == |wt| {
      AllSet(col);
    }
    forall v | 0 <= v < |wt| && WReach(wt, src, v)
      ensures col[v]
    {
      if cnt != |wt| {
        var p :| WPathFromTo(wt, p, src, v);
        Closed(wt, src, info, col, cnt, rank, p);
      }
    }
    forall v | 0 <= v < |wt| && info[v].dist != NULL_DIST
      ensures WReach(wt, src, v) && IsWDist(wt, src, v, info[v].dist)
    {
      assert Node(wt, src, info, col, cnt, rank, v);
      if v == src {
        assert WPathFromTo(wt, [src], src, src) && Weight(wt, [src]) == 0;
      } else {
        TreeWeight(wt, r, v, rank);
      }
    }
    forall v | 0 <= v < |wt| && WReach(wt, src, v)
      ensures info[v].dist != NULL_DIST
    {
      assert Node(wt, src, info, col, cnt, rank, v);
    }
  }

  /** WeightedSSSP, run on the state Execute prepares. */
  method WeightedSSSP(adj: seq<seq<nat>>, wt: seq<seq<Option<nat>>>, r0: Sssp) returns (r: Sssp, ghost rank: seq<nat>)
    requires Agree(adj, wt) && Light(wt)
    requires r0.src < |wt| && r0 == Start(|wt|, r0.src)
    ensures r.src == r0.src && WSolved(wt, r) && Ranked(r, rank)
  {
    var n := |wt|;
    var src := r0.src;
    var info := Seed(adj, wt, r0.info, src);
    var col := seq(n, v => v == src);
    ghost var cnt := 1;
    rank := seq(n, v => if v == src then 0 else n);
    SeedInv(wt, src, r0.info, info);
    var unCl := n - 1;
    while unCl != 0
      invariant DInv(wt, src, info, col, cnt, rank) && unCl + cnt == n
      decreases unCl
    {
      ghost var free := SomeClear(col);
      var u := Top(col, info);
      if info[u].dist == NULL_DIST {
        Stuck(wt, src, info, col, cnt, rank, u);
        break;
      }
      ghost var before, colBefore := info, col;
      col := col[u := true];
      info := Relax(adj, wt, col, info, u);
      CollectStep(wt, src, before, colBefore, cnt, rank, u, info);
      rank := rank[u := cnt];
      cnt := cnt + 1;
      unCl := unCl - 1;
    }
    r := Sssp(src, info);
    DijkstraDone(wt, src, info, col, cnt, rank);
  }
}

=== FILE: directed_link.dfy ===
/** UnweightedDirectedLinkGraph and WeightedDirectedLinkGraph: each vertex
    owns a chain of edge nodes {target, weight}. The unweighted class is
    the instance W = bool with NullValue false, whose every node holds
    `true` (its node type has no weight field; the edge it stands for has
    weight true). The counter moves with node creation (+1) and
    destruction (-1). */
module DirectedLink {
  import opened Common
  import opened Adjacency

  datatype Node<W> = Node(vertex: nat, weight: W)

  datatype Graph<T, W> = Graph(vertexData: seq<T>, entry: seq<seq<Node<W>>>, edgeNum: int, nullValue: W)

  function VertexNum<T, W>(g: Graph<T, W>): nat
  {
    |g.vertexData|
  }

  /** One chain per vertex, every target a vertex position. */
  ghost predicate Valid<T, W>(g: Graph<T, W>)
  {
    && |g.entry| == |g.vertexData|
    && forall i, k :: 0 <= i < |g.entry| && 0 <= k < |g.entry[i]| ==> g.entry[i][k].vertex < |g.entry|
  }

  ghost predicate InRange<T, W>(g: Graph<T, W>, a: nat, b: nat)
  {
    a < VertexNum(g) && b < VertexNum(g)
  }

  /** No chain names a target twice. */
  ghost predicate Unique<W>(c: seq<Node<W>>)
  {
    forall x, y :: 0 <= x < y < |c| ==> c[x].vertex != c[y].vertex
  }

  ghost predicate NoDup<T, W>(g: Graph<T, W>)
  {
    forall i :: 0 <= i < |g.entry| ==> Unique(g.entry[i])
  }

  /** No node holds NullValue: the weighted classes create or overwrite a
      node only for a non-null weight, and send NullValue to RemoveEdge. */
  ghost predicate NoNull<T, W>(g: Graph<T, W>)
  {
    forall i, k :: 0 <= i < |g.entry| && 0 <= k < |g.entry[i]| ==> g.entry[i][k].weight != g.nullValue
  }

  /** `c` has a node for `b`. */
  ghost predicate Has<W>(c: seq<Node<W>>, b: nat)
  {
    exists k :: 0 <= k < |c| && c[k].vertex == b
  }

  /** Position of the first node for `b`, |c| when there is none: where
      the scans of GetNode, RemoveEdge and SetWeight stop. */
  function IndexOf<W>(c: seq<Node<W>>, b: nat): (r: nat)
    ensures r <= |c|
    ensures r < |c| ==> c[r].vertex == b
    ensures forall k :: 0 <= k < r ==> c[k].vertex != b
  {
    if |c| == 0 then 0
    else if c[0].vertex == b then 0
    else 1 + IndexOf(c[1..], b)
  }

  lemma IndexOfHas<W>(c: seq<Node<W>>, b: nat)
    ensures IndexOf(c, b) < |c| <==> Has(c, b)
  {
    if Has(c, b) {
      var k :| 0 <= k < |c| && c[k].vertex == b;
    }
  }

  /** GetNode: the first node for `b` in the chain of `a`. */
  function GetNode<T, W>(g: Graph<T, W>, a: nat, b: nat): (r: Option<Node<W>>)
    requires Valid(g) && a < VertexNum(g)
    ensures r.Some? <==> Has(g.entry[a], b)
    ensures r.Some? ==> r.value.vertex == b
    ensures r.Some? ==>
              exists k :: 0 <= k < |g.entry[a]| && g.entry[a][k] == r.value && forall k' :: 0 <= k' < k ==> g.entry[a][k'].vertex != b
  {
    IndexOfHas(g.entry[a], b);
    var k := IndexOf(g.entry[a], b);
    if k < |g.entry[a]| then Some(g.entry[a][k]) else None
  }

  /** ExistEdge: GetNode found a node. */
  function ExistEdge<T, W>(g: Graph<T, W>, a: nat, b: nat): (r: bool)
    requires Valid(g) && a < VertexNum(g)
    ensures r <==> Has(g.entry[a], b)
  {
    GetNode(g, a, b).Some?
  }

  /** WeightedDirectedLinkGraph::GetWeight: the found node's weight, or
      NullValue. */
  function GetWeight<T, W>(g: Graph<T, W>, a: nat, b: nat): (r: W)
    requires Valid(g) && a < VertexNum(g)
    ensures !ExistEdge(g, a, b) ==> r == g.nullValue
    ensures NoNull(g) ==> (r == g.nullValue <==> !ExistEdge(g, a, b))
    ensures Unique(g.entry[a]) ==>
              forall k :: 0 <= k < |g.entry[a]| && g.entry[a][k].vertex == b ==> r == g.entry[a][k].weight
  {
    match GetNode(g, a, b)
    case Some(e) => e.weight
    case None => g.nullValue
  }

  /** UnweightedDirectedLinkGraph::GetWeight: the existence of the edge. */
  function UnweightedGetWeight<T>(g: Graph<T, bool>, a: nat, b: nat): (r: bool)
    requires Valid(g) && a < VertexNum(g)
    ensures r <==> Has(g.entry[a], b)
  {
    ExistEdge(g, a, b)
  }

  /** Every node of an unweighted graph stands for weight `true`. */
  ghost predicate Marked<T>(g: Graph<T, bool>)
  {
    && !g.nullValue
    && forall i, k :: 0 <= i < |g.entry| && 0 <= k < |g.entry[i]| ==> g.entry[i][k].weight
  }

  /** On unweighted graphs the weighted reading agrees with the
      unweighted one. */
  lemma UnweightedGetWeightAgrees<T>(g: Graph<T, bool>, a: nat, b: nat)
    requires Valid(g) && a < VertexNum(g) && Marked(g)
    ensures GetWeight(g, a, b) == UnweightedGetWeight(g, a, b)
  {
  }

  /** InsertVertex: a payload and an empty chain. */
  function InsertVertex<T, W>(g: Graph<T, W>, x: T): (r: Graph<T, W>)
    requires Valid(g)
    ensures Valid(r) && VertexNum(r) == VertexNum(g) + 1 && r.vertexData[VertexNum(g)] == x
    ensures r.entry[VertexNum(g)] == [] && r.entry[..VertexNum(g)] == g.entry
    ensures r.edgeNum == g.edgeNum && r.nullValue == g.nullValue
    ensures NoNull(g) ==> NoNull(r)
  {
    g.(vertexData := g.vertexData + [x], entry := g.entry + [[]])
  }

  /* ---------------- edges ---------------- */

  /** The non-null path of InsertEdge: walk the chain; stop on a node for
      `b`, otherwise append one at the end (one creation, +1). */
  function Append<T, W>(g: Graph<T, W>, a: nat, b: nat, w: W): (r: Graph<T, W>)
    requires Valid(g) && InRange(g, a, b)
    ensures Valid(r) && r.vertexData == g.vertexData && r.nullValue == g.nullValue
    ensures Has(g.entry[a], b) ==> r == g
    ensures !Has(g.entry[a], b) ==> r.entry[a] == g.entry[a] + [Node(b, w)] && r.edgeNum == g.edgeNum + 1
    ensures forall i :: 0 <= i < |g.entry| && i != a ==> r.entry[i] == g.entry[i]
    ensures ExistEdge(r, a, b)
    ensures NoNull(g) && w != g.nullValue ==> NoNull(r)
  {
    IndexOfHas(g.entry[a], b);
    if IndexOf(g.entry[a], b) < |g.entry[a]| then g
    else
      var r := g.(entry := g.entry[a := g.entry[a] + [Node(b, w)]], edgeNum := g.edgeNum + 1);
      assert r.entry[a][|g.entry[a]|].vertex == b;
      r
  }

  /** RemoveEdge: unlink the first node for `b` (one destruction, -1). */
  function RemoveEdge<T, W>(g: Graph<T, W>, a: nat, b: nat): (r: Graph<T, W>)
    requires Valid(g) && a < VertexNum(g)
    ensures Valid(r) && r.vertexData == g.vertexData && r.nullValue == g.nullValue
    ensures !Has(g.entry[a], b) ==> r == g
    ensures Has(g.entry[a], b) ==> r.edgeNum == g.edgeNum - 1 && |r.entry[a]| == |g.entry[a]| - 1
    ensures forall i :: 0 <= i < |g.entry| && i != a ==> r.entry[i] == g.entry[i]
    ensures forall x :: x != b ==> (Has(r.entry[a], x) <==> Has(g.entry[a], x))
    ensures Unique(g.entry[a]) ==> Unique(r.entry[a]) && !Has(r.entry[a], b)
    ensures NoNull(g) ==> NoNull(r)
  {
    var c := g.entry[a];
    IndexOfHas(c, b);
    var k := IndexOf(c, b);
    if k == |c| then g
    else
      var c' := c[..k] + c[k + 1..];
      Unlink(c, b, k, c');
      g.(entry := g.entry[a := c'], edgeNum := g.edgeNum - 1)
  }

  /** Unlinking the first node for `b` keeps every other target and, in a
      chain without duplicates, leaves no node for `b`. */
  lemma Unlink<W>(c: seq<Node<W>>, b: nat, k: nat, c': seq<Node<W>>)
    requires k == IndexOf(c, b) && k < |c| && c' == c[..k] + c[k + 1..]
    ensures |c'| == |c| - 1
    ensures forall t :: 0 <= t < |c'| ==> c'[t] == c[if t < k then t else t + 1]
    ensures forall x :: x != b ==> (Has(c', x) <==> Has(c, x))
    ensures Unique(c) ==> Unique(c') && !Has(c', b)
  {
    assert forall t :: 0 <= t < |c'| ==> c'[t] == c[if t < k then t else t + 1];
    forall x | x != b
      ensures Has(c', x) <==> Has(c, x)
    {
      if Has(c, x) {
        var t :| 0 <= t < |c| && c[t].vertex == x;
        assert c'[if t < k then t else t - 1].vertex == x;
      }
    }
  }

  lemma RemoveEdgeIdempotent<T, W>(g: Graph<T, W>, a: nat, b: nat)
    requires Valid(g) && a < VertexNum(g) && NoDup(g)
    ensures RemoveEdge(RemoveEdge(g, a, b), a, b) == RemoveEdge(g, a, b)
  {
  }

  /** InsertEdge of both directed classes: a null weight (`!weight` for
      bool) removes the edge instead. */
  function InsertEdge<T, W(==)>(g: Graph<T, W>, a: nat, b: nat, w: W): (r: Graph<T, W>)
    requires Valid(g) && InRange(g, a, b)
    ensures Valid(r) && r.vertexData == g.vertexData && r.nullValue == g.nullValue
    ensures w == g.nullValue ==> r == RemoveEdge(g, a, b)
    ensures w != g.nullValue && Has(g.entry[a], b) ==> r == g
    ensures w != g.nullValue && !Has(g.entry[a], b) ==>
              r.edgeNum == g.edgeNum + 1 && GetWeight(r, a, b) == w && r.entry[a] == g.entry[a] + [Node(b, w)]
    ensures w != g.nullValue ==> ExistEdge(r, a, b)
    ensures NoNull(g) ==> NoNull(r)
  {
    if w == g.nullValue then RemoveEdge(g, a, b)
    else
      var r := Append(g, a, b, w);
      assert !Has(g.entry[a], b) ==> IndexOf(r.entry[a], b) == |g.entry[a]| by {
        if !Has(g.entry[a], b) {
          IndexOfAppend(g.entry[a], b, w);
        }
      }
      r
  }

  /** A node appended for a missing target is the first one found. */
  lemma IndexOfAppend<W>(c: seq<Node<W>>, b: nat, w: W)
    requires !Has(c, b)
    ensures IndexOf(c + [Node(b, w)], b) == |c|
  {
    var c' := c + [Node(b, w)];
    assert forall k :: 0 <= k < |c| ==> c'[k].vertex != b;
    assert c'[|c|].vertex == b;
    IndexOfHas(c', b);
  }

  /** UnweightedDirectedLinkGraph::SetWeight: NullValue removes, anything
      else inserts; for the directed class this is InsertEdge itself. */
  function UnweightedSetWeight<T>(g: Graph<T, bool>, a: nat, b: nat, w: bool): (r: Graph<T, bool>)
    requires Valid(g) && InRange(g, a, b)
    ensures Valid(r) && r.vertexData == g.vertexData
    ensures w != g.nullValue ==> ExistEdge(r, a, b)
    ensures w == g.nullValue && Unique(g.entry[a]) ==> !ExistEdge(r, a, b)
  {
    if w == g.nullValue then RemoveEdge(g, a, b) else InsertEdge(g, a, b, w)
  }

  lemma UnweightedSetWeightIsInsert<T>(g: Graph<T, bool>, a: nat, b: nat, w: bool)
    requires Valid(g) && InRange(g, a, b) && NoDup(g)
    ensures UnweightedSetWeight(g, a, b, w) == InsertEdge(g, a, b, w)
  {
  }

  /** The non-null path of WeightedDirectedLinkGraph::SetWeight: overwrite
      the weight of the first node for `b`, or append a node (+1). */
  function Assign<T, W>(g: Graph<T, W>, a: nat, b: nat, w: W): (r: Graph<T, W>)
    requires Valid(g) && InRange(g, a, b)
    ensures Valid(r) && r.vertexData == g.vertexData && r.nullValue == g.nullValue
    ensures forall i :: 0 <= i < |g.entry| && i != a ==> r.entry[i] == g.entry[i]
    ensures Has(g.entry[a], b) ==> r.edgeNum == g.edgeNum && |r.entry[a]| == |g.entry[a]|
    ensures !Has(g.entry[a], b) ==> r.edgeNum == g.edgeNum + 1 && r.entry[a] == g.entry[a] + [Node(b, w)]
    ensures forall k :: 0 <= k < |g.entry[a]| && g.entry[a][k].vertex != b ==> r.entry[a][k] == g.entry[a][k]
    ensures forall x :: Has(r.entry[a], x) <==> Has(g.entry[a], x) || x == b
    ensures Unique(g.entry[a]) ==> Unique(r.entry[a])
    ensures Unique(g.entry[a]) ==> GetWeight(r, a, b) == w
  {
    var c := g.entry[a];
    IndexOfHas(c, b);
    var k := IndexOf(c, b);
    if k < |c| then
      var c' := c[k := Node(b, w)];
      assert forall x :: Has(c', x) <==> Has(c, x) by {
        forall x
          ensures Has(c', x) <==> Has(c, x)
        {
          if Has(c, x) {
            var t :| 0 <= t < |c| && c[t].vertex == x;
            assert c'[t].vertex == x;
          }
          if Has(c', x) {
            var t :| 0 <= t < |c'| && c'[t].vertex == x;
            assert c[t].vertex == x;
          }
        }
      }
      g.(entry := g.entry[a := c'])
    else
      var r := g.(entry := g.entry[a := c + [Node(b, w)]], edgeNum := g.edgeNum + 1);
      assert r.entry[a][|c|].vertex == b;
      assert forall x :: Has(r.entry[a], x) <==> Has(c, x) || x == b by {
        forall x
          ensures Has(r.entry[a], x) <==> Has(c, x) || x == b
        {
          if Has(c, x) {
            var t :| 0 <= t < |c| && c[t].vertex == x;
            assert r.entry[a][t].vertex == x;
          }
        }
      }
      r
  }

  /** Assign writes only the weight `w`, so a non-null `w` keeps NullValue
      out of the chains. */
  lemma AssignNoNull<T, W>(g: Graph<T, W>, a: nat, b: nat, w: W)
    requires Valid(g) && InRange(g, a, b)
    ensures NoNull(g) && w != g.nullValue ==> NoNull(Assign(g, a, b, w))
  {
    var r := Assign(g, a, b, w);
    var c := g.entry[a];
    var k := IndexOf(c, b);
    if NoNull(g) && w != g.nullValue {
      forall t | 0 <= t < |r.entry[a]|
        ensures r.entry[a][t].weight != g.nullValue
      {
        if k < |c| {
          assert r.entry[a] == c[k := Node(b, w)];
        } else {
          assert r.entry[a] == c + [Node(b, w)];
        }
      }
    }
  }

  /** WeightedDirectedLinkGraph::SetWeight. The source reads the chain
      head before searching, so a non-null weight needs a non-empty chain. */
  function WeightedSetWeight<T, W(==)>(g: Graph<T, W>, a: nat, b: nat, w: W): (r: Graph<T, W>)
    requires Valid(g) && InRange(g, a, b)
    requires w != g.nullValue ==> |g.entry[a]| > 0
    ensures Valid(r) && r.vertexData == g.vertexData
    ensures w == g.nullValue ==> r == RemoveEdge(g, a, b)
    ensures w != g.nullValue ==> ExistEdge(r, a, b)
    ensures w != g.nullValue && Unique(g.entry[a]) ==> GetWeight(r, a, b) == w
    ensures NoNull(g) ==> NoNull(r)
  {
    if w == g.nullValue then RemoveEdge(g, a, b)
    else
      AssignNoNull(g, a, b, w);
      Assign(g, a, b, w)
  }

  /* ---------------- node count ---------------- */

  /** Total number of nodes over all chains. */
  function Nodes<W>(entry: seq<seq<Node<W>>>): nat
  {
    if |entry| == 0 then 0 else Nodes(entry[..|entry| - 1]) + |entry[|entry| - 1]|
  }

  lemma {:induction false} NodesAppend<W>(s: seq<seq<Node<W>>>, t: seq<seq<Node<W>>>)
    ensures Nodes(s + t) == Nodes(s) + Nodes(t)
    decreases |t|
  {
    if |t| == 0 {
      assert s + t == s;
    } else {
      assert (s + t)[..|s + t| - 1] == s + t[..|t| - 1];
      NodesAppend(s, t[..|t| - 1]);
    }
  }

  lemma NodesUpdate<W>(entry: seq<seq<Node<W>>>, i: nat, c: seq<Node<W>>)
    requires i < |entry|
    ensures Nodes(entry[i := c]) == Nodes(entry) - |entry[i]| + |c|
  {
    assert entry == entry[..i] + [entry[i]] + entry[i + 1..];
    assert entry[i := c] == entry[..i] + [c] + entry[i + 1..];
    NodesAppend(entry[..i] + [entry[i]], entry[i + 1..]);
    NodesAppend(entry[..i], [entry[i]]);
    NodesAppend(entry[..i] + [c], entry[i + 1..]);
    NodesAppend(entry[..i], [c]);
    assert [entry[i]][..0] == [];
    assert [c][..0] == [];
  }

  lemma NodesErase<W>(entry: seq<seq<Node<W>>>, i: nat)
    requires i < |entry|
    ensures Nodes(Erase(entry, i)) == Nodes(entry) - |entry[i]|
  {
    assert entry == entry[..i] + [entry[i]] + entry[i + 1..];
    NodesAppend(entry[..i] + [entry[i]], entry[i + 1..]);
    NodesAppend(entry[..i], [entry[i]]);
    NodesAppend(entry[..i], entry[i + 1..]);
    assert [entry[i]][..0] == [];
  }

  /** The count invariant of the directed classes: one per node. */
  ghost predicate Counted<T, W>(g: Graph<T, W>)
  {
    g.edgeNum == Nodes(g.entry)
  }

  lemma InsertVertexCounted<T, W>(g: Graph<T, W>, x: T)
    requires Valid(g) && Counted(g) && NoDup(g)
    ensures Counted(InsertVertex(g, x)) && NoDup(InsertVertex(g, x))
  {
    var r := InsertVertex(g, x);
    assert r.entry[..|r.entry| - 1] == g.entry;
  }

  /** InsertEdge keeps the count and the chains free of repeated targets,
      whatever the weight. */
  lemma InsertEdgeCounted<T, W>(g: Graph<T, W>, a: nat, b: nat, w: W)
    requires Valid(g) && InRange(g, a, b) && Counted(g) && NoDup(g)
    ensures Counted(InsertEdge(g, a, b, w)) && NoDup(InsertEdge(g, a, b, w))
  {
    var r := InsertEdge(g, a, b, w);
    if w == g.nullValue {
      RemoveEdgeCounted(g, a, b);
    } else if !Has(g.entry[a], b) {
      NodesUpdate(g.entry, a, r.entry[a]);
      assert r.entry == g.entry[a := r.entry[a]];
      assert Unique(r.entry[a]) by {
        forall x, y | 0 <= x < y < |r.entry[a]|
          ensures r.entry[a][x].vertex != r.entry[a][y].vertex
        {
          if y == |g.entry[a]| {
            assert r.entry[a][x] == g.entry[a][x];
          }
        }
      }
    }
  }

  lemma RemoveEdgeCounted<T, W>(g: Graph<T, W>, a: nat, b: nat)
    requires Valid(g) && a < VertexNum(g) && Counted(g) && NoDup(g)
    ensures Counted(RemoveEdge(g, a, b)) && NoDup(RemoveEdge(g, a, b))
  {
    var r := RemoveEdge(g, a, b);
    if Has(g.entry[a], b) {
      NodesUpdate(g.entry, a, r.entry[a]);
      assert r.entry == g.entry[a := r.entry[a]];
    }
  }

  lemma WeightedSetWeightCounted<T, W>(g: Graph<T, W>, a: nat, b: nat, w: W)
    requires Valid(g) && InRange(g, a, b) && Counted(g) && NoDup(g)
    requires w != g.nullValue ==> |g.entry[a]| > 0
    ensures Counted(WeightedSetWeight(g, a, b, w)) && NoDup(WeightedSetWeight(g, a, b, w))
  {
    var r := WeightedSetWeight(g, a, b, w);
    if w == g.nullValue {
      RemoveEdgeCounted(g, a, b);
    } else {
      NodesUpdate(g.entry, a, r.entry[a]);
      assert r.entry == g.entry[a := r.entry[a]];
    }
  }

  /** Unweighted inserts only ever create nodes holding `true`. */
  lemma InsertEdgeMarked<T>(g: Graph<T, bool>, a: nat, b: nat, w: bool)
    requires Valid(g) && InRange(g, a, b) && Marked(g)
    ensures Marked(InsertEdge(g, a, b, w))
  {
    var r := InsertEdge(g, a, b, w);
    if w != g.nullValue && !Has(g.entry[a], b) {
      forall i, k | 0 <= i < |r.entry| && 0 <= k < |r.entry[i]|
        ensures r.entry[i][k].weight
      {
        if i == a && k < |g.entry[a]| {
          assert r.entry[i][k] == g.entry[a][k];
        }
      }
    } else if w == g.nullValue && Has(g.entry[a], b) {
      var c := g.entry[a];
      var k := IndexOf(c, b);
      assert r.entry[a] == c[..k] + c[k + 1..];
    }
  }

  /* ---------------- vertex removal ---------------- */

  /** Number of nodes of `c` that target `v`. */
  function Occ<W>(c: seq<Node<W>>, v: nat): nat
  {
    if |c| == 0 then 0 else Occ(c[..|c| - 1], v) + (if c[|c| - 1].vertex == v then 1 else 0)
  }

  /** A chain after lines 171-198: nodes for `v` unlinked, targets above
      `v` moved down by one, order kept. */
  function Strip<W>(c: seq<Node<W>>, v: nat): (r: seq<Node<W>>)
    ensures |r| == |c| - Occ(c, v)
  {
    if |c| == 0 then []
    else
      var e := c[|c| - 1];
      Strip(c[..|c| - 1], v) + (if e.vertex == v then [] else [Node(Unshift(v, e.vertex), e.weight)])
  }

  lemma HasAppend<W>(c: seq<Node<W>>, e: Node<W>, j: nat)
    ensures Has(c + [e], j) <==> Has(c, j) || e.vertex == j
  {
    if Has(c, j) {
      var k :| 0 <= k < |c| && c[k].vertex == j;
      assert (c + [e])[k].vertex == j;
    }
    if e.vertex == j {
      assert (c + [e])[|c|].vertex == j;
    }
    if Has(c + [e], j) {
      var k :| 0 <= k < |c + [e]| && (c + [e])[k].vertex == j;
      if k < |c| {
        assert c[k].vertex == j;
      } else {
        assert (c + [e])[k] == e;
      }
    }
  }

  /** The stripped chain has a node for `j` iff the old chain had one for
      the old index of `j`. */
  lemma {:induction false} StripHas<W>(c: seq<Node<W>>, v: nat, j: nat)
    ensures Has(Strip(c, v), j) <==> Has(c, Shift(v, j))
  {
    if |c| > 0 {
      var init := c[..|c| - 1];
      var e := c[|c| - 1];
      StripHas(init, v, j);
      assert c == init + [e];
      HasAppend(init, e, Shift(v, j));
      if e.vertex != v {
        HasAppend(Strip(init, v), Node(Unshift(v, e.vertex), e.weight), j);
        ShiftUnshift(v, j, e.vertex);
      } else {
        ShiftUnshift(v, j, j);
        assert Strip(c, v) == Strip(init, v);
      }
    }
  }

  /** Strip keeps exactly the nodes not for `v`, in their old order: `idx`
      lists their old positions, ascending. */
  lemma {:induction false} StripOrder<W>(c: seq<Node<W>>, v: nat) returns (idx: seq<nat>)
    ensures |idx| == |Strip(c, v)|
    ensures forall t :: 0 <= t < |idx| ==> idx[t] < |c| && c[idx[t]].vertex != v
    ensures forall t :: 0 <= t < |idx| ==>
              Strip(c, v)[t] == Node(Unshift(v, c[idx[t]].vertex), c[idx[t]].weight)
    ensures forall s, t :: 0 <= s < t < |idx| ==> idx[s] < idx[t]
    ensures forall k :: 0 <= k < |c| && c[k].vertex != v ==> k in idx
  {
    if |c| == 0 {
      idx := [];
    } else {
      var init := c[..|c| - 1];
      var e := c[|c| - 1];
      var prev := StripOrder(init, v);
      if e.vertex == v {
        idx := prev;
      } else {
        idx := prev + [|c| - 1];
      }
    }
  }

  lemma StripUnique<W>(c: seq<Node<W>>, v: nat)
    requires Unique(c)
    ensures Unique(Strip(c, v))
  {
    var r := Strip(c, v);
    var idx := StripOrder(c, v);
    forall x, y | 0 <= x < y < |r|
      ensures r[x].vertex != r[y].vertex
    {
      ShiftUnshift(v, 0, c[idx[x]].vertex);
      ShiftUnshift(v, 0, c[idx[y]].vertex);
    }
  }

  lemma StripBound<W>(c: seq<Node<W>>, v: nat, n: nat)
    requires v < n && forall k :: 0 <= k < |c| ==> c[k].vertex < n
    ensures forall k :: 0 <= k < |Strip(c, v)| ==> Strip(c, v)[k].vertex < n - 1
  {
    var idx := StripOrder(c, v);
  }

  /** Every remaining chain, stripped. */
  function StripAll<W>(entry: seq<seq<Node<W>>>, v: nat): (r: seq<seq<Node<W>>>)
    ensures |r| == |entry|
    ensures forall i :: 0 <= i < |entry| ==> r[i] == Strip(entry[i], v)
  {
    seq(|entry|, i requires 0 <= i < |entry| => Strip(entry[i], v))
  }

  /** Nodes targeting `v` over all chains. */
  function OccAll<W>(entry: seq<seq<Node<W>>>, v: nat): nat
  {
    if |entry| == 0 then 0 else OccAll(entry[..|entry| - 1], v) + Occ(entry[|entry| - 1], v)
  }

  lemma {:induction false} NodesStripAll<W>(entry: seq<seq<Node<W>>>, v: nat)
    ensures Nodes(StripAll(entry, v)) == Nodes(entry) - OccAll(entry, v)
  {
    if |entry| > 0 {
      var init := entry[..|entry| - 1];
      NodesStripAll(init, v);
      assert StripAll(entry, v)[..|entry| - 1] == StripAll(init, v);
    }
  }

  /** RemoveVertex: destroy the chain of `v`, erase it and the payload,
      then strip every other chain; each destroyed node takes one off the
      counter. */
  function RemoveVertex<T, W>(g: Graph<T, W>, v: nat): (r: Graph<T, W>)
    requires Valid(g) && v < VertexNum(g)
    ensures Valid(r) && r.vertexData == Erase(g.vertexData, v) && r.nullValue == g.nullValue
    ensures forall i :: 0 <= i < VertexNum(r) ==> r.entry[i] == Strip(g.entry[Shift(v, i)], v)
    ensures forall i, j :: InRange(r, i, j) ==> (ExistEdge(r, i, j) <==> ExistEdge(g, Shift(v, i), Shift(v, j)))
    ensures g.edgeNum - r.edgeNum == Nodes(g.entry) - Nodes(r.entry)
    ensures NoDup(g) ==> NoDup(r)
    ensures NoNull(g) ==> NoNull(r)
  {
    var rest := Erase(g.entry, v);
    var r := Graph(Erase(g.vertexData, v), StripAll(rest, v), g.edgeNum - |g.entry[v]| - OccAll(rest, v), g.nullValue);
    StrippedValid(g, v, r);
    StrippedEdges(g, v, r);
    StrippedUnique(g, v, r);
    StrippedNoNull(g, v, r);
    NodesStripAll(rest, v);
    NodesErase(g.entry, v);
    r
  }

  /** The stripped chains only name surviving vertices. */
  lemma StrippedValid<T, W>(g: Graph<T, W>, v: nat, r: Graph<T, W>)
    requires Valid(g) && v < VertexNum(g)
    requires r.vertexData == Erase(g.vertexData, v) && r.entry == StripAll(Erase(g.entry, v), v)
    ensures Valid(r)
  {
    var rest := Erase(g.entry, v);
    forall i | 0 <= i < |r.entry|
      ensures forall k :: 0 <= k < |r.entry[i]| ==> r.entry[i][k].vertex < |r.entry|
    {
      StripBound(rest[i], v, VertexNum(g));
    }
  }

  /** An edge between survivors exists after the removal iff it existed
      between their old indices. */
  lemma StrippedEdges<T, W>(g: Graph<T, W>, v: nat, r: Graph<T, W>)
    requires Valid(g) && v < VertexNum(g)
    requires r.vertexData == Erase(g.vertexData, v) && r.entry == StripAll(Erase(g.entry, v), v) && Valid(r)
    ensures forall i, j :: InRange(r, i, j) ==> (ExistEdge(r, i, j) <==> ExistEdge(g, Shift(v, i), Shift(v, j)))
  {
    var rest := Erase(g.entry, v);
    forall i: nat, j: nat | InRange(r, i, j)
      ensures ExistEdge(r, i, j) <==> ExistEdge(g, Shift(v, i), Shift(v, j))
    {
      StripHas(rest[i], v, j);
    }
  }

  /** Stripping keeps chains free of duplicate targets. */
  lemma StrippedUnique<T, W>(g: Graph<T, W>, v: nat, r: Graph<T, W>)
    requires Valid(g) && v < VertexNum(g)
    requires r.entry == StripAll(Erase(g.entry, v), v)
    ensures NoDup(g) ==> NoDup(r)
  {
    var rest := Erase(g.entry, v);
    if NoDup(g) {
      forall i | 0 <= i < |r.entry|
        ensures Unique(r.entry[i])
      {
        StripUnique(rest[i], v);
      }
    }
  }

  /** Stripping keeps every surviving node's weight, so no NullValue
      appears. */
  lemma StrippedNoNull<T, W>(g: Graph<T, W>, v: nat, r: Graph<T, W>)
    requires Valid(g) && v < VertexNum(g) && r.nullValue == g.nullValue
    requires r.entry == StripAll(Erase(g.entry, v), v)
    ensures NoNull(g) ==> NoNull(r)
  {
    var rest := Erase(g.entry, v);
    if NoNull(g) {
      forall i, k | 0 <= i < |r.entry| && 0 <= k < |r.entry[i]|
        ensures r.entry[i][k].weight != r.nullValue
      {
        var idx := StripOrder(rest[i], v);
        assert rest[i] == g.entry[Shift(v, i)];
      }
    }
  }

  lemma RemoveVertexCounted<T, W>(g: Graph<T, W>, v: nat)
    requires Valid(g) && v < VertexNum(g) && Counted(g)
    ensures Counted(RemoveVertex(g, v))
  {
  }

  /* ---------------- enumeration ---------------- */

  /** ForeachOutNeighbor: the chain's targets in node order. */
  function ForeachOutNeighbor<T, W>(g: Graph<T, W>, v: nat): (r: seq<nat>)
    requires Valid(g) && v < VertexNum(g)
    ensures |r| == |g.entry[v]| && forall k :: 0 <= k < |r| ==> r[k] == g.entry[v][k].vertex
    ensures forall x :: x in r <==> ExistEdge(g, v, x)
  {
    var c := g.entry[v];
    var r := seq(|c|, k requires 0 <= k < |c| => c[k].vertex);
    assert forall x :: x in r <==> Has(c, x) by {
      forall x
        ensures x in r <==> Has(c, x)
      {
        if Has(c, x) {
          var k :| 0 <= k < |c| && c[k].vertex == x;
          assert r[k] == x;
        }
      }
    }
    r
  }

  function InMask<T, W>(g: Graph<T, W>, v: nat): (r: seq<bool>)
    requires Valid(g) && v < VertexNum(g)
    ensures |r| == VertexNum(g)
    ensures forall i :: 0 <= i < |r| ==> r[i] == ExistEdge(g, i, v)
  {
    seq(VertexNum(g), i requires 0 <= i < VertexNum(g) => ExistEdge(g, i, v))
  }

  /** ForeachInNeighbor: every i in ascending order with an edge (i, v). */
  function ForeachInNeighbor<T, W>(g: Graph<T, W>, v: nat): (r: seq<nat>)
    requires Valid(g) && v < VertexNum(g)
    ensures forall k :: 0 <= k < |r| ==> r[k] < VertexNum(g) && ExistEdge(g, r[k], v)
    ensures forall i :: 0 <= i < VertexNum(g) && ExistEdge(g, i, v) ==> i in r
    ensures forall a, b :: 0 <= a < b < |r| ==> r[a] < r[b]
  {
    Indices(InMask(g, v))
  }

  /** Edge `e` stands for a node of chain `i` of `entry`. */
  ghost predicate FromNode<W>(entry: seq<seq<Node<W>>>, e: Edge<W>)
  {
    && e.from < |entry|
    && exists k :: 0 <= k < |entry[e.from]| && entry[e.from][k] == Node(e.to, e.w)
  }

  /** The reports for chain `i`, in node order; with `upper` only those
      whose target is at least `i` (the undirected classes). */
  function ChainEdges<W>(i: nat, c: seq<Node<W>>, upper: bool): (r: seq<Edge<W>>)
    ensures |r| <= |c|
  {
    if |c| == 0 then []
    else
      var init := ChainEdges(i, c[..|c| - 1], upper);
      var e := c[|c| - 1];
      if upper && e.vertex < i then init else init + [Edge(i, e.vertex, e.weight)]
  }

  /** Without the filter a chain's reports are its nodes, one for one. */
  lemma {:induction false} ChainEdgesAll<W>(i: nat, c: seq<Node<W>>)
    ensures |ChainEdges(i, c, false)| == |c|
    ensures forall t :: 0 <= t < |c| ==> ChainEdges(i, c, false)[t] == Edge(i, c[t].vertex, c[t].weight)
  {
    if |c| > 0 {
      ChainEdgesAll(i, c[..|c| - 1]);
    }
  }

  /** A chain's reports come from its own nodes, and cover each node the
      filter keeps. */
  lemma {:induction false} ChainEdgesExact<W>(i: nat, c: seq<Node<W>>, upper: bool)
    ensures forall t :: 0 <= t < |ChainEdges(i, c, upper)| ==>
              ChainEdges(i, c, upper)[t].from == i && (upper ==> i <= ChainEdges(i, c, upper)[t].to)
              && Node(ChainEdges(i, c, upper)[t].to, ChainEdges(i, c, upper)[t].w) in c
    ensures forall k :: 0 <= k < |c| && (!upper || i <= c[k].vertex) ==> Edge(i, c[k].vertex, c[k].weight) in ChainEdges(i, c, upper)
  {
    if |c| > 0 {
      var init := c[..|c| - 1];
      ChainEdgesExact(i, init, upper);
      assert forall k :: 0 <= k < |init| ==> init[k] == c[k];
      assert c == init + [c[|c| - 1]];
    }
  }

  /** A chain without repeated targets reports each target once. */
  lemma {:induction false} ChainEdgesUnique<W>(i: nat, c: seq<Node<W>>, upper: bool)
    requires Unique(c)
    ensures forall s, t :: 0 <= s < t < |ChainEdges(i, c, upper)| ==> ChainEdges(i, c, upper)[s].to != ChainEdges(i, c, upper)[t].to
  {
    if |c| > 0 {
      var init := c[..|c| - 1];
      var e := c[|c| - 1];
      ChainEdgesUnique(i, init, upper);
      ChainEdgesExact(i, init, upper);
      var r0 := ChainEdges(i, init, upper);
      forall s | 0 <= s < |r0|
        ensures r0[s].to != e.vertex
      {
        var k :| 0 <= k < |init| && init[k] == Node(r0[s].to, r0[s].w);
        assert c[k] == init[k];
      }
    }
  }

  /** The reports of all chains, chain after chain. */
  function Scan<W>(entry: seq<seq<Node<W>>>, upper: bool): (r: seq<Edge<W>>)
  {
    if |entry| == 0 then []
    else Scan(entry[..|entry| - 1], upper) + ChainEdges(|entry| - 1, entry[|entry| - 1], upper)
  }

  /** Every report stands for a node of the chain it names, and a filtered
      report has from <= to. */
  lemma {:induction false} ScanSound<W>(entry: seq<seq<Node<W>>>, upper: bool)
    ensures forall t :: 0 <= t < |Scan(entry, upper)| ==>
              FromNode(entry, Scan(entry, upper)[t]) && (upper ==> Scan(entry, upper)[t].from <= Scan(entry, upper)[t].to)
  {
    if |entry| > 0 {
      var n := |entry| - 1;
      var init := entry[..n];
      ScanSound(init, upper);
      ChainEdgesExact(n, entry[n], upper);
      var r0 := Scan(init, upper);
      var row := ChainEdges(n, entry[n], upper);
      forall t | 0 <= t < |r0 + row|
        ensures FromNode(entry, (r0 + row)[t]) && (upper ==> (r0 + row)[t].from <= (r0 + row)[t].to)
      {
        if t < |r0| {
          var e := r0[t];
          assert (r0 + row)[t] == e;
          assert FromNode(init, e);
          var k :| 0 <= k < |init[e.from]| && init[e.from][k] == Node(e.to, e.w);
          assert entry[e.from][k] == Node(e.to, e.w);
        } else {
          var e := row[t - |r0|];
          assert (r0 + row)[t] == e;
          var k :| 0 <= k < |entry[n]| && entry[n][k] == Node(e.to, e.w);
        }
      }
    }
  }

  /** Every node the filter keeps is reported. */
  lemma {:induction false} ScanComplete<W>(entry: seq<seq<Node<W>>>, upper: bool, i: nat, k: nat)
    requires i < |entry| && k < |entry[i]| && (!upper || i <= entry[i][k].vertex)
    ensures Edge(i, entry[i][k].vertex, entry[i][k].weight) in Scan(entry, upper)
  {
    var n := |entry| - 1;
    var init := entry[..n];
    if i < n {
      ScanComplete(init, upper, i, k);
      assert init[i] == entry[i];
    } else {
      ChainEdgesExact(n, entry[n], upper);
    }
  }

  /** Reports come chain by chain, in ascending chain order. */
  lemma {:induction false} ScanOrdered<W>(entry: seq<seq<Node<W>>>, upper: bool)
    ensures forall s, t :: 0 <= s < t < |Scan(entry, upper)| ==> Scan(entry, upper)[s].from <= Scan(entry, upper)[t].from
    ensures forall t :: 0 <= t < |Scan(entry, upper)| ==> Scan(entry, upper)[t].from < |entry|
  {
    if |entry| > 0 {
      var n := |entry| - 1;
      ScanOrdered(entry[..n], upper);
      ChainEdgesExact(n, entry[n], upper);
    }
  }

  /** With no repeated targets, no two reports name the same pair. */
  lemma {:induction false} ScanDistinct<W>(entry: seq<seq<Node<W>>>, upper: bool)
    requires forall i :: 0 <= i < |entry| ==> Unique(entry[i])
    ensures forall s, t :: 0 <= s < t < |Scan(entry, upper)| ==>
              Scan(entry, upper)[s].from != Scan(entry, upper)[t].from || Scan(entry, upper)[s].to != Scan(entry, upper)[t].to
  {
    if |entry| > 0 {
      var n := |entry| - 1;
      var init := entry[..n];
      assert forall i :: 0 <= i < |init| ==> init[i] == entry[i];
      ScanDistinct(init, upper);
      ScanOrdered(init, upper);
      ChainEdgesExact(n, entry[n], upper);
      ChainEdgesUnique(n, entry[n], upper);
      var r0 := Scan(init, upper);
      var row := ChainEdges(n, entry[n], upper);
      var r: seq<Edge<W>> := r0 + row;
      forall s, t | 0 <= s < t < |r|
        ensures r[s].from != r[t].from || r[s].to != r[t].to
      {
        if t < |r0| {
          assert r[s] == r0[s] && r[t] == r0[t];
        } else if s < |r0| {
          assert r[s] == r0[s] && r[t] == row[t - |r0|];
        } else {
          assert r[s] == row[s - |r0|] && r[t] == row[t - |r0|];
        }
      }
    }
  }

  /** Without the filter there is one report per node. */
  lemma {:induction false} ScanCount<W>(entry: seq<seq<Node<W>>>)
    ensures |Scan(entry, false)| == Nodes(entry)
  {
    if |entry| > 0 {
      ScanCount(entry[..|entry| - 1]);
      ChainEdgesAll(|entry| - 1, entry[|entry| - 1]);
    }
  }

  /** ForeachEdge of both directed classes. */
  function ForeachEdge<T, W>(g: Graph<T, W>): (r: seq<Edge<W>>)
    requires Valid(g)
    ensures |r| == Nodes(g.entry)
    ensures forall t :: 0 <= t < |r| ==> FromNode(g.entry, r[t])
    ensures forall s, t :: 0 <= s < t < |r| ==> r[s].from <= r[t].from
  {
    ScanCount(g.entry);
    ScanSound(g.entry, false);
    ScanOrdered(g.entry, false);
    Scan(g.entry, false)
  }

  /** Every node is reported. */
  lemma ForeachEdgeComplete<T, W>(g: Graph<T, W>, i: nat, k: nat)
    requires Valid(g) && i < VertexNum(g) && k < |g.entry[i]|
    ensures Edge(i, g.entry[i][k].vertex, g.entry[i][k].weight) in ForeachEdge(g)
  {
    ScanComplete(g.entry, false, i, k);
  }

  /** Chain i's reports sit, in node order, right after those of chains
      0..i-1. */
  lemma {:induction false} ForeachEdgeLayout<W>(entry: seq<seq<Node<W>>>, i: nat, k: nat)
    requires i < |entry| && k < |entry[i]|
    ensures Nodes(entry[..i]) + k < |Scan(entry, false)|
    ensures Scan(entry, false)[Nodes(entry[..i]) + k] == Edge(i, entry[i][k].vertex, entry[i][k].weight)
    decreases |entry|
  {
    var n := |entry| - 1;
    var init := entry[..n];
    ChainEdgesAll(n, entry[n]);
    ScanCount(init);
    ScanCount(entry);
    if i < n {
      ForeachEdgeLayout(init, i, k);
      assert init[..i] == entry[..i];
      assert init[i] == entry[i];
    } else {
      assert entry[..i] == init;
    }
  }

  lemma EdgesInGrid<W>(entry: seq<seq<Node<W>>>, upper: bool, n: nat)
    requires |entry| == n
    requires forall i, k :: 0 <= i < |entry| && 0 <= k < |entry[i]| ==> entry[i][k].vertex < n
    ensures InGrid(Scan(entry, upper), n)
  {
    var r := Scan(entry, upper);
    ScanSound(entry, upper);
    forall t | 0 <= t < |r|
      ensures r[t].from < n && r[t].to < n
    {
      assert FromNode(entry, r[t]);
      var c := entry[r[t].from];
      var k :| 0 <= k < |c| && c[k] == Node(r[t].to, r[t].w);
    }
  }

  /** Reports inside the grid, none of two painting the same cell. */
  lemma ReportsPaintable<W>(entry: seq<seq<Node<W>>>, upper: bool, n: nat)
    requires |entry| == n
    requires forall i, k :: 0 <= i < |entry| && 0 <= k < |entry[i]| ==> entry[i][k].vertex < n
    requires forall i :: 0 <= i < |entry| ==> Unique(entry[i])
    ensures InGrid(Scan(entry, upper), n)
    ensures Disjoint(Scan(entry, upper), upper)
  {
    var r := Scan(entry, upper);
    EdgesInGrid(entry, upper, n);
    ScanDistinct(entry, upper);
    ScanSound(entry, upper);
  }

  /** GetAdjacencyMatrix: a vector of W(false), the `zero` argument, then
      one cell per reported edge. */
  function GetAdjacencyMatrix<T, W>(g: Graph<T, W>, zero: W): (r: seq<W>)
    requires Valid(g)
    ensures |r| == VertexNum(g) * VertexNum(g)
    ensures NoDup(g) ==> forall i, j :: InRange(g, i, j) ==>
              Cell(VertexNum(g), i, j) < |r| &&
              r[Cell(VertexNum(g), i, j)] == if ExistEdge(g, i, j) then GetWeight(g, i, j) else zero
  {
    var n := VertexNum(g);
    var edges := ForeachEdge(g);
    var init := seq(n * n, _ => zero);
    EdgesInGrid(g.entry, false, n);
    var r := Paint(init, n, edges, false);
    assert NoDup(g) ==> forall i, j :: InRange(g, i, j) ==>
             Cell(n, i, j) < |r| && r[Cell(n, i, j)] == if ExistEdge(g, i, j) then GetWeight(g, i, j) else zero by {
      if NoDup(g) {
        forall i, j | InRange(g, i, j)
          ensures Cell(n, i, j) < |r| && r[Cell(n, i, j)] == if ExistEdge(g, i, j) then GetWeight(g, i, j) else zero
        {
          PaintedLinkCell(g, zero, i, j);
        }
      }
    }
    r
  }

  lemma PaintedLinkCell<T, W>(g: Graph<T, W>, zero: W, i: nat, j: nat)
    requires Valid(g) && NoDup(g) && InRange(g, i, j)
    ensures InGrid(ForeachEdge(g), VertexNum(g)) && Disjoint(ForeachEdge(g), false)
    ensures Cell(VertexNum(g), i, j) < VertexNum(g) * VertexNum(g)
    ensures Paint(seq(VertexNum(g) * VertexNum(g), _ => zero), VertexNum(g), ForeachEdge(g), false)[Cell(VertexNum(g), i, j)]
            == if ExistEdge(g, i, j) then GetWeight(g, i, j) else zero
  {
    var n := VertexNum(g);
    var edges := ForeachEdge(g);
    var init := seq(n * n, _ => zero);
    ReportsPaintable(g.entry, false, n);
    PaintCells(init, n, edges, false, i, j);
    CellBound(n, n, i, j);
    var c := g.entry[i];
    if Has(c, j) {
      var k :| 0 <= k < |c| && c[k].vertex == j;
      ForeachEdgeComplete(g, i, k);
      var t :| 0 <= t < |edges| && edges[t] == Edge(i, j, c[k].weight);
      assert Hits(edges[t], i, j, false);
    } else {
      forall t | 0 <= t < |edges|
        ensures !Hits(edges[t], i, j, false)
      {
        assert FromNode(g.entry, edges[t]);
      }
      assert init[Cell(n, i, j)] == zero;
    }
  }

  /** On unweighted graphs (zero = false) cell [i*n+j] is set iff the
      edge exists. */
  lemma UnweightedAdjacency<T>(g: Graph<T, bool>, i: nat, j: nat)
    requires Valid(g) && NoDup(g) && Marked(g) && InRange(g, i, j)
    ensures GetAdjacencyMatrix(g, false)[Cell(VertexNum(g), i, j)] == ExistEdge(g, i, j)
  {
  }

  /* ---------------- facts the undirected classes build on ---------------- */

  /** RemoveEdge unlinks the node at IndexOf. */
  lemma RemoveEdgeShape<T, W>(g: Graph<T, W>, a: nat, b: nat)
    requires Valid(g) && a < VertexNum(g) && Has(g.entry[a], b)
    ensures IndexOf(g.entry[a], b) < |g.entry[a]|
    ensures RemoveEdge(g, a, b).entry[a] ==
              g.entry[a][..IndexOf(g.entry[a], b)] + g.entry[a][IndexOf(g.entry[a], b) + 1..]
  {
    IndexOfHas(g.entry[a], b);
  }

  lemma {:induction false} ChainEdgesAppend<W>(i: nat, s: seq<Node<W>>, t: seq<Node<W>>, upper: bool)
    ensures ChainEdges(i, s + t, upper) == ChainEdges(i, s, upper) + ChainEdges(i, t, upper)
    decreases |t|
  {
    if |t| == 0 {
      assert s + t == s;
    } else {
      assert (s + t)[..|s + t| - 1] == s + t[..|t| - 1];
      ChainEdgesAppend(i, s, t[..|t| - 1], upper);
    }
  }

  /** Replacing one chain changes the number of reports by the difference
      of the two chains' reports. */
  lemma {:induction false} ScanUpdate<W>(entry: seq<seq<Node<W>>>, i: nat, c: seq<Node<W>>, upper: bool)
    requires i < |entry|
    ensures |Scan(entry[i := c], upper)|
            == |Scan(entry, upper)| - |ChainEdges(i, entry[i], upper)| + |ChainEdges(i, c, upper)|
    decreases |entry|
  {
    var n := |entry| - 1;
    var e := entry[i := c];
    if i < n {
      assert e[..n] == entry[..n][i := c];
      ScanUpdate(entry[..n], i, c, upper);
    } else {
      assert e[..n] == entry[..n];
    }
  }
}

=== FILE: directed_matrix.dfy ===
/** WeightedDirectedMatrixGraph: one row of n weights per vertex. */
module DirectedMatrix {
  import opened Common
  import opened Adjacency
  import opened MatrixGraph

  ghost predicate IsDirected<T, W>(g: Graph<T, W>)
  {
    Valid(g) && g.store.Square?
  }

  /** Appends a payload, a NullValue column to every row and a NullValue
      row. */
  function InsertVertex<T, W>(g: Graph<T, W>, x: T): (r: Graph<T, W>)
    requires IsDirected(g)
    ensures IsDirected(r) && r.vertexData == g.vertexData + [x]
    ensures r.edgeNum == g.edgeNum && r.nullValue == g.nullValue
    ensures forall i, j :: InRange(r, i, j) ==>
              GetWeight(r, i, j) == if InRange(g, i, j) then GetWeight(g, i, j) else g.nullValue
  {
    var n := VertexNum(g);
    g.(vertexData := g.vertexData + [x],
       store := Square(Padded(g.store.rows, g.nullValue) + [seq(n + 1, _ => g.nullValue)]))
  }

  /** Every row with one more cell holding `nv`. */
  function Padded<W>(rows: seq<seq<W>>, nv: W): (r: seq<seq<W>>)
    ensures |r| == |rows|
    ensures forall i :: 0 <= i < |r| ==> r[i] == rows[i] + [nv]
  {
    seq(|rows|, i requires 0 <= i < |rows| => rows[i] + [nv])
  }

  lemma {:induction false} PaddedCount<W>(rows: seq<seq<W>>, nv: W)
    ensures RowsCount(Padded(rows, nv), nv) == RowsCount(rows, nv)
  {
    if |rows| > 0 {
      var init := rows[..|rows| - 1];
      PaddedCount(init, nv);
      assert Padded(rows, nv)[..|rows| - 1] == Padded(init, nv);
      CountNotAppend(rows[|rows| - 1], [nv], nv);
      assert [nv][..0] == [];
    }
  }

  /** A new vertex brings no edges, so the counter stays exact. */
  lemma InsertVertexCounted<T, W>(g: Graph<T, W>, x: T)
    requires IsDirected(g) && Counted(g)
    ensures Counted(InsertVertex(g, x))
  {
    var n := VertexNum(g);
    PaddedCount(g.store.rows, g.nullValue);
    RowsCountAppend(Padded(g.store.rows, g.nullValue), [seq(n + 1, _ => g.nullValue)], g.nullValue);
    CountNotAllNull(seq(n + 1, _ => g.nullValue), g.nullValue);
    assert [seq(n + 1, _ => g.nullValue)][..0] == [];
  }

  /** Column `v` of a matrix. */
  function Column<W>(rows: seq<seq<W>>, v: nat): (r: seq<W>)
    requires forall i :: 0 <= i < |rows| ==> v < |rows[i]|
    ensures |r| == |rows| && forall i :: 0 <= i < |rows| ==> r[i] == rows[i][v]
  {
    seq(|rows|, i requires 0 <= i < |rows| => rows[i][v])
  }

  /** Every row with column `v` erased. */
  function EraseColumn<W>(rows: seq<seq<W>>, v: nat): (r: seq<seq<W>>)
    requires forall i :: 0 <= i < |rows| ==> v < |rows[i]|
    ensures |r| == |rows| && forall i :: 0 <= i < |rows| ==> r[i] == Erase(rows[i], v)
  {
    seq(|rows|, i requires 0 <= i < |rows| => Erase(rows[i], v))
  }

  lemma {:induction false} EraseColumnCount<W>(rows: seq<seq<W>>, v: nat, nv: W)
    requires forall i :: 0 <= i < |rows| ==> v < |rows[i]|
    ensures RowsCount(EraseColumn(rows, v), nv) == RowsCount(rows, nv) - CountNot(Column(rows, v), nv)
  {
    if |rows| > 0 {
      var init := rows[..|rows| - 1];
      EraseColumnCount(init, v, nv);
      assert EraseColumn(rows, v)[..|rows| - 1] == EraseColumn(init, v);
      assert Column(rows, v)[..|rows| - 1] == Column(init, v);
      CountNotErase(rows[|rows| - 1], v, nv);
    }
  }

  /** Erases row `v` and column `v`. The counter drops once per out-edge of
      `v` only. */
  function RemoveVertex<T, W(==)>(g: Graph<T, W>, v: nat): (r: Graph<T, W>)
    requires IsDirected(g) && v < VertexNum(g)
    ensures IsDirected(r) && r.vertexData == Erase(g.vertexData, v) && r.nullValue == g.nullValue
    ensures forall i, j :: InRange(r, i, j) ==> GetWeight(r, i, j) == GetWeight(g, Shift(v, i), Shift(v, j))
    ensures r.edgeNum == g.edgeNum - |OutNeighbors(g, v)|
  {
    var rows := Erase(g.store.rows, v);
    IndicesCount(EdgeMask(g, v, true));
    Graph(Erase(g.vertexData, v), g.edgeNum - Count(EdgeMask(g, v, true)), g.nullValue,
          Square(EraseColumn(rows, v)))
  }

  lemma OutCount<T, W>(g: Graph<T, W>, v: nat)
    requires IsDirected(g) && v < VertexNum(g)
    ensures CountNot(g.store.rows[v], g.nullValue) == |OutNeighbors(g, v)|
  {
    var row := g.store.rows[v];
    CountNotMask(row, g.nullValue);
    assert seq(|row|, k requires 0 <= k < |row| => row[k] != g.nullValue) == EdgeMask(g, v, true);
    IndicesCount(EdgeMask(g, v, true));
  }

  lemma InCount<T, W>(g: Graph<T, W>, v: nat)
    requires IsDirected(g) && v < VertexNum(g)
    ensures CountNot(Column(g.store.rows, v), g.nullValue) == |InNeighbors(g, v)|
  {
    var col := Column(g.store.rows, v);
    CountNotMask(col, g.nullValue);
    assert seq(|col|, k requires 0 <= k < |col| => col[k] != g.nullValue) == EdgeMask(g, v, false);
    IndicesCount(EdgeMask(g, v, false));
  }

  /** The exact drift: afterwards the counter exceeds the number of edge
      cells by the number of edges into `v` from other vertices. */
  lemma RemoveVertexDrift<T, W>(g: Graph<T, W>, v: nat)
    requires IsDirected(g) && v < VertexNum(g) && Counted(g)
    ensures RemoveVertex(g, v).edgeNum
            == CellCount(RemoveVertex(g, v)) + |InNeighbors(g, v)| - (if ExistEdge(g, v, v) then 1 else 0)
  {
    var r := RemoveVertex(g, v);
    assert r.store.rows == EraseColumn(Erase(g.store.rows, v), v);
    EraseCrossCount(g.store.rows, v, g.nullValue);
    OutCount(g, v);
    InCount(g, v);
  }

  /** Erasing row and column `v` of a square matrix loses the row's cells
      and the column's, the diagonal cell counted once. */
  lemma EraseCrossCount<W>(rows: seq<seq<W>>, v: nat, nv: W)
    requires v < |rows| && forall i :: 0 <= i < |rows| ==> |rows[i]| == |rows|
    ensures RowsCount(EraseColumn(Erase(rows, v), v), nv)
            == RowsCount(rows, nv) - CountNot(rows[v], nv) - CountNot(Column(rows, v), nv)
               + (if rows[v][v] != nv then 1 else 0)
  {
    var kept := Erase(rows, v);
    RowsCountErase(rows, v, nv);
    EraseColumnCount(kept, v, nv);
    ColumnOfErased(rows, v);
    CountNotErase(Column(rows, v), v, nv);
  }

  lemma ColumnOfErased<W>(rows: seq<seq<W>>, v: nat)
    requires v < |rows| && forall i :: 0 <= i < |rows| ==> v < |rows[i]|
    ensures Column(Erase(rows, v), v) == Erase(Column(rows, v), v)
  {
    var kept := Erase(rows, v);
    var c := Column(rows, v);
    forall i | 0 <= i < |kept|
      ensures Column(kept, v)[i] == Erase(c, v)[i]
    {
      assert kept[i] == rows[Shift(v, i)];
    }
  }

  /** A strictly ascending sequence holding nothing but `v` holds it at
      most once. */
  lemma AscendingOnly(s: seq<nat>, v: nat)
    requires forall a, b :: 0 <= a < b < |s| ==> s[a] < s[b]
    ensures |s| == (if v in s then 1 else 0) <==> forall k :: 0 <= k < |s| ==> s[k] == v
  {
    if forall k :: 0 <= k < |s| ==> s[k] == v {
      var elems := set k | 0 <= k < |s| :: s[k];
      assert Distinct(s);
      DistinctCard(s);
      assert elems <= {v};
      SubsetCard(elems, {v});
      assert |s| == 1 ==> s[0] in s;
    } else {
      var k :| 0 <= k < |s| && s[k] != v;
      if v in s {
        var m :| 0 <= m < |s| && s[m] == v;
        assert k != m;
        assert |s| >= 2;
      }
    }
  }

  /** So the counter stays exact exactly when no other vertex has an edge
      into `v`. */
  lemma RemoveVertexCounted<T, W>(g: Graph<T, W>, v: nat)
    requires IsDirected(g) && v < VertexNum(g) && Counted(g)
    ensures Counted(RemoveVertex(g, v)) <==> forall i :: 0 <= i < VertexNum(g) && i != v ==> !ExistEdge(g, i, v)
  {
    RemoveVertexDrift(g, v);
    var ins := InNeighbors(g, v);
    AscendingOnly(ins, v);
    assert ExistEdge(g, v, v) <==> v in ins;
    assert (forall k :: 0 <= k < |ins| ==> ins[k] == v)
       <==> (forall i :: 0 <= i < VertexNum(g) && i != v ==> !ExistEdge(g, i, v));
  }

  /** The triples ForeachEdge reports: every edge once, row-major. */
  function ForeachEdge<T, W(==)>(g: Graph<T, W>): (r: seq<Edge<W>>)
    requires IsDirected(g)
    ensures forall t :: 0 <= t < |r| ==> Reports(g, r[t])
    ensures forall i, j :: InRange(g, i, j) && ExistEdge(g, i, j) ==> Edge(i, j, GetWeight(g, i, j)) in r
    ensures Sorted(r)
  {
    ScanEdges(g, VertexNum(g), false)
  }

  /** The rows concatenated. */
  function GetAdjacencyMatrix<T, W>(g: Graph<T, W>): (r: seq<W>)
    requires IsDirected(g)
    ensures |r| == VertexNum(g) * VertexNum(g)
    ensures forall i, j :: InRange(g, i, j) ==>
              Cell(VertexNum(g), i, j) < |r| && r[Cell(VertexNum(g), i, j)] == GetWeight(g, i, j)
  {
    FlattenAll(g.store.rows, VertexNum(g));
    Flatten(g.store.rows, VertexNum(g))
  }
}

=== FILE: execute.dfy ===
/** SSSP::Execute: clear the result, stop on a graph without vertices,
    otherwise size the result for the graph, give the source distance 0
    and run the weighted or the breadth-first algorithm as the graph's
    IsWeighted answers. */
module ShortestPathRun {
  import opened Common
  import opened Paths
  import opened WeightedPaths
  import opened ShortestPath
  import opened Dijkstra

  /** Execute on a graph given by its out-neighbour lists `adj`, its weight
      matrix `wt` (the two agreeing) and its IsWeighted answer. The ghost
      `rank` witnesses that every predecessor chain ends, so ForeachPath
      terminates on every target. */
  method Execute(r0: Sssp, adj: seq<seq<nat>>, wt: seq<seq<Option<nat>>>, weighted: bool, src: nat)
    returns (r: Sssp, ghost rank: seq<nat>)
    requires Agree(adj, wt) && |wt| < NULL_DIST
    requires |wt| > 0 ==> src < |wt|
    requires weighted ==> Light(wt)
    ensures |wt| == 0 ==> r == Clear(r0) && IsEmpty(r)
    ensures |wt| > 0 ==> && r.src == src && GetVertexNum(r) == |wt| && GetDistance(r, src) == 0
                         && r.info[src].prev == |wt| && Ranked(r, rank)
    ensures |wt| > 0 && weighted ==> WSolved(wt, r)
    ensures |wt| > 0 && !weighted ==> HopSolved(adj, r)
  {
    r := Clear(r0);
    rank := [];
    if |wt| == 0 {
      return;
    }
    r := Init(|wt|, src);
    r := r.(info := r.info[src := Info(0, |wt|)]);
    if weighted {
      r, rank := WeightedSSSP(adj, wt, r);
    } else {
      r := UnweightedSSSP(adj, r);
      HopRanked(adj, r);
      rank := seq(|r.info|, v requires 0 <= v < |r.info| => r.info[v].dist);
    }
  }

  /** Over agreeing lists and matrix, a breadth-first result and a
      weighted result from the same source mark the same vertices
      reached: the choice IsWeighted makes changes distances, never
      reachability. */
  lemma SameReach(adj: seq<seq<nat>>, wt: seq<seq<Option<nat>>>, h: Sssp, w: Sssp)
    requires Agree(adj, wt) && HopSolved(adj, h) && WSolved(wt, w) && h.src == w.src
    ensures forall v :: 0 <= v < |wt| ==> (h.info[v].dist != NULL_DIST <==> w.info[v].dist != NULL_DIST)
  {
    forall v | 0 <= v < |wt|
      ensures h.info[v].dist != NULL_DIST <==> w.info[v].dist != NULL_DIST
    {
      ReachAgree(adj, wt, h.src, v);
    }
  }

  /** The path ForeachPath emits after Execute: empty for the source and
      for an unreached target; otherwise a walk from the source to the
      target, as short as any in hops after a breadth-first run and as
      light as any after a weighted run. */
  lemma ExecutePath(adj: seq<seq<nat>>, wt: seq<seq<Option<nat>>>, weighted: bool, r: Sssp, t: nat,
                    rank: seq<nat>, path: seq<nat>)
    requires Agree(adj, wt) && t < |wt| && Ranked(r, rank)
    requires weighted ==> WSolved(wt, r)
    requires !weighted ==> HopSolved(adj, r)
    requires r.info[t].prev == |r.info| ==> path == []
    requires r.info[t].prev != |r.info| ==> path == [r.src] + Up(r, t, rank)
    ensures path == [] <==> (t == r.src || r.info[t].dist == NULL_DIST)
    ensures path != [] && weighted ==>
              WPathFromTo(wt, path, r.src, t) && IsWDist(wt, r.src, t, Weight(wt, path))
    ensures path != [] && !weighted ==>
              PathFromTo(adj, path, r.src, t) && IsHopDist(adj, r.src, t, |path| - 1)
  {
    if t != r.src && r.info[t].dist != NULL_DIST {
      if weighted {
        WeightPath(wt, r, t, rank);
      } else {
        HopPath(adj, r, t, rank);
      }
    }
  }
}

=== FILE: graph_base.dfy ===
/** The representation-independent layer every graph shares: vertex
    payload lookup, vertex enumeration, and depth- and breadth-first
    traversal over the out-neighbour lists a representation reports. */
module GraphBase {
  import opened Common
  import opened Paths

  /** Linear scan of the vertex payloads. */
  method ExistVertex<T(==)>(vertexData: seq<T>, v: T) returns (found: bool)
    ensures found <==> v in vertexData
  {
    for i := 0 to |vertexData|
      invariant forall k :: 0 <= k < i ==> vertexData[k] != v
    {
      if vertexData[i] == v {
        return true;
      }
    }
    return false;
  }

  /** Position of the first payload equal to `v`, or NPOS. A vector never
      holds NPOS elements, so NPOS is not a position. */
  method GetVertexPos<T(==)>(vertexData: seq<T>, v: T) returns (pos: nat)
    requires |vertexData| < NPOS
    ensures pos == NPOS <==> v !in vertexData
    ensures pos != NPOS ==> pos < |vertexData| && vertexData[pos] == v
    ensures pos != NPOS ==> forall k :: 0 <= k < pos ==> vertexData[k] != v
  {
    for i := 0 to |vertexData|
      invariant forall k :: 0 <= k < i ==> vertexData[k] != v
    {
      if vertexData[i] == v {
        return i;
      }
    }
    return NPOS;
  }

  /** The positions handed to the callback, in call order. */
  method ForeachVertex(n: nat) returns (visits: seq<nat>)
    ensures |visits| == n
    ensures forall i :: 0 <= i < n ==> visits[i] == i
  {
    visits := [];
    for i := 0 to n
      invariant |visits| == i
      invariant forall k :: 0 <= k < i ==> visits[k] == k
    {
      visits := visits + [i];
    }
  }

  /** Indices not yet visited. */
  function Unvisited(visited: seq<bool>): set<nat>
  {
    set x: nat | x < |visited| && !visited[x]
  }

  /** What the breadth-first queue knows about the vertices it has
      marked: `queue` holds every marked vertex once, in marking order;
      each marked vertex has a witness path from `s` whose length fixes its
      layer `dist`, and layers never decrease along the queue. */
  ghost predicate Layered(adj: seq<seq<nat>>, s: nat, visited: seq<bool>, queue: seq<nat>,
                          dist: seq<nat>, paths: seq<seq<nat>>)
  {
    && |visited| == |adj| && |dist| == |adj| && |paths| == |adj|
    && s < |adj| && |queue| > 0 && queue[0] == s && dist[s] == 0
    && (forall k :: 0 <= k < |queue| ==> queue[k] < |adj|)
    && Distinct(queue)
    && (forall x :: 0 <= x < |adj| ==> (visited[x] <==> x in queue))
    && (forall x :: 0 <= x < |adj| && visited[x] ==>
          PathFromTo(adj, paths[x], s, x) && |paths[x]| == dist[x] + 1)
    && (forall a, b :: 0 <= a < b < |queue| ==> dist[queue[a]] <= dist[queue[b]])
  }

  /** The first `done` queue entries have had all their neighbours marked,
      each at most one layer further out. */
  ghost predicate Expanded(adj: seq<seq<nat>>, visited: seq<bool>, queue: seq<nat>, dist: seq<nat>, done: nat)
    requires ValidAdj(adj) && |visited| == |adj| && |dist| == |adj|
    requires done <= |queue| && forall k :: 0 <= k < |queue| ==> queue[k] < |adj|
  {
    forall a, k :: 0 <= a < done && 0 <= k < |adj[queue[a]]| ==>
      visited[adj[queue[a]][k]] && dist[adj[queue[a]][k]] <= dist[queue[a]] + 1
  }

  /** The breadth-first state between two ForeachOutNeighbor passes: the
      first `head` queue entries are expanded, and from `head` on the
      queue spans at most two adjacent layers. */
  ghost predicate Between(adj: seq<seq<nat>>, s: nat, head: nat, visited: seq<bool>, queue: seq<nat>,
                          dist: seq<nat>, paths: seq<seq<nat>>)
  {
    && ValidAdj(adj) && Layered(adj, s, visited, queue, dist, paths) && head <= |queue|
    && (head < |queue| ==> dist[queue[|queue| - 1]] <= dist[queue[head]] + 1)
    && Expanded(adj, visited, queue, dist, head)
  }

  /** Breadth-first traversal from `s`: the vertices in the order the
      callback sees them. The queue is a sequence whose unconsumed part
      starts at `head`; a vertex is marked when it is enqueued. */
  method BFS(adj: seq<seq<nat>>, s: nat) returns (order: seq<nat>)
    requires ValidAdj(adj)
    requires s < |adj|
    ensures |order| > 0 && order[0] == s
    ensures Distinct(order)
    ensures forall k :: 0 <= k < |order| ==> order[k] < |adj|
    ensures forall t :: 0 <= t < |adj| ==> (t in order <==> Reachable(adj, s, t))
    ensures forall i, j, di, dj ::
              0 <= i < j < |order| && IsHopDist(adj, s, order[i], di) && IsHopDist(adj, s, order[j], dj)
              ==> di <= dj
  {
    var n := |adj|;
    var visited := seq(n, _ => false)[s := true];
    var queue: seq<nat> := [s];
    var head := 0;
    order := [];
    ghost var dist: seq<nat> := seq(n, _ => 0);
    ghost var paths: seq<seq<nat>> := seq(n, _ => [s]);
    BfsStart(adj, s, visited, dist, paths);
    while head < |queue|
      invariant Between(adj, s, head, visited, queue, dist, paths)
      invariant order == queue[..head]
      decreases n - |queue|, |queue| - head
    {
      DistinctBound(queue, n);
      var pos := queue[head];
      head := head + 1;
      order := order + [pos];
      assert order == queue[..head];
      ghost var before := queue;
      visited, queue, dist, paths := EnqueueNeighbours(adj, s, pos, head, visited, queue, dist, paths);
      PrefixGrows(order, before, queue);
      DistinctBound(queue, n);
    }
    assert order == queue;
    BfsResult(adj, s, visited, queue, dist, paths);
  }

  /** The state BFS starts from: only `s` marked and queued. */
  lemma BfsStart(adj: seq<seq<nat>>, s: nat, visited: seq<bool>, dist: seq<nat>, paths: seq<seq<nat>>)
    requires ValidAdj(adj) && s < |adj| && visited == seq(|adj|, _ => false)[s := true]
    requires dist == seq(|adj|, _ => 0) && paths == seq(|adj|, _ => [s])
    ensures Between(adj, s, 0, visited, [s], dist, paths)
  {
    assert PathFromTo(adj, [s], s, s);
  }

  /** The breadth-first state while the neighbours of `pos`, queue entry
      `head - 1`, are marked: every later queue entry is at most one layer
      beyond `pos`. */
  ghost predicate Midway(adj: seq<seq<nat>>, s: nat, pos: nat, head: nat, visited: seq<bool>, queue: seq<nat>,
                         dist: seq<nat>, paths: seq<seq<nat>>)
  {
    && ValidAdj(adj) && Layered(adj, s, visited, queue, dist, paths)
    && 0 < head <= |queue| && queue[head - 1] == pos
    && dist[queue[|queue| - 1]] <= dist[pos] + 1
    && Expanded(adj, visited, queue, dist, head - 1)
  }

  /** The first `k` neighbours of `pos` are marked, each at most one layer
      beyond `d`. */
  ghost predicate Near(adj: seq<seq<nat>>, pos: nat, k: nat, visited: seq<bool>, dist: seq<nat>, d: nat)
  {
    && ValidAdj(adj) && pos < |adj| && |visited| == |adj| && |dist| == |adj| && k <= |adj[pos]|
    && forall j :: 0 <= j < k ==> visited[adj[pos][j]] && dist[adj[pos][j]] <= d + 1
  }

  /** The callback BFS hands to ForeachOutNeighbor(pos): every unmarked
      neighbour is marked and enqueued, one layer beyond `pos`. */
  method EnqueueNeighbours(adj: seq<seq<nat>>, s: nat, pos: nat, head: nat, visited: seq<bool>, queue: seq<nat>,
                           ghost dist: seq<nat>, ghost paths: seq<seq<nat>>)
    returns (visited': seq<bool>, queue': seq<nat>, ghost dist': seq<nat>, ghost paths': seq<seq<nat>>)
    requires 0 < head <= |queue| && Between(adj, s, head - 1, visited, queue, dist, paths)
    requires queue[head - 1] == pos
    ensures Between(adj, s, head, visited', queue', dist', paths')
    ensures |queue| <= |queue'| && queue'[..|queue|] == queue
  {
    visited', queue', dist', paths' := visited, queue, dist, paths;
    for k := 0 to |adj[pos]|
      invariant Midway(adj, s, pos, head, visited', queue', dist', paths')
      invariant |queue| <= |queue'| && queue'[..|queue|] == queue && dist'[pos] == dist[pos]
      invariant Near(adj, pos, k, visited', dist', dist[pos])
    {
      ghost var visitedBefore, distBefore, queueBefore := visited', dist', queue';
      visited', queue', dist', paths' := Enqueue(adj, s, pos, head, adj[pos][k], visited', queue', dist', paths');
      NearStep(adj, pos, k, visitedBefore, distBefore, visited', dist', dist[pos]);
      PrefixGrows(queue, queueBefore, queue');
    }
    Finish(adj, s, pos, head, visited', queue', dist', paths');
  }

  /** One step of the callback: mark and enqueue `i` unless it is marked. */
  method Enqueue(adj: seq<seq<nat>>, s: nat, pos: nat, head: nat, i: nat, visited: seq<bool>, queue: seq<nat>,
                 ghost dist: seq<nat>, ghost paths: seq<seq<nat>>)
    returns (visited': seq<bool>, queue': seq<nat>, ghost dist': seq<nat>, ghost paths': seq<seq<nat>>)
    requires Midway(adj, s, pos, head, visited, queue, dist, paths) && i in adj[pos]
    ensures Midway(adj, s, pos, head, visited', queue', dist', paths')
    ensures |queue| <= |queue'| && queue'[..|queue|] == queue
    ensures forall x :: 0 <= x < |adj| && visited[x] ==> visited'[x] && dist'[x] == dist[x]
    ensures visited'[i] && dist'[i] <= dist[pos] + 1
  {
    visited', queue', dist', paths' := visited, queue, dist, paths;
    if !visited[i] {
      PathExtend(adj, paths[pos], i);
      MarkOne(adj, s, pos, i, visited, queue, dist, paths);
      paths' := paths[i := paths[pos] + [i]];
      dist' := dist[i := dist[pos] + 1];
      queue' := queue + [i];
      visited' := visited[i := true];
      assert queue'[..|queue|] == queue;
      ExpandedGrows(adj, visited, queue, dist, visited', queue', dist', head - 1);
    }
  }

  /** A prefix of a prefix is a prefix. */
  lemma PrefixGrows(q0: seq<nat>, q1: seq<nat>, q2: seq<nat>)
    requires |q0| <= |q1| <= |q2| && q1[..|q0|] == q0 && q2[..|q1|] == q1
    ensures q2[..|q0|] == q0
  {
    assert q2[..|q0|] == q2[..|q1|][..|q0|];
  }

  /** Marking the next neighbour extends Near by one, since marking never
      changes a marked vertex. */
  lemma NearStep(adj: seq<seq<nat>>, pos: nat, k: nat, visited: seq<bool>, dist: seq<nat>,
                 visited': seq<bool>, dist': seq<nat>, d: nat)
    requires Near(adj, pos, k, visited, dist, d) && k < |adj[pos]|
    requires |visited'| == |adj| && |dist'| == |adj|
    requires forall x :: 0 <= x < |adj| && visited[x] ==> visited'[x] && dist'[x] == dist[x]
    requires visited'[adj[pos][k]] && dist'[adj[pos][k]] <= d + 1
    ensures Near(adj, pos, k + 1, visited', dist', d)
  {
  }

  /** With every neighbour of `pos` marked at most one layer further out,
      the expanded prefix takes in `pos`. */
  lemma Finish(adj: seq<seq<nat>>, s: nat, pos: nat, head: nat, visited: seq<bool>, queue: seq<nat>,
               dist: seq<nat>, paths: seq<seq<nat>>)
    requires Midway(adj, s, pos, head, visited, queue, dist, paths)
    requires Near(adj, pos, |adj[pos]|, visited, dist, dist[pos])
    ensures Between(adj, s, head, visited, queue, dist, paths)
  {
    if head < |queue| {
      assert dist[queue[head - 1]] <= dist[queue[head]];
    }
    forall a, k | 0 <= a < head && 0 <= k < |adj[queue[a]]|
      ensures visited[adj[queue[a]][k]] && dist[adj[queue[a]][k]] <= dist[queue[a]] + 1
    {
    }
  }

  /** Marking an unmarked neighbour `i` of the vertex being expanded keeps
      the queue layered. */
  lemma MarkOne(adj: seq<seq<nat>>, s: nat, pos: nat, i: nat, visited: seq<bool>, queue: seq<nat>,
                dist: seq<nat>, paths: seq<seq<nat>>)
    requires ValidAdj(adj)
    requires Layered(adj, s, visited, queue, dist, paths)
    requires pos < |adj| && visited[pos] && i < |adj| && !visited[i]
    requires PathFromTo(adj, paths[pos] + [i], s, i)
    requires dist[queue[|queue| - 1]] <= dist[pos] + 1
    ensures Layered(adj, s, visited[i := true], queue + [i], dist[i := dist[pos] + 1],
                    paths[i := paths[pos] + [i]])
  {
    var q := queue + [i];
    var d := dist[i := dist[pos] + 1];
    assert i != s;
    forall a, b | 0 <= a < b < |q|
      ensures d[q[a]] <= d[q[b]]
    {
      if b < |queue| {
        assert q[a] != i && q[b] != i;
      } else {
        assert q[a] != i;
        if a < |queue| - 1 {
          assert dist[queue[a]] <= dist[queue[|queue| - 1]];
        }
      }
    }
    forall x | 0 <= x < |adj|
      ensures (visited[i := true][x] <==> x in q)
    {
      assert x in q <==> x in queue || x == i;
    }
  }

  /** Marking only adds vertices and keeps the layers of marked ones, so
      an expanded prefix stays expanded. */
  lemma ExpandedGrows(adj: seq<seq<nat>>, visited: seq<bool>, queue: seq<nat>, dist: seq<nat>,
                      visited': seq<bool>, queue': seq<nat>, dist': seq<nat>, done: nat)
    requires ValidAdj(adj) && |visited| == |adj| && |dist| == |adj|
    requires |visited'| == |adj| && |dist'| == |adj|
    requires done <= |queue| <= |queue'| && queue'[..|queue|] == queue
    requires forall k :: 0 <= k < |queue'| ==> queue'[k] < |adj|
    requires forall x :: 0 <= x < |adj| && visited[x] ==> visited'[x] && dist'[x] == dist[x]
    requires forall k :: 0 <= k < |queue| ==> visited[queue[k]]
    requires Expanded(adj, visited, queue, dist, done)
    ensures Expanded(adj, visited', queue', dist', done)
  {
    forall a, k | 0 <= a < done && 0 <= k < |adj[queue'[a]]|
      ensures visited'[adj[queue'[a]][k]] && dist'[adj[queue'[a]][k]] <= dist'[queue'[a]] + 1
    {
      assert queue'[a] == queue[a];
    }
  }

  /** Once every queued vertex has been expanded, the marked vertices are
      exactly the reachable ones and each layer is the hop distance. */
  lemma BfsResult(adj: seq<seq<nat>>, s: nat, visited: seq<bool>, queue: seq<nat>,
                  dist: seq<nat>, paths: seq<seq<nat>>)
    requires ValidAdj(adj)
    requires Layered(adj, s, visited, queue, dist, paths)
    requires Expanded(adj, visited, queue, dist, |queue|)
    ensures forall t :: 0 <= t < |adj| ==> (t in queue <==> Reachable(adj, s, t))
    ensures forall x :: 0 <= x < |adj| && visited[x] ==> IsHopDist(adj, s, x, dist[x])
    ensures forall i, j, di, dj ::
              0 <= i < j < |queue| && IsHopDist(adj, s, queue[i], di) && IsHopDist(adj, s, queue[j], dj)
              ==> di <= dj
  {
    forall t | 0 <= t < |adj|
      ensures t in queue <==> Reachable(adj, s, t)
    {
      if t in queue {
        assert PathFromTo(adj, paths[t], s, t);
      }
      if Reachable(adj, s, t) {
        ClosedReach(adj, visited, s, t);
      }
    }
    forall x | 0 <= x < |adj| && visited[x]
      ensures IsHopDist(adj, s, x, dist[x])
    {
      forall p | PathFromTo(adj, p, s, x)
        ensures dist[x] + 1 <= |p|
      {
        HopClosure(adj, visited, dist, s, p);
      }
    }
    forall i, j, di, dj |
      0 <= i < j < |queue| && IsHopDist(adj, s, queue[i], di) && IsHopDist(adj, s, queue[j], dj)
      ensures di <= dj
    {
      HopDistUnique(adj, s, queue[i], di, dist[queue[i]]);
      HopDistUnique(adj, s, queue[j], dj, dist[queue[j]]);
    }
  }

  /** Depth-first traversal from `s`: the vertices in the order the
      callback sees them. */
  method DFS(adj: seq<seq<nat>>, s: nat) returns (order: seq<nat>)
    requires ValidAdj(adj)
    requires s < |adj|
    ensures |order| > 0 && order[0] == s
    ensures Distinct(order)
    ensures forall k :: 0 <= k < |order| ==> order[k] < |adj|
    ensures forall t :: 0 <= t < |adj| ==> (t in order <==> Reachable(adj, s, t))
  {
    var visited := seq(|adj|, _ => false);
    visited, order := DfsVisit(adj, s, visited);
    forall t | 0 <= t < |adj|
      ensures t in order <==> Reachable(adj, s, t)
    {
      if Reachable(adj, s, t) {
        ClosedReach(adj, visited, s, t);
      }
    }
  }

  /** The recursive visitor inside DFS: marks `v`, reports it, then
      descends into every neighbour still unmarked. */
  method DfsVisit(adj: seq<seq<nat>>, v: nat, visited: seq<bool>) returns (marked: seq<bool>, order: seq<nat>)
    requires ValidAdj(adj)
    requires |visited| == |adj| && v < |adj| && !visited[v]
    ensures |marked| == |adj|
    ensures |order| > 0 && order[0] == v && Distinct(order)
    ensures forall k :: 0 <= k < |order| ==> order[k] < |adj| && !visited[order[k]]
    ensures forall x :: 0 <= x < |adj| ==> (marked[x] <==> visited[x] || x in order)
    ensures forall k :: 0 <= k < |order| ==> Reachable(adj, v, order[k])
    ensures forall k, j :: 0 <= k < |order| && 0 <= j < |adj[order[k]]| ==> marked[adj[order[k]][j]]
    decreases Unvisited(visited)
  {
    marked := visited[v := true];
    order := [v];
    ReachSelf(adj, v);
    for k := 0 to |adj[v]|
      invariant |marked| == |adj| && marked[v]
      invariant |order| > 0 && order[0] == v && Distinct(order)
      invariant forall j :: 0 <= j < |order| ==> order[j] < |adj| && !visited[order[j]]
      invariant forall x :: 0 <= x < |adj| ==> (marked[x] <==> visited[x] || x in order)
      invariant forall j :: 0 <= j < |order| ==> Reachable(adj, v, order[j])
      invariant forall j, m :: 1 <= j < |order| && 0 <= m < |adj[order[j]]| ==> marked[adj[order[j]][m]]
      invariant forall m :: 0 <= m < k ==> marked[adj[v][m]]
    {
      var i := adj[v][k];
      if !marked[i] {
        assert Unvisited(marked) < Unvisited(visited) by {
          assert v in Unvisited(visited) && v !in Unvisited(marked);
        }
        var sub;
        ghost var before := marked;
        marked, sub := DfsVisit(adj, i, marked);
        forall j | 0 <= j < |sub|
          ensures Reachable(adj, v, sub[j])
        {
          ReachPrepend(adj, v, i, sub[j]);
        }
        assert forall j :: 0 <= j < |order| ==> before[order[j]];
        Absorb(adj, before, marked, order, sub);
        order := order + sub;
      }
    }
  }

  /** After a nested visit, the neighbours of every reported vertex, old
      or new, are marked, since marking only grows. */
  lemma Absorb(adj: seq<seq<nat>>, before: seq<bool>, marked: seq<bool>, order: seq<nat>, sub: seq<nat>)
    requires ValidAdj(adj) && |before| == |adj| && |marked| == |adj|
    requires forall x :: 0 <= x < |adj| && before[x] ==> marked[x]
    requires forall j :: 0 <= j < |order| ==> order[j] < |adj|
    requires forall j :: 0 <= j < |sub| ==> sub[j] < |adj|
    requires forall j, m :: 1 <= j < |order| && 0 <= m < |adj[order[j]]| ==> before[adj[order[j]][m]]
    requires forall j, m :: 0 <= j < |sub| && 0 <= m < |adj[sub[j]]| ==> marked[adj[sub[j]][m]]
    ensures forall j, m :: 1 <= j < |order + sub| && 0 <= m < |adj[(order + sub)[j]]| ==>
              marked[adj[(order + sub)[j]][m]]
  {
    var all := order + sub;
    forall j, m | 1 <= j < |all| && 0 <= m < |adj[all[j]]|
      ensures marked[adj[all[j]][m]]
    {
      if j < |order| {
        assert all[j] == order[j];
      } else {
        assert all[j] == sub[j - |order|];
      }
    }
  }
}

=== FILE: matrix_graph.dfy ===
/** The adjacency-matrix family. Directed graphs keep a square vector of
    rows; undirected graphs keep the lower triangle packed row after row,
    cell (i, j) with i <= j at j*(j+1)/2+i. The edge bookkeeping shared by
    both (InsertEdge, RemoveEdge, ExistEdge, the neighbour scans) goes
    through the representation's GetWeight/SetWeight. */
module MatrixGraph {
  import opened Common
  import opened Adjacency

  datatype Storage<W> = Square(rows: seq<seq<W>>) | Triangle(cells: seq<W>)

  /** Vertex payloads, the size_t edge counter (as an unbounded integer,
      see Common.Size), the NullValue template argument and the weights. */
  datatype Graph<T, W> = Graph(vertexData: seq<T>, edgeNum: int, nullValue: W, store: Storage<W>)

  /** Number of cells of a packed triangle with k rows. */
  function Tri(k: nat): nat
  {
    if k == 0 then 0 else Tri(k - 1) + k
  }

  lemma {:induction false} TriDouble(k: nat)
    ensures 2 * Tri(k) == k * (k + 1)
  {
    if k > 0 {
      TriDouble(k - 1);
      assert k * (k + 1) == (k - 1) * k + 2 * k;
    }
  }

  /** The closed form the source writes. */
  lemma TriClosedForm(k: nat)
    ensures Tri(k) == k * (k + 1) / 2
  {
    TriDouble(k);
  }

  lemma {:induction false} TriMono(a: nat, b: nat)
    requires a <= b
    ensures Tri(a) <= Tri(b)
    decreases b
  {
    if a < b {
      TriMono(a, b - 1);
    }
  }

  /** Packed position of cell (i, j), i <= j. */
  function Pos(i: nat, j: nat): nat
    requires i <= j
  {
    Tri(j) + i
  }

  lemma PosBound(i: nat, j: nat, n: nat)
    requires i <= j < n
    ensures Pos(i, j) < Tri(n)
  {
    TriMono(j + 1, n);
  }

  lemma PosInjective(i: nat, j: nat, i': nat, j': nat)
    requires i <= j && i' <= j'
    ensures Pos(i, j) == Pos(i', j') ==> i == i' && j == j'
  {
    if j < j' {
      TriMono(j + 1, j');
    } else if j' < j {
      TriMono(j' + 1, j);
    }
  }

  /** Every packed position below Tri(n) is the position of some cell. */
  lemma {:induction false} PosOnto(n: nat, k: nat) returns (i: nat, j: nat)
    requires k < Tri(n)
    ensures i <= j < n && Pos(i, j) == k
  {
    if k < Tri(n - 1) {
      i, j := PosOnto(n - 1, k);
    } else {
      i, j := k - Tri(n - 1), n - 1;
    }
  }

  /** The index expression of the undirected GetWeight/SetWeight: the
      larger vertex picks the packed row. */
  function TriIndex(a: nat, b: nat): (r: nat)
    ensures r == if a > b then Pos(b, a) else Pos(a, b)
  {
    TriClosedForm(a);
    TriClosedForm(b);
    if a > b then a * (a + 1) / 2 + b else b * (b + 1) / 2 + a
  }

  /** Every access of an n-vertex triangle is in bounds. */
  lemma TriIndexBound(a: nat, b: nat, n: nat)
    requires a < n && b < n
    ensures TriIndex(a, b) < Tri(n)
  {
    if a > b { PosBound(b, a, n); } else { PosBound(a, b, n); }
  }

  function VertexNum<T, W>(g: Graph<T, W>): nat
  {
    |g.vertexData|
  }

  /** The storage has the shape the vertex count demands. */
  ghost predicate Valid<T, W>(g: Graph<T, W>)
  {
    match g.store
    case Square(rows) =>
      |rows| == VertexNum(g) && forall i :: 0 <= i < |rows| ==> |rows[i]| == VertexNum(g)
    case Triangle(cells) => |cells| == Tri(VertexNum(g))
  }

  /** Pairs of vertex positions of `g`. */
  ghost predicate InRange<T, W>(g: Graph<T, W>, a: nat, b: nat)
  {
    a < VertexNum(g) && b < VertexNum(g)
  }

  function GetWeight<T, W>(g: Graph<T, W>, a: nat, b: nat): (r: W)
    requires Valid(g) && InRange(g, a, b)
    ensures g.store.Square? ==> r == g.store.rows[a][b]
    ensures g.store.Triangle? ==>
              TriIndex(a, b) < |g.store.cells| && r == g.store.cells[TriIndex(a, b)]
  {
    match g.store
    case Square(rows) => rows[a][b]
    case Triangle(cells) =>
      TriIndexBound(a, b, VertexNum(g));
      cells[TriIndex(a, b)]
  }

  /** Setting (a, b) also sets (b, a) when both share a triangular cell. */
  predicate Touches<T, W>(g: Graph<T, W>, a: nat, b: nat, i: nat, j: nat)
  {
    (i == a && j == b) || (g.store.Triangle? && i == b && j == a)
  }

  function SetWeight<T, W>(g: Graph<T, W>, a: nat, b: nat, w: W): (r: Graph<T, W>)
    requires Valid(g) && InRange(g, a, b)
    ensures Valid(r) && r.vertexData == g.vertexData && r.edgeNum == g.edgeNum
    ensures r.nullValue == g.nullValue && r.store.Square? == g.store.Square?
    ensures GetWeight(r, a, b) == w
    ensures forall i, j :: InRange(g, i, j) && !Touches(g, a, b, i, j) ==> GetWeight(r, i, j) == GetWeight(g, i, j)
  {
    match g.store
    case Square(rows) =>
      g.(store := Square(rows[a := rows[a][b := w]]))
    case Triangle(cells) =>
      var k := TriIndex(a, b);
      TriIndexBound(a, b, VertexNum(g));
      var r := g.(store := Triangle(cells[k := w]));
      assert forall i, j :: InRange(g, i, j) && !Touches(g, a, b, i, j) ==> GetWeight(r, i, j) == GetWeight(g, i, j) by {
        forall i, j | InRange(g, i, j) && !Touches(g, a, b, i, j)
          ensures GetWeight(r, i, j) == GetWeight(g, i, j)
        {
          TriIndexBound(i, j, VertexNum(g));
          if TriIndex(i, j) == k {
            if i > j {
              if a > b { PosInjective(j, i, b, a); } else { PosInjective(j, i, a, b); }
            } else {
              if a > b { PosInjective(i, j, b, a); } else { PosInjective(i, j, a, b); }
            }
          }
        }
      }
      r
  }

  /** A triangular graph reads the same weight in both directions. */
  lemma TriangleSymmetric<T, W>(g: Graph<T, W>, a: nat, b: nat)
    requires Valid(g) && InRange(g, a, b) && g.store.Triangle?
    ensures GetWeight(g, a, b) == GetWeight(g, b, a)
  {
  }

  function ExistEdge<T, W(==)>(g: Graph<T, W>, a: nat, b: nat): (r: bool)
    requires Valid(g) && InRange(g, a, b)
    ensures g.store.Square? ==> (r <==> g.store.rows[a][b] != g.nullValue)
    ensures g.store.Triangle? ==>
              TriIndex(a, b) < |g.store.cells| && (r <==> g.store.cells[TriIndex(a, b)] != g.nullValue)
  {
    GetWeight(g, a, b) != g.nullValue
  }

  /** Adds the edge unless it exists; the counter goes up first, whatever
      the weight. */
  function InsertEdge<T, W(==)>(g: Graph<T, W>, a: nat, b: nat, w: W): (r: Graph<T, W>)
    requires Valid(g) && InRange(g, a, b)
    ensures Valid(r) && r.vertexData == g.vertexData && r.nullValue == g.nullValue
    ensures r.store.Square? == g.store.Square?
    ensures ExistEdge(g, a, b) ==> r == g
    ensures !ExistEdge(g, a, b) ==> r.edgeNum == g.edgeNum + 1 && GetWeight(r, a, b) == w
    ensures forall i, j :: InRange(g, i, j) && !Touches(g, a, b, i, j) ==> GetWeight(r, i, j) == GetWeight(g, i, j)
  {
    if ExistEdge(g, a, b) then g
    else SetWeight(g.(edgeNum := g.edgeNum + 1), a, b, w)
  }

  /** Drops the edge if it exists. */
  function RemoveEdge<T, W(==)>(g: Graph<T, W>, a: nat, b: nat): (r: Graph<T, W>)
    requires Valid(g) && InRange(g, a, b)
    ensures Valid(r) && r.vertexData == g.vertexData && r.nullValue == g.nullValue
    ensures r.store.Square? == g.store.Square?
    ensures !ExistEdge(g, a, b) ==> r == g
    ensures ExistEdge(g, a, b) ==> r.edgeNum == g.edgeNum - 1
    ensures !ExistEdge(r, a, b)
    ensures forall i, j :: InRange(g, i, j) && !Touches(g, a, b, i, j) ==> GetWeight(r, i, j) == GetWeight(g, i, j)
  {
    if !ExistEdge(g, a, b) then g
    else SetWeight(g.(edgeNum := g.edgeNum - 1), a, b, g.nullValue)
  }

  lemma RemoveEdgeIdempotent<T, W>(g: Graph<T, W>, a: nat, b: nat)
    requires Valid(g) && InRange(g, a, b)
    ensures RemoveEdge(RemoveEdge(g, a, b), a, b) == RemoveEdge(g, a, b)
  {
  }

  /** Which positions `i` have an edge v -> i (`out`) or i -> v. */
  function EdgeMask<T, W(==)>(g: Graph<T, W>, v: nat, out: bool): (r: seq<bool>)
    requires Valid(g) && v < VertexNum(g)
    ensures |r| == VertexNum(g)
    ensures forall i :: 0 <= i < |r| ==> r[i] == if out then ExistEdge(g, v, i) else ExistEdge(g, i, v)
  {
    seq(VertexNum(g), i requires 0 <= i < VertexNum(g) => if out then ExistEdge(g, v, i) else ExistEdge(g, i, v))
  }

  /** Positions `i` with an edge v -> i, ascending. */
  function OutNeighbors<T, W(==)>(g: Graph<T, W>, v: nat): (r: seq<nat>)
    requires Valid(g) && v < VertexNum(g)
    ensures forall k :: 0 <= k < |r| ==> r[k] < VertexNum(g) && ExistEdge(g, v, r[k])
    ensures forall i :: 0 <= i < VertexNum(g) && ExistEdge(g, v, i) ==> i in r
    ensures forall a, b :: 0 <= a < b < |r| ==> r[a] < r[b]
  {
    Indices(EdgeMask(g, v, true))
  }

  /** Positions `i` with an edge i -> v, ascending. */
  function InNeighbors<T, W(==)>(g: Graph<T, W>, v: nat): (r: seq<nat>)
    requires Valid(g) && v < VertexNum(g)
    ensures forall k :: 0 <= k < |r| ==> r[k] < VertexNum(g) && ExistEdge(g, r[k], v)
    ensures forall i :: 0 <= i < VertexNum(g) && ExistEdge(g, i, v) ==> i in r
    ensures forall a, b :: 0 <= a < b < |r| ==> r[a] < r[b]
  {
    Indices(EdgeMask(g, v, false))
  }

  /** The undirected view: in- and out-neighbours coincide. */
  lemma TriangleNeighbors<T, W>(g: Graph<T, W>, v: nat)
    requires Valid(g) && v < VertexNum(g) && g.store.Triangle?
    ensures InNeighbors(g, v) == OutNeighbors(g, v)
  {
    var n := VertexNum(g);
    forall i | 0 <= i < n
      ensures ExistEdge(g, i, v) == ExistEdge(g, v, i)
    {
      TriangleSymmetric(g, i, v);
    }
    assert EdgeMask(g, v, false) == EdgeMask(g, v, true);
  }

  /* ---------------- the edge counter ---------------- */

  /** Sum of CountNot over rows. */
  function RowsCount<W(==)>(rows: seq<seq<W>>, nv: W): nat
  {
    if |rows| == 0 then 0
    else RowsCount(rows[..|rows| - 1], nv) + CountNot(rows[|rows| - 1], nv)
  }

  lemma {:induction false} RowsCountAppend<W>(s: seq<seq<W>>, t: seq<seq<W>>, nv: W)
    ensures RowsCount(s + t, nv) == RowsCount(s, nv) + RowsCount(t, nv)
    decreases |t|
  {
    if |t| == 0 {
      assert s + t == s;
    } else {
      assert (s + t)[..|s + t| - 1] == s + t[..|t| - 1];
      RowsCountAppend(s, t[..|t| - 1], nv);
    }
  }

  lemma RowsCountUpdate<W>(rows: seq<seq<W>>, a: nat, row: seq<W>, nv: W)
    requires a < |rows|
    ensures RowsCount(rows[a := row], nv) == RowsCount(rows, nv) - CountNot(rows[a], nv) + CountNot(row, nv)
  {
    assert rows == rows[..a] + [rows[a]] + rows[a + 1..];
    assert rows[a := row] == rows[..a] + [row] + rows[a + 1..];
    RowsCountAppend(rows[..a] + [rows[a]], rows[a + 1..], nv);
    RowsCountAppend(rows[..a], [rows[a]], nv);
    RowsCountAppend(rows[..a] + [row], rows[a + 1..], nv);
    RowsCountAppend(rows[..a], [row], nv);
    assert [rows[a]][..0] == [];
    assert [row][..0] == [];
  }

  lemma RowsCountErase<W>(rows: seq<seq<W>>, a: nat, nv: W)
    requires a < |rows|
    ensures RowsCount(Erase(rows, a), nv) == RowsCount(rows, nv) - CountNot(rows[a], nv)
  {
    assert rows == rows[..a] + [rows[a]] + rows[a + 1..];
    RowsCountAppend(rows[..a] + [rows[a]], rows[a + 1..], nv);
    RowsCountAppend(rows[..a], [rows[a]], nv);
    RowsCountAppend(rows[..a], rows[a + 1..], nv);
    assert [rows[a]][..0] == [];
  }

  /** Number of cells holding an edge. */
  function CellCount<T, W(==)>(g: Graph<T, W>): nat
  {
    match g.store
    case Square(rows) => RowsCount(rows, g.nullValue)
    case Triangle(cells) => CountNot(cells, g.nullValue)
  }

  /** The counter agrees with the cells: the invariant the edge operations
      keep. */
  ghost predicate Counted<T, W>(g: Graph<T, W>)
  {
    g.edgeNum == CellCount(g)
  }

  /** Writing one cell moves the cell count by the change of that cell. */
  lemma SetWeightCount<T, W>(g: Graph<T, W>, a: nat, b: nat, w: W)
    requires Valid(g) && InRange(g, a, b)
    ensures CellCount(SetWeight(g, a, b, w))
            == CellCount(g) - (if ExistEdge(g, a, b) then 1 else 0) + (if w != g.nullValue then 1 else 0)
  {
    match g.store
    case Square(rows) =>
      RowsCountUpdate(rows, a, rows[a][b := w], g.nullValue);
      CountNotUpdate(rows[a], b, w, g.nullValue);
    case Triangle(cells) =>
      TriIndexBound(a, b, VertexNum(g));
      CountNotUpdate(cells, TriIndex(a, b), w, g.nullValue);
  }

  /** Inserting a non-null weight keeps the counter equal to the number of
      edge cells. */
  lemma InsertEdgeCounted<T, W>(g: Graph<T, W>, a: nat, b: nat, w: W)
    requires Valid(g) && InRange(g, a, b) && Counted(g)
    requires w != g.nullValue
    ensures Counted(InsertEdge(g, a, b, w))
  {
    if !ExistEdge(g, a, b) {
      SetWeightCount(g.(edgeNum := g.edgeNum + 1), a, b, w);
    }
  }

  /** Inserting NullValue on an absent edge raises the counter while no
      cell changes: the counter then exceeds the cell count by one. */
  lemma InsertNullDrift<T, W>(g: Graph<T, W>, a: nat, b: nat)
    requires Valid(g) && InRange(g, a, b) && Counted(g)
    requires !ExistEdge(g, a, b)
    ensures InsertEdge(g, a, b, g.nullValue).edgeNum == CellCount(InsertEdge(g, a, b, g.nullValue)) + 1
  {
    SetWeightCount(g.(edgeNum := g.edgeNum + 1), a, b, g.nullValue);
  }

  lemma RemoveEdgeCounted<T, W>(g: Graph<T, W>, a: nat, b: nat)
    requires Valid(g) && InRange(g, a, b) && Counted(g)
    ensures Counted(RemoveEdge(g, a, b))
  {
    if ExistEdge(g, a, b) {
      SetWeightCount(g.(edgeNum := g.edgeNum - 1), a, b, g.nullValue);
    }
  }

  /* ---------------- edge enumeration ---------------- */

  /** Strict row-major order of two reports. */
  predicate RowMajor<W>(e: Edge<W>, f: Edge<W>)
  {
    e.from < f.from || (e.from == f.from && e.to < f.to)
  }

  ghost predicate Sorted<W>(r: seq<Edge<W>>)
  {
    forall a, b :: 0 <= a < b < |r| ==> RowMajor(r[a], r[b])
  }

  /** `e` reports an existing edge of `g` with its weight. */
  ghost predicate Reports<T, W>(g: Graph<T, W>, e: Edge<W>)
  {
    && Valid(g) && InRange(g, e.from, e.to)
    && ExistEdge(g, e.from, e.to) && e.w == GetWeight(g, e.from, e.to)
  }

  /** The columns of row `i` the scan reports: all of them, or with
      `upper` only j >= i (the undirected scan). */
  function RowMask<T, W(==)>(g: Graph<T, W>, i: nat, upper: bool): (r: seq<bool>)
    requires Valid(g) && i < VertexNum(g)
    ensures |r| == VertexNum(g)
    ensures forall j :: 0 <= j < |r| ==> (r[j] <==> (!upper || i <= j) && ExistEdge(g, i, j))
  {
    seq(VertexNum(g), j requires 0 <= j < VertexNum(g) => (!upper || i <= j) && ExistEdge(g, i, j))
  }

  function RowEdges<T, W(==)>(g: Graph<T, W>, i: nat, upper: bool): (r: seq<Edge<W>>)
    requires Valid(g) && i < VertexNum(g)
    ensures forall k :: 0 <= k < |r| ==> r[k].from == i && (upper ==> i <= r[k].to) && Reports(g, r[k])
    ensures forall j :: 0 <= j < VertexNum(g) && (upper ==> i <= j) && ExistEdge(g, i, j) ==>
              Edge(i, j, GetWeight(g, i, j)) in r
    ensures Sorted(r)
  {
    var cols := Indices(RowMask(g, i, upper));
    var r := seq(|cols|, k requires 0 <= k < |cols| => Edge(i, cols[k], GetWeight(g, i, cols[k])));
    RowEdgesComplete(g, i, upper, cols, r);
    r
  }

  lemma RowEdgesComplete<T, W>(g: Graph<T, W>, i: nat, upper: bool, cols: seq<nat>, r: seq<Edge<W>>)
    requires Valid(g) && i < VertexNum(g)
    requires cols == Indices(RowMask(g, i, upper))
    requires |r| == |cols| && forall k :: 0 <= k < |cols| ==> r[k] == Edge(i, cols[k], GetWeight(g, i, cols[k]))
    ensures forall j :: 0 <= j < VertexNum(g) && (upper ==> i <= j) && ExistEdge(g, i, j) ==>
              Edge(i, j, GetWeight(g, i, j)) in r
  {
    var mask := RowMask(g, i, upper);
    forall j | 0 <= j < VertexNum(g) && (upper ==> i <= j) && ExistEdge(g, i, j)
      ensures Edge(i, j, GetWeight(g, i, j)) in r
    {
      assert mask[j];
      var k :| 0 <= k < |cols| && cols[k] == j;
      assert r[k] == Edge(i, j, GetWeight(g, i, j));
    }
  }

  lemma SortedAppend<W>(s: seq<Edge<W>>, t: seq<Edge<W>>, i: nat)
    requires Sorted(s) && Sorted(t)
    requires forall k :: 0 <= k < |s| ==> s[k].from < i
    requires forall k :: 0 <= k < |t| ==> t[k].from == i
    ensures Sorted(s + t)
  {
    var r := s + t;
    forall a, b | 0 <= a < b < |r|
      ensures RowMajor(r[a], r[b])
    {
      if b < |s| {
        assert r[a] == s[a] && r[b] == s[b];
      } else if a < |s| {
        assert r[a] == s[a] && r[b] == t[b - |s|];
      } else {
        assert r[a] == t[a - |s|] && r[b] == t[b - |s|];
      }
    }
  }

  /** The reports of the rows below `k`, row after row. */
  function ScanEdges<T, W(==)>(g: Graph<T, W>, k: nat, upper: bool): (r: seq<Edge<W>>)
    requires Valid(g) && k <= VertexNum(g)
    ensures forall t :: 0 <= t < |r| ==> r[t].from < k && (upper ==> r[t].from <= r[t].to) && Reports(g, r[t])
    ensures forall i, j :: 0 <= i < k && 0 <= j < VertexNum(g) && (upper ==> i <= j) && ExistEdge(g, i, j) ==>
              Edge(i, j, GetWeight(g, i, j)) in r
    ensures Sorted(r)
  {
    if k == 0 then []
    else
      var init := ScanEdges(g, k - 1, upper);
      var row := RowEdges(g, k - 1, upper);
      SortedAppend(init, row, k - 1);
      init + row
  }
}

=== FILE: mst.dfy ===
/** MST_Parent<T> of MST.h: a spanning tree held as an array of parent
    indices of the integral type T, with NPOS (T(-1)) marking a root and
    answering every out-of-range query. */
module MstParent {
  import opened Common

  /** The index type T: its width and its signedness. */
  datatype IndexType = IndexType(bits: nat, signed: bool)

  /** The integral types of 8, 16, 32 and 64 bits. */
  predicate ValidType(t: IndexType)
  {
    t.bits == 8 || t.bits == 16 || t.bits == 32 || t.bits == 64
  }

  /** 2^bits, the number of values of T. */
  function Modulus(t: IndexType): (m: nat)
    requires ValidType(t)
    ensures m >= 0x100 && m % 2 == 0
  {
    if t.bits == 8 then 0x100
    else if t.bits == 16 then 0x1_0000
    else if t.bits == 32 then 0x1_0000_0000
    else SIZE_MOD
  }

  /** The least value of T. */
  function Low(t: IndexType): int
    requires ValidType(t)
  {
    if t.signed then -(Modulus(t) / 2) else 0
  }

  /** `x` is a value of T. */
  predicate InT(t: IndexType, x: int)
    requires ValidType(t)
  {
    Low(t) <= x < Low(t) + Modulus(t)
  }

  /** static_cast<T>(x): the value of T congruent to `x` modulo 2^bits
      (the two's-complement reading for a signed T). */
  function Cast(t: IndexType, x: int): (r: int)
    requires ValidType(t)
    ensures InT(t, r) && (x - r) % Modulus(t) == 0
    ensures InT(t, x) ==> r == x
  {
    var m := Modulus(t);
    var r := Low(t) + (x - Low(t)) % m;
    assert x - r == (x - Low(t)) / m * m;
    r
  }

  /** NPOS = static_cast<T>(-1): -1 for a signed T, its largest value
      for an unsigned one. */
  function Npos(t: IndexType): (r: int)
    requires ValidType(t)
    ensures InT(t, r)
    ensures t.signed ==> r == -1
    ensures !t.signed ==> r == Modulus(t) - 1
  {
    Cast(t, -1)
  }

  /** An MST_Parent: m_size and the contents of m_vertex, empty for a
      null pointer. */
  datatype Mst = Mst(size: nat, vertex: seq<int>)

  /** The array has one T value per vertex and the size fits size_t. */
  predicate Valid(t: IndexType, m: Mst)
    requires ValidType(t)
  {
    && m.size < SIZE_MOD && |m.vertex| == m.size
    && forall k :: 0 <= k < |m.vertex| ==> InT(t, m.vertex[k])
  }

  function GetVertexNum(m: Mst): nat
  {
    m.size
  }

  predicate IsEmpty(m: Mst)
  {
    m.size == 0
  }

  /** The defaulted constructor as written: m_vertex starts null but
      m_size has no initialiser, so a default-initialised tree holds
      whatever `junk` the storage held. */
  function DefaultAsWritten(junk: nat): (m: Mst)
    requires junk < SIZE_MOD
    ensures m.vertex == [] && GetVertexNum(m) == junk
  {
    Mst(junk, [])
  }

  /** A default-initialised tree can claim a vertex while owning no array:
      it is not empty, and GetParent(0) would read through the null
      pointer. */
  lemma DefaultIndeterminate(t: IndexType)
    requires ValidType(t)
    ensures !IsEmpty(DefaultAsWritten(1)) && !Valid(t, DefaultAsWritten(1))
  {
  }

  /** The constructor with m_size initialised to 0 alongside m_vertex. */
  function Default(): (m: Mst)
    ensures IsEmpty(m) && GetVertexNum(m) == 0 && m.vertex == []
  {
    Mst(0, [])
  }

  /** Clear: the array is released and the size drops to 0. */
  function Clear(m: Mst): (c: Mst)
    ensures IsEmpty(c) && GetVertexNum(c) == 0 && c.vertex == []
  {
    Mst(0, [])
  }

  /** GetParent: the stored parent of an in-range vertex, NPOS otherwise.
      The comparison with m_size converts the T argument to size_t. */
  function GetParent(t: IndexType, m: Mst, v: int): (r: int)
    requires ValidType(t) && Valid(t, m) && InT(t, v)
    ensures InT(t, r)
    ensures Size(v) >= GetVertexNum(m) ==> r == Npos(t)
    ensures 0 <= v < GetVertexNum(m) ==> r == m.vertex[v]
  {
    if Size(v) < m.size then m.vertex[Size(v)] else Cast(t, 0 - 1)
  }

  /** SetVertexNum: Clear, then, for a positive size, an array of `size`
      elements whose values are whatever `junk` the allocation holds. */
  function SetVertexNum(t: IndexType, m: Mst, size: nat, junk: seq<int>): (r: Mst)
    requires ValidType(t) && size < SIZE_MOD && |junk| == size
    requires forall k :: 0 <= k < |junk| ==> InT(t, junk[k])
    ensures Valid(t, r) && GetVertexNum(r) == size
    ensures IsEmpty(r) <==> size == 0
  {
    var c := Clear(m);
    if size == 0 then c else Mst(size, junk)
  }

  /** SetParent: an in-range vertex stores NPOS for the size_t "no parent"
      value and the parent cast to T otherwise; an out-of-range vertex
      changes nothing. */
  function SetParent(t: IndexType, m: Mst, v: nat, p: nat): (r: Mst)
    requires ValidType(t) && Valid(t, m) && v < SIZE_MOD && p < SIZE_MOD
    ensures Valid(t, r) && GetVertexNum(r) == GetVertexNum(m)
    ensures v >= GetVertexNum(m) ==> r == m
  {
    if v < m.size then m.(vertex := m.vertex[v := if p == NPOS then Npos(t) else Cast(t, p)]) else m
  }

  /** Reading back what SetParent stored: a root reads NPOS, any parent T
      can represent reads back unchanged, and a wider one reads back
      truncated to T. */
  lemma SetGet(t: IndexType, m: Mst, v: nat, p: nat)
    requires ValidType(t) && Valid(t, m) && v < GetVertexNum(m) && InT(t, v) && p < SIZE_MOD
    ensures p == NPOS ==> GetParent(t, SetParent(t, m, v, p), v) == Npos(t)
    ensures InT(t, p) ==> GetParent(t, SetParent(t, m, v, p), v) == p
    ensures p != NPOS ==> GetParent(t, SetParent(t, m, v, p), v) == Cast(t, p)
  {
  }

  /** SetParent leaves the parent of every other vertex as it was. */
  lemma SetOther(t: IndexType, m: Mst, v: nat, p: nat, u: int)
    requires ValidType(t) && Valid(t, m) && v < SIZE_MOD && p < SIZE_MOD && InT(t, u) && Size(u) != v
    ensures GetParent(t, SetParent(t, m, v, p), u) == GetParent(t, m, u)
  {
  }

  /** After Clear every query answers NPOS. */
  lemma ClearGet(t: IndexType, m: Mst, v: int)
    requires ValidType(t) && InT(t, v)
    ensures Valid(t, Clear(m)) && GetParent(t, Clear(m), v) == Npos(t)
  {
  }

  /** The move constructor: the new tree takes the size and the array, and
      the moved-from tree is left empty with no array. */
  function Move(t: IndexType, m: Mst): (r: (Mst, Mst))
    requires ValidType(t) && Valid(t, m)
    ensures Valid(t, r.0) && Valid(t, r.1)
    ensures GetVertexNum(r.0) == GetVertexNum(m) && IsEmpty(r.1) && r.1.vertex == []
    ensures forall v :: InT(t, v) ==> GetParent(t, r.0, v) == GetParent(t, m, v)
  {
    (Mst(m.size, m.vertex), Mst(0, []))
  }
}

=== FILE: paths.dfy ===
/** Paths in a graph given by its out-neighbour lists, the view the
    traversals and the shortest-path engine have of any representation
    through ForeachOutNeighbor. */
module Paths {

  /** Every listed neighbour is a vertex index. */
  ghost predicate ValidAdj(adj: seq<seq<nat>>)
  {
    forall u, k :: 0 <= u < |adj| && 0 <= k < |adj[u]| ==> adj[u][k] < |adj|
  }

  /** A non-empty walk along edges. */
  ghost predicate IsPath(adj: seq<seq<nat>>, p: seq<nat>)
  {
    && |p| > 0
    && (forall k :: 0 <= k < |p| ==> p[k] < |adj|)
    && (forall k :: 0 <= k < |p| - 1 ==> p[k + 1] in adj[p[k]])
  }

  ghost predicate PathFromTo(adj: seq<seq<nat>>, p: seq<nat>, s: nat, t: nat)
  {
    IsPath(adj, p) && p[0] == s && p[|p| - 1] == t
  }

  ghost predicate Reachable(adj: seq<seq<nat>>, s: nat, t: nat)
  {
    exists p :: PathFromTo(adj, p, s, t)
  }

  /** `d` is the least number of edges on a path from `s` to `t`. */
  ghost predicate IsHopDist(adj: seq<seq<nat>>, s: nat, t: nat, d: nat)
  {
    && (exists p :: PathFromTo(adj, p, s, t) && |p| == d + 1)
    && (forall p :: PathFromTo(adj, p, s, t) ==> d + 1 <= |p|)
  }

  lemma HopDistUnique(adj: seq<seq<nat>>, s: nat, t: nat, d1: nat, d2: nat)
    requires IsHopDist(adj, s, t, d1) && IsHopDist(adj, s, t, d2)
    ensures d1 == d2
  {
    var p1 :| PathFromTo(adj, p1, s, t) && |p1| == d1 + 1;
    var p2 :| PathFromTo(adj, p2, s, t) && |p2| == d2 + 1;
  }

  lemma ReachSelf(adj: seq<seq<nat>>, s: nat)
    requires s < |adj|
    ensures Reachable(adj, s, s)
  {
    assert PathFromTo(adj, [s], s, s);
  }

  lemma PathExtend(adj: seq<seq<nat>>, p: seq<nat>, w: nat)
    requires IsPath(adj, p)
    requires w < |adj| && w in adj[p[|p| - 1]]
    ensures IsPath(adj, p + [w])
  {
    var q := p + [w];
    forall k | 0 <= k < |q| - 1
      ensures q[k + 1] in adj[q[k]]
    {
      if k < |p| - 1 {
        assert q[k] == p[k] && q[k + 1] == p[k + 1];
      }
    }
  }

  lemma PathPrepend(adj: seq<seq<nat>>, u: nat, p: seq<nat>)
    requires IsPath(adj, p)
    requires u < |adj| && p[0] in adj[u]
    ensures IsPath(adj, [u] + p)
  {
    var q := [u] + p;
    forall k | 0 <= k < |q| - 1
      ensures q[k + 1] in adj[q[k]]
    {
      if k > 0 {
        assert q[k] == p[k - 1] && q[k + 1] == p[k];
      }
    }
  }

  lemma ReachPrepend(adj: seq<seq<nat>>, v: nat, i: nat, t: nat)
    requires v < |adj| && i in adj[v]
    requires Reachable(adj, i, t)
    ensures Reachable(adj, v, t)
  {
    var p :| PathFromTo(adj, p, i, t);
    PathPrepend(adj, v, p);
    assert PathFromTo(adj, [v] + p, v, t);
  }

  /** If the marked vertices are closed under edges, with each edge
      adding at most one to the recorded distance, then every path from
      the marked source `s` (at distance 0) ends at a marked vertex whose
      recorded distance is at most the path's number of edges. */
  lemma {:induction false} HopClosure(adj: seq<seq<nat>>, vis: seq<bool>, dist: seq<nat>, s: nat, p: seq<nat>)
    requires ValidAdj(adj)
    requires |vis| == |adj| && |dist| == |adj|
    requires s < |adj| && vis[s] && dist[s] == 0
    requires forall u, k :: 0 <= u < |adj| && vis[u] && 0 <= k < |adj[u]| ==>
               vis[adj[u][k]] && dist[adj[u][k]] <= dist[u] + 1
    requires IsPath(adj, p) && p[0] == s
    ensures vis[p[|p| - 1]] && dist[p[|p| - 1]] <= |p| - 1
    decreases |p|
  {
    if |p| > 1 {
      var q := p[..|p| - 1];
      assert IsPath(adj, q) by {
        forall k | 0 <= k < |q| - 1
          ensures q[k + 1] in adj[q[k]]
        {
          assert q[k] == p[k] && q[k + 1] == p[k + 1];
        }
      }
      HopClosure(adj, vis, dist, s, q);
      var u := p[|p| - 2];
      assert p[|p| - 1] in adj[u];
      var k :| 0 <= k < |adj[u]| && adj[u][k] == p[|p| - 1];
    }
  }

  /** Marked vertices closed under edges contain everything reachable
      from a marked vertex. */
  lemma ClosedReach(adj: seq<seq<nat>>, vis: seq<bool>, s: nat, t: nat)
    requires ValidAdj(adj)
    requires |vis| == |adj|
    requires s < |adj| && vis[s]
    requires forall u, k :: 0 <= u < |adj| && vis[u] && 0 <= k < |adj[u]| ==> vis[adj[u][k]]
    requires Reachable(adj, s, t)
    ensures vis[t]
  {
    var p :| PathFromTo(adj, p, s, t);
    var zero := seq(|adj|, _ => 0);
    HopClosure(adj, vis, zero, s, p);
  }
}

=== FILE: shortest_path.dfy ===
/** The single-source shortest-path result of ShortestPath.h for its
    integer instance SSSP<unsigned long long>: one (distance, predecessor)
    pair per vertex, 2^64 - 1 standing for "unreached" and the vertex
    count for "no predecessor". The graph is seen through its
    out-neighbour lists (ForeachOutNeighbor) and, for the weighted run,
    an n x n matrix of optional weights. */
module ShortestPath {
  import opened Common
  import opened Paths
  import GraphBase

  /** NullValue: static_cast<unsigned long long>(-1). */
  const NULL_DIST: nat := SIZE_MOD - 1

  /** One entry of m_info. */
  datatype Info = Info(dist: nat, prev: nat)

  /** An SSSP object: m_src and m_info. */
  datatype Sssp = Sssp(src: nat, info: seq<Info>)

  function GetVertexNum(r: Sssp): nat
  {
    |r.info|
  }

  predicate IsEmpty(r: Sssp)
  {
    |r.info| == 0
  }

  function GetSrc(r: Sssp): nat
  {
    r.src
  }

  function GetDistance(r: Sssp, target: nat): nat
    requires target < |r.info|
  {
    r.info[target].dist
  }

  /** Clear: the vector is emptied, the source is kept. */
  function Clear(r: Sssp): (c: Sssp)
    ensures IsEmpty(c) && GetVertexNum(c) == 0 && GetSrc(c) == GetSrc(r)
  {
    r.(info := [])
  }

  /** Init: every vertex unreached with predecessor `num`. */
  function Init(num: nat, src: nat): (r: Sssp)
    ensures GetVertexNum(r) == num && GetSrc(r) == src
    ensures IsEmpty(r) <==> num == 0
    ensures forall v :: 0 <= v < num ==> r.info[v].dist == NULL_DIST && r.info[v].prev == num
  {
    Sssp(src, seq(num, _ => Info(NULL_DIST, num)))
  }

  /** The state Execute hands to either algorithm: Init, then a zero
      distance for the source. */
  function Start(num: nat, src: nat): (r: Sssp)
    requires src < num
  {
    var r := Init(num, src);
    r.(info := r.info[src := Info(0, num)])
  }

  /* ---------------- predecessor chains ---------------- */

  /** Every predecessor is a vertex or the "none" mark, and a rank drops
      along every predecessor link, so chains end. */
  ghost predicate Ranked(r: Sssp, rank: seq<nat>)
  {
    && |rank| == |r.info|
    && forall v :: 0 <= v < |r.info| ==>
         r.info[v].prev <= |r.info| && (r.info[v].prev < |r.info| ==> rank[r.info[v].prev] < rank[v])
  }

  /** The predecessor chain of `t`, from the vertex after the chain's root
      up to `t`; empty when `t` has no predecessor. */
  ghost function Up(r: Sssp, t: nat, rank: seq<nat>): seq<nat>
    requires Ranked(r, rank) && t < |r.info|
    decreases rank[t]
  {
    if r.info[t].prev == |r.info| then [] else Up(r, r.info[t].prev, rank) + [t]
  }

  /** ForeachPath: push the chain on a stack while the predecessor is not
      the "none" mark; if nothing was pushed emit nothing, otherwise emit
      the source and then pop the stack. */
  method ForeachPath(r: Sssp, target: nat, ghost rank: seq<nat>) returns (path: seq<nat>)
    requires target < |r.info| && Ranked(r, rank)
    ensures r.info[target].prev == |r.info| ==> path == []
    ensures r.info[target].prev != |r.info| ==> path == [r.src] + Up(r, target, rank)
  {
    var stack: seq<nat> := [];
    var t: nat := target;
    while r.info[t].prev != GetVertexNum(r)
      invariant t < |r.info|
      invariant Up(r, target, rank) == Up(r, t, rank) + stack
      invariant stack == [] ==> t == target
      decreases rank[t]
    {
      var p := r.info[t].prev;
      assert Up(r, t, rank) == Up(r, p, rank) + [t];
      assert Up(r, p, rank) + [t] + stack == Up(r, p, rank) + ([t] + stack);
      stack := [t] + stack;
      t := p;
    }
    assert Up(r, t, rank) == [];
    if |stack| == 0 {
      return [];
    }
    assert stack == Up(r, target, rank);
    path := [r.src];
    ghost var full := stack;
    while |stack| > 0
      invariant path + stack == [r.src] + full
      decreases |stack|
    {
      assert path + stack == path + [stack[0]] + stack[1..];
      path := path + [stack[0]];
      stack := stack[1..];
    }
    assert path == path + stack;
  }

  /* ---------------- unweighted: breadth-first ---------------- */

  /** Which vertices carry a distance. */
  ghost function Seen(info: seq<Info>): seq<bool>
  {
    seq(|info|, x requires 0 <= x < |info| => info[x].dist != NULL_DIST)
  }

  /** The distances, with 0 standing in for "unreached". */
  ghost function Dists(info: seq<Info>): seq<nat>
  {
    seq(|info|, x requires 0 <= x < |info| => if info[x].dist != NULL_DIST then info[x].dist else 0)
  }

  lemma SeenUpdate(info: seq<Info>, i: nat, d: nat, p: nat)
    requires i < |info| && d != NULL_DIST
    ensures Seen(info[i := Info(d, p)]) == Seen(info)[i := true]
    ensures Dists(info[i := Info(d, p)]) == Dists(info)[i := d]
  {
  }

  /** The breadth-first predecessor tree: the source at (0, n), every
      other reached vertex one hop behind its reached predecessor, every
      unreached one with predecessor n. */
  ghost predicate HopTree(adj: seq<seq<nat>>, src: nat, info: seq<Info>)
  {
    && |info| == |adj| && src < |adj| && info[src] == Info(0, |adj|)
    && (forall v :: 0 <= v < |adj| && info[v].dist == NULL_DIST ==> info[v].prev == |adj|)
    && (forall v :: 0 <= v < |adj| && v != src && info[v].dist != NULL_DIST ==>
          && info[v].prev < |adj| && info[info[v].prev].dist != NULL_DIST
          && v in adj[info[v].prev] && info[v].dist == info[info[v].prev].dist + 1)
  }

  /** Distances stay below the queue length, so below n. */
  ghost predicate Short(info: seq<Info>, queue: seq<nat>)
  {
    forall v :: 0 <= v < |info| && info[v].dist != NULL_DIST ==> info[v].dist < |queue|
  }

  /** What a breadth-first run guarantees: the predecessor tree, a
      distance exactly for the reachable vertices, and that distance the
      least number of edges. */
  ghost predicate HopSolved(adj: seq<seq<nat>>, r: Sssp)
  {
    && HopTree(adj, r.src, r.info)
    && (forall v :: 0 <= v < |adj| ==> (r.info[v].dist != NULL_DIST <==> Reachable(adj, r.src, v)))
    && (forall v :: 0 <= v < |adj| && r.info[v].dist != NULL_DIST ==> IsHopDist(adj, r.src, v, r.info[v].dist))
  }

  /** The breadth-first state between two ForeachOutNeighbor passes: the
      first `head` queue entries are expanded, and the queue spans at most
      two adjacent layers from `head` on. */
  ghost predicate Between(adj: seq<seq<nat>>, src: nat, head: nat, info: seq<Info>, queue: seq<nat>,
                          paths: seq<seq<nat>>)
  {
    && ValidAdj(adj) && |adj| < NULL_DIST
    && HopTree(adj, src, info) && Short(info, queue)
    && GraphBase.Layered(adj, src, Seen(info), queue, Dists(info), paths)
    && head <= |queue|
    && (head < |queue| ==> info[queue[|queue| - 1]].dist <= info[queue[head]].dist + 1)
    && GraphBase.Expanded(adj, Seen(info), queue, Dists(info), head)
  }

  /** The breadth-first state while the neighbours of `pos`, queue entry
      `head - 1`, are visited: every later queue entry is at most one layer
      beyond `pos`. */
  ghost predicate Midway(adj: seq<seq<nat>>, src: nat, pos: nat, head: nat, info: seq<Info>, queue: seq<nat>,
                         paths: seq<seq<nat>>)
  {
    && ValidAdj(adj) && |adj| < NULL_DIST
    && HopTree(adj, src, info) && Short(info, queue)
    && GraphBase.Layered(adj, src, Seen(info), queue, Dists(info), paths)
    && 0 < head <= |queue| && queue[head - 1] == pos && info[pos].dist != NULL_DIST
    && info[queue[|queue| - 1]].dist <= info[pos].dist + 1
    && GraphBase.Expanded(adj, Seen(info), queue, Dists(info), head - 1)
  }

  /** The callback UnweightedSSSP hands to ForeachOutNeighbor(pos), for one
      neighbour `i`: an unreached `i` is queued one hop beyond `pos`. */
  method Visit(adj: seq<seq<nat>>, src: nat, pos: nat, head: nat, i: nat, info: seq<Info>, queue: seq<nat>,
               ghost paths: seq<seq<nat>>)
    returns (info': seq<Info>, queue': seq<nat>, ghost paths': seq<seq<nat>>)
    requires Midway(adj, src, pos, head, info, queue, paths) && i in adj[pos]
    ensures Midway(adj, src, pos, head, info', queue', paths')
    ensures |queue| <= |queue'| && queue'[..|queue|] == queue
    ensures forall x :: 0 <= x < |info| && info[x].dist != NULL_DIST ==> info'[x] == info[x]
    ensures info'[i].dist != NULL_DIST && info'[i].dist <= info[pos].dist + 1
  {
    info', queue', paths' := info, queue, paths;
    if info[i].dist != NULL_DIST {
      Within(adj, src, pos, head, i, info, queue, paths);
    } else {
      Mark(adj, src, pos, head, i, info, queue, paths);
      queue' := queue + [i];
      info' := info[i := Info(info[pos].dist + 1, pos)];
      paths' := paths[i := paths[pos] + [i]];
    }
  }

  /** Midway, every reached vertex is at most one hop beyond `pos`. */
  lemma Within(adj: seq<seq<nat>>, src: nat, pos: nat, head: nat, x: nat, info: seq<Info>, queue: seq<nat>,
               paths: seq<seq<nat>>)
    requires Midway(adj, src, pos, head, info, queue, paths)
    requires x < |adj| && info[x].dist != NULL_DIST
    ensures info[x].dist <= info[pos].dist + 1
  {
    LastFurthest(adj, src, Seen(info), queue, Dists(info), paths, x);
    assert Seen(info)[queue[|queue| - 1]];
  }

  /** In a layered queue no queued vertex is further out than the last. */
  lemma LastFurthest(adj: seq<seq<nat>>, src: nat, vis: seq<bool>, queue: seq<nat>, d: seq<nat>,
                     paths: seq<seq<nat>>, x: nat)
    requires GraphBase.Layered(adj, src, vis, queue, d, paths) && x < |adj| && vis[x]
    ensures d[x] <= d[queue[|queue| - 1]]
  {
    assert x in queue;
    var a :| 0 <= a < |queue| && queue[a] == x;
    if a < |queue| - 1 {
      assert d[queue[a]] <= d[queue[|queue| - 1]];
    }
  }

  /** Queuing an unreached neighbour `i` of `pos` keeps the state midway. */
  lemma Mark(adj: seq<seq<nat>>, src: nat, pos: nat, head: nat, i: nat, info: seq<Info>, queue: seq<nat>,
             paths: seq<seq<nat>>)
    requires Midway(adj, src, pos, head, info, queue, paths) && i in adj[pos]
    requires info[i].dist == NULL_DIST
    ensures info[pos].dist + 1 != NULL_DIST
    ensures Midway(adj, src, pos, head, info[i := Info(info[pos].dist + 1, pos)], queue + [i],
                   paths[i := paths[pos] + [i]])
    ensures (queue + [i])[..|queue|] == queue
  {
    DistinctBound(queue, |adj|);
    assert Seen(info)[pos];
    MarkLayered(adj, src, pos, head, i, info, queue, paths);
    MarkTree(adj, src, pos, i, info, queue);
  }

  /** Marking an unreached neighbour keeps the breadth-first queue
      layered and the expanded prefix expanded. */
  lemma MarkLayered(adj: seq<seq<nat>>, src: nat, pos: nat, head: nat, i: nat, info: seq<Info>, queue: seq<nat>,
                    paths: seq<seq<nat>>)
    requires ValidAdj(adj) && |adj| < NULL_DIST && |info| == |adj|
    requires GraphBase.Layered(adj, src, Seen(info), queue, Dists(info), paths)
    requires 0 < head <= |queue| && queue[head - 1] == pos && i in adj[pos]
    requires Dists(info)[queue[|queue| - 1]] <= Dists(info)[pos] + 1
    requires GraphBase.Expanded(adj, Seen(info), queue, Dists(info), head - 1)
    requires info[i].dist == NULL_DIST && Seen(info)[pos] && info[pos].dist + 1 != NULL_DIST
    ensures GraphBase.Layered(adj, src, Seen(info[i := Info(info[pos].dist + 1, pos)]), queue + [i],
                              Dists(info[i := Info(info[pos].dist + 1, pos)]), paths[i := paths[pos] + [i]])
    ensures GraphBase.Expanded(adj, Seen(info[i := Info(info[pos].dist + 1, pos)]), queue + [i],
                               Dists(info[i := Info(info[pos].dist + 1, pos)]), head - 1)
    ensures (queue + [i])[..|queue|] == queue
  {
    var vis := Seen(info);
    var d := Dists(info);
    PathExtend(adj, paths[pos], i);
    GraphBase.MarkOne(adj, src, pos, i, vis, queue, d, paths);
    SeenUpdate(info, i, info[pos].dist + 1, pos);
    assert (queue + [i])[..|queue|] == queue;
    GraphBase.ExpandedGrows(adj, vis, queue, d, vis[i := true], queue + [i], d[i := d[pos] + 1], head - 1);
  }

  /** Marking an unreached neighbour keeps the predecessor tree and the
      distance bound. */
  lemma MarkTree(adj: seq<seq<nat>>, src: nat, pos: nat, i: nat, info: seq<Info>, queue: seq<nat>)
    requires HopTree(adj, src, info) && Short(info, queue) && |queue| <= |adj| < NULL_DIST
    requires pos < |adj| && i in adj[pos] && i < |adj|
    requires info[i].dist == NULL_DIST && info[pos].dist != NULL_DIST
    ensures HopTree(adj, src, info[i := Info(info[pos].dist + 1, pos)])
    ensures Short(info[i := Info(info[pos].dist + 1, pos)], queue + [i])
  {
  }

  /** Taking queue entry `head - 1` out turns the state midway. */
  lemma Begin(adj: seq<seq<nat>>, src: nat, head: nat, info: seq<Info>, queue: seq<nat>, paths: seq<seq<nat>>)
    requires 0 < head <= |queue| && Between(adj, src, head - 1, info, queue, paths)
    ensures Midway(adj, src, queue[head - 1], head, info, queue, paths)
  {
    assert Seen(info)[queue[head - 1]];
  }

  /** The first `k` neighbours of `pos` are reached, each within one hop
      of distance `d`. */
  ghost predicate Near(adj: seq<seq<nat>>, pos: nat, k: nat, info: seq<Info>, d: nat)
  {
    && ValidAdj(adj) && pos < |adj| && |info| == |adj| && k <= |adj[pos]|
    && forall j :: 0 <= j < k ==> info[adj[pos][j]].dist != NULL_DIST && info[adj[pos][j]].dist <= d + 1
  }

  /** Visiting neighbour `k` extends Near by one, since a visit never
      changes an entry that already has a distance. */
  lemma NearStep(adj: seq<seq<nat>>, pos: nat, k: nat, info: seq<Info>, info': seq<Info>, d: nat)
    requires Near(adj, pos, k, info, d) && k < |adj[pos]| && |info'| == |info|
    requires forall x :: 0 <= x < |info| && info[x].dist != NULL_DIST ==> info'[x] == info[x]
    requires info'[adj[pos][k]].dist != NULL_DIST && info'[adj[pos][k]].dist <= d + 1
    ensures Near(adj, pos, k + 1, info', d)
  {
  }

  /** Once every neighbour of `pos` is reached within one more hop, the
      state is between passes again, one entry further on. */
  lemma Finish(adj: seq<seq<nat>>, src: nat, pos: nat, head: nat, info: seq<Info>, queue: seq<nat>,
               paths: seq<seq<nat>>)
    requires Midway(adj, src, pos, head, info, queue, paths)
    requires Near(adj, pos, |adj[pos]|, info, info[pos].dist)
    ensures Between(adj, src, head, info, queue, paths)
  {
    var vis, d := Seen(info), Dists(info);
    if head < |queue| {
      assert d[queue[head - 1]] <= d[queue[head]];
      assert vis[queue[head - 1]] && vis[queue[head]];
    }
    FinishExpanded(adj, pos, head, info, vis, queue, d);
  }

  lemma FinishExpanded(adj: seq<seq<nat>>, pos: nat, head: nat, info: seq<Info>, vis: seq<bool>, queue: seq<nat>,
                       d: seq<nat>)
    requires ValidAdj(adj) && vis == Seen(info) && d == Dists(info) && |info| == |adj| && pos < |adj|
    requires 0 < head <= |queue| && queue[head - 1] == pos && vis[pos]
    requires forall k :: 0 <= k < |queue| ==> queue[k] < |adj|
    requires GraphBase.Expanded(adj, vis, queue, d, head - 1)
    requires Near(adj, pos, |adj[pos]|, info, info[pos].dist)
    ensures GraphBase.Expanded(adj, vis, queue, d, head)
  {
    forall a, k | 0 <= a < head && 0 <= k < |adj[queue[a]]|
      ensures vis[adj[queue[a]][k]] && d[adj[queue[a]][k]] <= d[queue[a]] + 1
    {
      if a == head - 1 {
        assert info[adj[pos][k]].dist != NULL_DIST;
      }
    }
  }

  /** One ForeachOutNeighbor(pos) pass of UnweightedSSSP. */
  method Expand(adj: seq<seq<nat>>, src: nat, head: nat, info: seq<Info>, queue: seq<nat>,
                ghost paths: seq<seq<nat>>)
    returns (info': seq<Info>, queue': seq<nat>, ghost paths': seq<seq<nat>>)
    requires 0 < head <= |queue| && Between(adj, src, head - 1, info, queue, paths)
    ensures Between(adj, src, head, info', queue', paths') && |queue| <= |queue'|
  {
    var pos := queue[head - 1];
    Begin(adj, src, head, info, queue, paths);
    info', queue', paths' := info, queue, paths;
    for k := 0 to |adj[pos]|
      invariant Midway(adj, src, pos, head, info', queue', paths')
      invariant |queue| <= |queue'| && info'[pos] == info[pos]
      invariant Near(adj, pos, k, info', info[pos].dist)
    {
      ghost var before := info';
      info', queue', paths' := Visit(adj, src, pos, head, adj[pos][k], info', queue', paths');
      NearStep(adj, pos, k, before, info', info[pos].dist);
    }
    Finish(adj, src, pos, head, info', queue', paths');
  }

  /** UnweightedSSSP: breadth-first from the source, a vertex taking its
      distance and predecessor when it is first seen. */
  method UnweightedSSSP(adj: seq<seq<nat>>, r0: Sssp) returns (r: Sssp)
    requires ValidAdj(adj) && |adj| < NULL_DIST
    requires r0.src < |adj| && r0 == Start(|adj|, r0.src)
    ensures r.src == r0.src && HopSolved(adj, r)
  {
    var n := |adj|;
    var src := r0.src;
    var info := r0.info;
    var queue: seq<nat> := [src];
    var head := 0;
    ghost var paths: seq<seq<nat>> := seq(n, _ => [src]);
    BfsStart(adj, src, info, paths);
    while head < |queue|
      invariant Between(adj, src, head, info, queue, paths)
      decreases n - |queue|, |queue| - head
    {
      DistinctBound(queue, n);
      head := head + 1;
      info, queue, paths := Expand(adj, src, head, info, queue, paths);
      DistinctBound(queue, n);
    }
    r := Sssp(src, info);
    BfsDone(adj, src, info, queue, paths);
  }

  /** The state UnweightedSSSP starts from: only the source queued. */
  lemma BfsStart(adj: seq<seq<nat>>, src: nat, info: seq<Info>, paths: seq<seq<nat>>)
    requires ValidAdj(adj) && |adj| < NULL_DIST && src < |adj| && info == Start(|adj|, src).info
    requires paths == seq(|adj|, _ => [src])
    ensures Between(adj, src, 0, info, [src], paths)
  {
    assert PathFromTo(adj, [src], src, src);
    assert forall x :: 0 <= x < |adj| ==> (Seen(info)[x] <==> x == src);
  }

  /** With the whole queue expanded, the distances are the hop distances
      and exactly the reachable vertices have one. */
  lemma BfsDone(adj: seq<seq<nat>>, src: nat, info: seq<Info>, queue: seq<nat>, paths: seq<seq<nat>>)
    requires Between(adj, src, |queue|, info, queue, paths)
    ensures HopSolved(adj, Sssp(src, info))
  {
    GraphBase.BfsResult(adj, src, Seen(info), queue, Dists(info), paths);
    forall v | 0 <= v < |adj|
      ensures info[v].dist != NULL_DIST <==> Reachable(adj, src, v)
    {
      assert Seen(info)[v] <==> v in queue;
    }
    forall v | 0 <= v < |adj| && info[v].dist != NULL_DIST
      ensures IsHopDist(adj, src, v, info[v].dist)
    {
      assert Seen(info)[v] && Dists(info)[v] == info[v].dist;
    }
  }

  /** Breadth-first distances rank the predecessor links. */
  lemma HopRanked(adj: seq<seq<nat>>, r: Sssp)
    requires HopSolved(adj, r)
    ensures Ranked(r, seq(|r.info|, v requires 0 <= v < |r.info| => r.info[v].dist))
  {
  }

  /** Along a breadth-first predecessor tree, the chain of a reached `t`
      has one vertex per unit of distance. */
  lemma {:induction false} TreeLength(adj: seq<seq<nat>>, r: Sssp, t: nat, rank: seq<nat>)
    requires HopTree(adj, r.src, r.info) && Ranked(r, rank)
    requires t < |adj| && r.info[t].dist != NULL_DIST
    ensures |Up(r, t, rank)| == r.info[t].dist
    decreases rank[t]
  {
    if t != r.src {
      TreeLength(adj, r, r.info[t].prev, rank);
    }
  }

  /** Along a breadth-first predecessor tree, the chain of a reached `t`
      other than the source, behind the source, is a path to `t`. */
  lemma {:induction false} TreePath(adj: seq<seq<nat>>, r: Sssp, t: nat, rank: seq<nat>)
    requires HopTree(adj, r.src, r.info) && Ranked(r, rank)
    requires t < |adj| && t != r.src && r.info[t].dist != NULL_DIST
    ensures PathFromTo(adj, [r.src] + Up(r, t, rank), r.src, t)
    decreases rank[t]
  {
    var p := r.info[t].prev;
    var up := Up(r, p, rank);
    assert Up(r, t, rank) == up + [t];
    assert [r.src] + Up(r, t, rank) == ([r.src] + up) + [t];
    if p == r.src {
      assert up == [];
      assert IsPath(adj, [r.src]);
    } else {
      TreePath(adj, r, p, rank);
    }
    PathExtend(adj, [r.src] + up, t);
  }

  /** On a breadth-first result, the path ForeachPath emits for a reached
      `t` other than the source runs from the source to `t` along edges and
      has the least number of edges. */
  lemma HopPath(adj: seq<seq<nat>>, r: Sssp, t: nat, rank: seq<nat>)
    requires HopSolved(adj, r) && Ranked(r, rank)
    requires t < |adj| && t != r.src && r.info[t].dist != NULL_DIST
    ensures PathFromTo(adj, [r.src] + Up(r, t, rank), r.src, t)
    ensures IsHopDist(adj, r.src, t, |Up(r, t, rank)|)
  {
    TreePath(adj, r, t, rank);
    TreeLength(adj, r, t, rank);
  }
}

=== FILE: undirected_link.dfy ===
/** UnweightedUndirectedLinkGraph and WeightedUndirectedLinkGraph: the
    chains of the directed classes, with every edge (a, b), a != b, held as
    a node for b in a's chain and a node for a in b's chain, a self-loop as
    one node. The counter counts logical edges: after the second node of a
    pair is created or destroyed it is corrected by one, the direction read
    off a size_t comparison with its old value. */
module UndirectedLink {
  import opened Common
  import opened Adjacency
  import D = DirectedLink

  /** Chain i has a node for j exactly when chain j has one for i. */
  ghost predicate Symmetric<T, W>(g: D.Graph<T, W>)
  {
    forall i, j :: 0 <= i < |g.entry| && 0 <= j < |g.entry| ==> (D.Has(g.entry[i], j) <==> D.Has(g.entry[j], i))
  }

  /** The logical edges: the nodes of chain i whose target is at least i,
      which is what ForeachEdge reports. */
  function Canon<T, W>(g: D.Graph<T, W>): nat
  {
    |D.Scan(g.entry, true)|
  }

  ghost predicate Counted<T, W>(g: D.Graph<T, W>)
  {
    g.edgeNum == Canon(g)
  }

  /** What the undirected classes keep between calls. */
  ghost predicate Inv<T, W>(g: D.Graph<T, W>)
  {
    D.Valid(g) && D.NoDup(g) && Symmetric(g) && Counted(g)
  }

  /** (i, j) is the pair {a, b} in one of its two orders. */
  predicate Pair(a: nat, b: nat, i: nat, j: nat)
  {
    (i == a && j == b) || (i == b && j == a)
  }

  /** RemoveEdge: remove (a, b); unless the counter did not move or it
      is a self-loop, remove (b, a) too and give one back. */
  function RemoveEdge<T, W>(g: D.Graph<T, W>, a: nat, b: nat): (r: D.Graph<T, W>)
    requires D.Valid(g) && D.InRange(g, a, b)
    ensures D.Valid(r) && r.vertexData == g.vertexData && r.nullValue == g.nullValue
    ensures !D.Has(g.entry[a], b) ==> r == g
    ensures D.NoNull(g) ==> D.NoNull(r)
  {
    var prev := g.edgeNum;
    var h1 := D.RemoveEdge(g, a, b);
    if Size(prev) == Size(h1.edgeNum) || a == b then h1
    else
      var h2 := D.RemoveEdge(h1, b, a);
      h2.(edgeNum := h2.edgeNum + 1)
  }

  /** The base-class insert as the undirected classes run it: its
      null-weight branch calls the (virtual) undirected RemoveEdge. */
  function BaseInsert<T, W(==)>(g: D.Graph<T, W>, a: nat, b: nat, w: W): (r: D.Graph<T, W>)
    requires D.Valid(g) && D.InRange(g, a, b)
    ensures D.Valid(r) && r.vertexData == g.vertexData && r.nullValue == g.nullValue
    ensures w == g.nullValue && !D.Has(g.entry[a], b) ==> r == g
    ensures w != g.nullValue ==> r == D.Append(g, a, b, w)
    ensures D.NoNull(g) ==> D.NoNull(r)
  {
    if w == g.nullValue then RemoveEdge(g, a, b) else D.Append(g, a, b, w)
  }

  /** InsertEdge: insert (a, b); unless the counter did not move or it is
      a self-loop, insert (b, a) too and correct the counter by one against
      the direction it moved. */
  function InsertEdge<T, W(==)>(g: D.Graph<T, W>, a: nat, b: nat, w: W): (r: D.Graph<T, W>)
    requires D.Valid(g) && D.InRange(g, a, b)
    ensures D.Valid(r) && r.vertexData == g.vertexData && r.nullValue == g.nullValue
    ensures w == g.nullValue && !D.Has(g.entry[a], b) ==> r == g
    ensures D.NoNull(g) ==> D.NoNull(r)
  {
    var prev := g.edgeNum;
    var g1 := BaseInsert(g, a, b, w);
    if Size(prev) == Size(g1.edgeNum) || a == b then g1
    else
      var g2 := BaseInsert(g1, b, a, w);
      g2.(edgeNum := g2.edgeNum + (if Size(g2.edgeNum) > Size(prev) then -1 else 1))
  }

  /* ---------------- counting reports ---------------- */

  /** A single node is one report when its target is at least the chain's
      own index. */
  lemma ChainEdgesOne<W>(i: nat, x: D.Node<W>)
    ensures |D.ChainEdges(i, [x], true)| == if i <= x.vertex then 1 else 0
  {
    assert [x][..0] == [];
  }

  lemma ChainEdgesAppendOne<W>(i: nat, c: seq<D.Node<W>>, x: D.Node<W>)
    ensures |D.ChainEdges(i, c + [x], true)| == |D.ChainEdges(i, c, true)| + if i <= x.vertex then 1 else 0
  {
    D.ChainEdgesAppend(i, c, [x], true);
    ChainEdgesOne(i, x);
  }

  lemma ChainEdgesRemoveAt<W>(i: nat, c: seq<D.Node<W>>, k: nat)
    requires k < |c|
    ensures |D.ChainEdges(i, c[..k] + c[k + 1..], true)| == |D.ChainEdges(i, c, true)| - if i <= c[k].vertex then 1 else 0
  {
    assert c == c[..k] + [c[k]] + c[k + 1..];
    D.ChainEdgesAppend(i, c[..k] + [c[k]], c[k + 1..], true);
    D.ChainEdgesAppend(i, c[..k], [c[k]], true);
    D.ChainEdgesAppend(i, c[..k], c[k + 1..], true);
    ChainEdgesOne(i, c[k]);
  }

  /** Removing the node for `b` from chain `a` takes one report off when
      a <= b. */
  lemma CanonRemove<T, W>(g: D.Graph<T, W>, a: nat, b: nat)
    requires D.Valid(g) && a < D.VertexNum(g) && D.Has(g.entry[a], b)
    ensures D.RemoveEdge(g, a, b).entry == g.entry[a := D.RemoveEdge(g, a, b).entry[a]]
    ensures Canon(D.RemoveEdge(g, a, b)) == Canon(g) - if a <= b then 1 else 0
  {
    var r := D.RemoveEdge(g, a, b);
    D.RemoveEdgeShape(g, a, b);
    var k := D.IndexOf(g.entry[a], b);
    assert r.entry == g.entry[a := r.entry[a]];
    D.ScanUpdate(g.entry, a, r.entry[a], true);
    ChainEdgesRemoveAt(a, g.entry[a], k);
  }

  /** Appending a node for `b` to chain `a` adds one report when a <= b. */
  lemma CanonAppend<T, W>(g: D.Graph<T, W>, a: nat, b: nat, w: W)
    requires D.Valid(g) && D.InRange(g, a, b) && !D.Has(g.entry[a], b)
    ensures D.Append(g, a, b, w).entry == g.entry[a := g.entry[a] + [D.Node(b, w)]]
    ensures Canon(D.Append(g, a, b, w)) == Canon(g) + if a <= b then 1 else 0
  {
    var r := D.Append(g, a, b, w);
    assert r.entry == g.entry[a := g.entry[a] + [D.Node(b, w)]];
    D.ScanUpdate(g.entry, a, r.entry[a], true);
    ChainEdgesAppendOne(a, g.entry[a], D.Node(b, w));
  }

  /** An existing edge is a logical edge, so the count is positive. */
  lemma CanonPositive<T, W>(g: D.Graph<T, W>, a: nat, b: nat)
    requires D.Valid(g) && Symmetric(g) && D.InRange(g, a, b) && D.Has(g.entry[a], b)
    ensures Canon(g) >= 1
  {
    var i, j := if a <= b then a else b, if a <= b then b else a;
    assert D.Has(g.entry[i], j);
    var k :| 0 <= k < |g.entry[i]| && g.entry[i][k].vertex == j;
    D.ScanComplete(g.entry, true, i, k);
  }

  /* ---------------- the invariant ---------------- */

  lemma InsertVertexInv<T, W>(g: D.Graph<T, W>, x: T)
    requires Inv(g)
    ensures Inv(D.InsertVertex(g, x))
  {
    var r := D.InsertVertex(g, x);
    D.InsertVertexCounted(g.(edgeNum := D.Nodes(g.entry)), x);
    assert r.entry[..|r.entry| - 1] == g.entry;
    forall i: nat, j: nat | i < |r.entry| && j < |r.entry|
      ensures D.Has(r.entry[i], j) <==> D.Has(r.entry[j], i)
    {
      if i < |g.entry| && j < |g.entry| {
        assert r.entry[i] == g.entry[i] && r.entry[j] == g.entry[j];
      } else if i < |g.entry| {
        assert !D.Has(g.entry[i], j);
      } else if j < |g.entry| {
        assert !D.Has(g.entry[j], i);
      }
    }
  }

  /** A change confined to the pair {a, b} that leaves both directions in
      the same state keeps the chains symmetric. */
  lemma PairFrame<T, W>(g: D.Graph<T, W>, r: D.Graph<T, W>, a: nat, b: nat, present: bool)
    requires D.Valid(g) && Symmetric(g) && D.InRange(g, a, b) && |r.entry| == |g.entry|
    requires forall i: nat, j: nat :: D.InRange(g, i, j) && !Pair(a, b, i, j) ==> (D.Has(r.entry[i], j) <==> D.Has(g.entry[i], j))
    requires D.Has(r.entry[a], b) == present && D.Has(r.entry[b], a) == present
    ensures Symmetric(r)
  {
    forall i: nat, j: nat | i < |r.entry| && j < |r.entry|
      ensures D.Has(r.entry[i], j) <==> D.Has(r.entry[j], i)
    {
      if !Pair(a, b, i, j) {
        assert !Pair(a, b, j, i);
        assert D.Has(g.entry[i], j) <==> D.Has(g.entry[j], i);
      }
    }
  }

  /** RemoveEdge on a consistent graph removes both directions and takes
      exactly one off the counter; on an absent edge it changes nothing. */
  lemma RemoveEdgeInv<T, W>(g: D.Graph<T, W>, a: nat, b: nat)
    requires Inv(g) && D.InRange(g, a, b) && g.edgeNum < SIZE_MOD
    ensures Inv(RemoveEdge(g, a, b))
    ensures D.Has(g.entry[a], b) ==> RemoveEdge(g, a, b).edgeNum == g.edgeNum - 1
    ensures !D.ExistEdge(RemoveEdge(g, a, b), a, b) && !D.ExistEdge(RemoveEdge(g, a, b), b, a)
    ensures forall i: nat, j: nat :: D.InRange(g, i, j) && !Pair(a, b, i, j) ==>
              (D.Has(RemoveEdge(g, a, b).entry[i], j) <==> D.Has(g.entry[i], j))
  {
    var r := RemoveEdge(g, a, b);
    if D.Has(g.entry[a], b) {
      var h1 := D.RemoveEdge(g, a, b);
      CanonRemove(g, a, b);
      if a == b {
        assert r == h1;
      } else {
        assert Size(g.edgeNum) != Size(h1.edgeNum);
        assert D.Has(h1.entry[b], a);
        assert r.entry == D.RemoveEdge(h1, b, a).entry;
        CanonRemove(h1, b, a);
      }
      RemoveFrame(g, a, b);
      PairFrame(g, r, a, b, false);
    }
  }

  /** The chains after removing (a, b) both ways differ only there. */
  lemma RemoveFrame<T, W>(g: D.Graph<T, W>, a: nat, b: nat)
    requires D.Valid(g) && D.NoDup(g) && Symmetric(g) && D.InRange(g, a, b) && D.Has(g.entry[a], b)
    requires 0 <= g.edgeNum < SIZE_MOD
    ensures D.NoDup(RemoveEdge(g, a, b))
    ensures !D.Has(RemoveEdge(g, a, b).entry[a], b) && !D.Has(RemoveEdge(g, a, b).entry[b], a)
    ensures forall i: nat, j: nat :: D.InRange(g, i, j) && !Pair(a, b, i, j) ==>
              (D.Has(RemoveEdge(g, a, b).entry[i], j) <==> D.Has(g.entry[i], j))
  {
    var h1 := D.RemoveEdge(g, a, b);
    if a != b {
      assert Size(g.edgeNum) != Size(h1.edgeNum);
      assert D.Has(h1.entry[b], a);
    }
  }

  /** Where InsertEdge puts the two new nodes of a missing edge. */
  lemma InsertShape<T, W>(g: D.Graph<T, W>, a: nat, b: nat, w: W)
    requires D.Valid(g) && Symmetric(g) && D.InRange(g, a, b) && w != g.nullValue
    requires !D.Has(g.entry[a], b) && 0 <= g.edgeNum && g.edgeNum + 2 < SIZE_MOD
    ensures InsertEdge(g, a, b, w).entry[a] == g.entry[a] + [D.Node(b, w)]
    ensures InsertEdge(g, a, b, w).entry[b] == g.entry[b] + [D.Node(a, w)]
    ensures forall i :: 0 <= i < |g.entry| && i != a && i != b ==> InsertEdge(g, a, b, w).entry[i] == g.entry[i]
    ensures InsertEdge(g, a, b, w).edgeNum == g.edgeNum + 1
    ensures a != b ==> InsertEdge(g, a, b, w).entry == D.Append(D.Append(g, a, b, w), b, a, w).entry
    ensures a == b ==> InsertEdge(g, a, b, w) == D.Append(g, a, b, w)
  {
    var g1 := D.Append(g, a, b, w);
    if a != b {
      assert Size(g.edgeNum) != Size(g1.edgeNum);
      assert !D.Has(g1.entry[b], a);
      assert Size(g.edgeNum + 2) > Size(g.edgeNum);
    }
  }

  /** The new nodes keep every chain free of repeated targets and carry
      the weight `w` both ways. */
  lemma InsertWeights<T, W>(g: D.Graph<T, W>, a: nat, b: nat, w: W)
    requires D.Valid(g) && D.NoDup(g) && Symmetric(g) && D.InRange(g, a, b) && w != g.nullValue
    requires !D.Has(g.entry[a], b) && 0 <= g.edgeNum && g.edgeNum + 2 < SIZE_MOD
    ensures D.NoDup(InsertEdge(g, a, b, w))
    ensures D.GetWeight(InsertEdge(g, a, b, w), a, b) == w && D.GetWeight(InsertEdge(g, a, b, w), b, a) == w
  {
    var r := InsertEdge(g, a, b, w);
    InsertShape(g, a, b, w);
    assert !D.Has(g.entry[b], a);
    assert r.entry[a][|g.entry[a]|].vertex == b;
    assert r.entry[b][|g.entry[b]|].vertex == a;
  }

  /** InsertEdge with a non-null weight on a consistent graph: a missing
      edge gets a node in both chains (one for a self-loop) and the counter
      goes up by exactly one; an existing edge is left alone. */
  lemma InsertEdgeInv<T, W>(g: D.Graph<T, W>, a: nat, b: nat, w: W)
    requires Inv(g) && D.InRange(g, a, b) && w != g.nullValue
    requires g.edgeNum + 2 < SIZE_MOD
    ensures D.Has(g.entry[a], b) ==> InsertEdge(g, a, b, w) == g
    ensures !D.Has(g.entry[a], b) ==> InsertEdge(g, a, b, w).edgeNum == g.edgeNum + 1
    ensures !D.Has(g.entry[a], b) ==>
              D.Nodes(InsertEdge(g, a, b, w).entry) == D.Nodes(g.entry) + if a == b then 1 else 2
    ensures Inv(InsertEdge(g, a, b, w))
    ensures D.ExistEdge(InsertEdge(g, a, b, w), a, b) && D.ExistEdge(InsertEdge(g, a, b, w), b, a)
    ensures !D.Has(g.entry[a], b) ==>
              D.GetWeight(InsertEdge(g, a, b, w), a, b) == w && D.GetWeight(InsertEdge(g, a, b, w), b, a) == w
    ensures forall i: nat, j: nat :: D.InRange(g, i, j) && !Pair(a, b, i, j) ==>
              (D.Has(InsertEdge(g, a, b, w).entry[i], j) <==> D.Has(g.entry[i], j))
  {
    var r := InsertEdge(g, a, b, w);
    if D.Has(g.entry[a], b) {
      assert D.Has(g.entry[b], a);
    } else {
      InsertShape(g, a, b, w);
      InsertWeights(g, a, b, w);
      var g1 := D.Append(g, a, b, w);
      CanonAppend(g, a, b, w);
      D.NodesUpdate(g.entry, a, g1.entry[a]);
      if a != b {
        assert !D.Has(g1.entry[b], a);
        CanonAppend(g1, b, a, w);
        D.NodesUpdate(g1.entry, b, g1.entry[b] + [D.Node(a, w)]);
      }
      forall i: nat, j: nat | D.InRange(g, i, j) && !Pair(a, b, i, j)
        ensures D.Has(r.entry[i], j) <==> D.Has(g.entry[i], j)
      {
        if i == a { D.HasAppend(g.entry[a], D.Node(b, w), j); }
        if i == b { D.HasAppend(g.entry[b], D.Node(a, w), j); }
      }
      D.HasAppend(g.entry[a], D.Node(b, w), b);
      D.HasAppend(g.entry[b], D.Node(a, w), a);
      PairFrame(g, r, a, b, true);
    }
  }

  /** The drift a null weight causes: InsertEdge(a, b, NullValue) on an
      existing edge a != b removes it (through RemoveEdge, -1), then finds
      the counter moved, removes nothing more, sees no increase and adds
      one back, so the counter ends one above the logical edges. */
  lemma NullInsertDrift<T, W>(g: D.Graph<T, W>, a: nat, b: nat)
    requires Inv(g) && D.InRange(g, a, b) && a != b && D.Has(g.entry[a], b)
    requires g.edgeNum < SIZE_MOD
    ensures InsertEdge(g, a, b, g.nullValue).entry == RemoveEdge(g, a, b).entry
    ensures !D.ExistEdge(InsertEdge(g, a, b, g.nullValue), a, b)
    ensures InsertEdge(g, a, b, g.nullValue).edgeNum == g.edgeNum
    ensures InsertEdge(g, a, b, g.nullValue).edgeNum == Canon(InsertEdge(g, a, b, g.nullValue)) + 1
  {
    var g1 := RemoveEdge(g, a, b);
    RemoveEdgeInv(g, a, b);
    CanonPositive(g, a, b);
    assert Size(g.edgeNum) != Size(g1.edgeNum);
    assert BaseInsert(g1, b, a, g.nullValue) == g1;
  }

  /* ---------------- enumeration ---------------- */

  /** ForeachInNeighbor is ForeachOutNeighbor; on a consistent graph it
      lists exactly the in-neighbours. */
  function ForeachInNeighbor<T, W>(g: D.Graph<T, W>, v: nat): (r: seq<nat>)
    requires D.Valid(g) && v < D.VertexNum(g)
    ensures Symmetric(g) ==> forall x: nat :: x in r <==> x < D.VertexNum(g) && D.ExistEdge(g, x, v)
  {
    var r := D.ForeachOutNeighbor(g, v);
    assert forall x :: x in r ==> x < D.VertexNum(g) by {
      forall x | x in r
        ensures x < D.VertexNum(g)
      {
        var k :| 0 <= k < |r| && r[k] == x;
      }
    }
    r
  }

  /** ForeachEdge: chain by chain, the nodes whose target is at least the
      chain's index; on a consistent graph each logical edge once, as many
      as the counter says. */
  function ForeachEdge<T, W>(g: D.Graph<T, W>): (r: seq<Edge<W>>)
    requires D.Valid(g)
    ensures forall t :: 0 <= t < |r| ==> r[t].from <= r[t].to && D.FromNode(g.entry, r[t])
    ensures D.NoDup(g) ==> forall s, t :: 0 <= s < t < |r| ==> r[s].from != r[t].from || r[s].to != r[t].to
    ensures Counted(g) ==> |r| == g.edgeNum
  {
    D.ScanSound(g.entry, true);
    assert D.NoDup(g) ==> forall s, t :: 0 <= s < t < |D.Scan(g.entry, true)| ==>
             D.Scan(g.entry, true)[s].from != D.Scan(g.entry, true)[t].from || D.Scan(g.entry, true)[s].to != D.Scan(g.entry, true)[t].to by {
      if D.NoDup(g) { D.ScanDistinct(g.entry, true); }
    }
    D.Scan(g.entry, true)
  }

  /** Every edge of a consistent graph is reported once in its ordered
      form. */
  lemma ForeachEdgeCovers<T, W>(g: D.Graph<T, W>, i: nat, j: nat)
    requires D.Valid(g) && Symmetric(g) && D.InRange(g, i, j) && D.ExistEdge(g, i, j)
    ensures exists t :: 0 <= t < |ForeachEdge(g)| &&
              ForeachEdge(g)[t].from == (if i <= j then i else j) && ForeachEdge(g)[t].to == (if i <= j then j else i)
  {
    var a, b := if i <= j then i else j, if i <= j then j else i;
    assert D.Has(g.entry[a], b);
    var k :| 0 <= k < |g.entry[a]| && g.entry[a][k].vertex == b;
    D.ScanComplete(g.entry, true, a, k);
    var r := ForeachEdge(g);
    var t :| 0 <= t < |r| && r[t] == Edge(a, b, g.entry[a][k].weight);
  }

  /** GetAdjacencyMatrix: a vector of W(false), the `zero` argument, then
      each report painted at [from*n+to] and [to*n+from]. */
  function GetAdjacencyMatrix<T, W>(g: D.Graph<T, W>, zero: W): (r: seq<W>)
    requires D.Valid(g)
    ensures |r| == D.VertexNum(g) * D.VertexNum(g)
    ensures D.NoDup(g) ==> forall i: nat, j: nat :: D.InRange(g, i, j) ==>
              Cell(D.VertexNum(g), i, j) < |r| && Cell(D.VertexNum(g), j, i) < |r| &&
              r[Cell(D.VertexNum(g), i, j)] == r[Cell(D.VertexNum(g), j, i)] &&
              r[Cell(D.VertexNum(g), i, j)] == Ordered(g, zero, i, j)
  {
    var n := D.VertexNum(g);
    var init := seq(n * n, _ => zero);
    D.EdgesInGrid(g.entry, true, n);
    var r := Paint(init, n, D.Scan(g.entry, true), true);
    assert D.NoDup(g) ==> forall i: nat, j: nat :: D.InRange(g, i, j) ==>
             Cell(n, i, j) < |r| && Cell(n, j, i) < |r| && r[Cell(n, i, j)] == r[Cell(n, j, i)] &&
             r[Cell(n, i, j)] == Ordered(g, zero, i, j) by {
      if D.NoDup(g) {
        forall i: nat, j: nat | D.InRange(g, i, j)
          ensures Cell(n, i, j) < |r| && Cell(n, j, i) < |r| && r[Cell(n, i, j)] == r[Cell(n, j, i)] &&
                  r[Cell(n, i, j)] == Ordered(g, zero, i, j)
        {
          MirrorCell(g, zero, i, j);
          MirrorCell(g, zero, j, i);
        }
      }
    }
    r
  }

  /** The weight of the ordered pair (min, max), or `zero` without such an
      edge. */
  function Ordered<T, W>(g: D.Graph<T, W>, zero: W, i: nat, j: nat): W
    requires D.Valid(g) && D.InRange(g, i, j)
  {
    var a, b := if i <= j then i else j, if i <= j then j else i;
    if D.ExistEdge(g, a, b) then D.GetWeight(g, a, b) else zero
  }

  lemma MirrorCell<T, W>(g: D.Graph<T, W>, zero: W, i: nat, j: nat)
    requires D.Valid(g) && D.NoDup(g) && D.InRange(g, i, j)
    ensures InGrid(D.Scan(g.entry, true), D.VertexNum(g))
    ensures Cell(D.VertexNum(g), i, j) < D.VertexNum(g) * D.VertexNum(g)
    ensures Paint(seq(D.VertexNum(g) * D.VertexNum(g), _ => zero), D.VertexNum(g), D.Scan(g.entry, true), true)[Cell(D.VertexNum(g), i, j)]
            == Ordered(g, zero, i, j)
  {
    var n := D.VertexNum(g);
    var init := seq(n * n, _ => zero);
    D.ReportsPaintable(g.entry, true, n);
    PaintCells(init, n, D.Scan(g.entry, true), true, i, j);
    var a, b := if i <= j then i else j, if i <= j then j else i;
    if D.ExistEdge(g, a, b) {
      var t := MirrorHit(g, a, b, i, j);
    } else {
      MirrorMiss(g, a, b, i, j);
    }
  }

  /** The scan reports a present edge (a, b), a <= b, with its weight, and
      the report paints both of its cells. */
  lemma MirrorHit<T, W>(g: D.Graph<T, W>, a: nat, b: nat, i: nat, j: nat) returns (t: nat)
    requires D.Valid(g) && D.NoDup(g) && D.InRange(g, a, b) && a <= b
    requires (a == i && b == j) || (a == j && b == i)
    requires D.ExistEdge(g, a, b)
    ensures t < |D.Scan(g.entry, true)| && Hits(D.Scan(g.entry, true)[t], i, j, true)
    ensures D.Scan(g.entry, true)[t].w == D.GetWeight(g, a, b)
  {
    var edges := D.Scan(g.entry, true);
    var c := g.entry[a];
    var k :| 0 <= k < |c| && c[k].vertex == b;
    D.ScanComplete(g.entry, true, a, k);
    t :| 0 <= t < |edges| && edges[t] == Edge(a, b, c[k].weight);
  }

  /** No report paints a cell of an absent edge (a, b), a <= b. */
  lemma MirrorMiss<T, W>(g: D.Graph<T, W>, a: nat, b: nat, i: nat, j: nat)
    requires D.Valid(g) && D.InRange(g, a, b) && a <= b
    requires (a == i && b == j) || (a == j && b == i)
    requires !D.ExistEdge(g, a, b)
    ensures forall t :: 0 <= t < |D.Scan(g.entry, true)| ==> !Hits(D.Scan(g.entry, true)[t], i, j, true)
  {
    var edges := D.Scan(g.entry, true);
    D.ScanSound(g.entry, true);
    forall t | 0 <= t < |edges|
      ensures !Hits(edges[t], i, j, true)
    {
      assert D.FromNode(g.entry, edges[t]);
    }
  }

  /** Unweighted (zero = false, every node true): the matrix is the
      existence relation. */
  lemma UnweightedAdjacency<T>(g: D.Graph<T, bool>, i: nat, j: nat)
    requires D.Valid(g) && D.NoDup(g) && Symmetric(g) && D.Marked(g) && D.InRange(g, i, j)
    ensures Cell(D.VertexNum(g), i, j) < |GetAdjacencyMatrix(g, false)|
    ensures GetAdjacencyMatrix(g, false)[Cell(D.VertexNum(g), i, j)] == D.ExistEdge(g, i, j)
  {
  }

  /* ---------------- inherited operations ---------------- */

  /** UnweightedDirectedLinkGraph::SetWeight as the unweighted undirected
      class runs it: both branches dispatch to the undirected operations. */
  function UnweightedSetWeight<T>(g: D.Graph<T, bool>, a: nat, b: nat, w: bool): (r: D.Graph<T, bool>)
    requires D.Valid(g) && D.InRange(g, a, b)
    ensures D.Valid(r) && r.vertexData == g.vertexData
    ensures Inv(g) && g.edgeNum + 2 < SIZE_MOD ==>
              Inv(r) && (D.ExistEdge(r, a, b) <==> w != g.nullValue) && (D.ExistEdge(r, b, a) <==> w != g.nullValue)
  {
    var r := if w == g.nullValue then RemoveEdge(g, a, b) else InsertEdge(g, a, b, w);
    assert Inv(g) && g.edgeNum + 2 < SIZE_MOD ==>
             Inv(r) && (D.ExistEdge(r, a, b) <==> w != g.nullValue) && (D.ExistEdge(r, b, a) <==> w != g.nullValue) by {
      if Inv(g) && g.edgeNum + 2 < SIZE_MOD {
        if w == g.nullValue { RemoveEdgeInv(g, a, b); } else { InsertEdgeInv(g, a, b, w); }
      }
    }
    r
  }

  /** WeightedDirectedLinkGraph::SetWeight as the weighted undirected class
      runs it: NullValue removes both directions, any other weight is
      written into the chain of `a` only. */
  function WeightedSetWeight<T, W(==)>(g: D.Graph<T, W>, a: nat, b: nat, w: W): (r: D.Graph<T, W>)
    requires D.Valid(g) && D.InRange(g, a, b)
    requires w != g.nullValue ==> |g.entry[a]| > 0
    ensures D.Valid(r) && r.vertexData == g.vertexData
    ensures w != g.nullValue ==> r == D.Assign(g, a, b, w)
    ensures w == g.nullValue && Inv(g) && g.edgeNum < SIZE_MOD ==>
              Inv(r) && !D.ExistEdge(r, a, b) && !D.ExistEdge(r, b, a)
    ensures D.NoNull(g) ==> D.NoNull(r)
  {
    if w == g.nullValue then
      assert Inv(g) && g.edgeNum < SIZE_MOD ==> Inv(RemoveEdge(g, a, b)) by {
        if Inv(g) && g.edgeNum < SIZE_MOD { RemoveEdgeInv(g, a, b); }
      }
      RemoveEdge(g, a, b)
    else D.Assign(g, a, b, w)
  }

  /** The one-sided write: on an existing edge a != b only the (a, b)
      node gets the new weight; on a missing one only the (a, b) node is
      created, so the graph is no longer symmetric. */
  lemma WeightedSetWeightOneSided<T, W>(g: D.Graph<T, W>, a: nat, b: nat, w: W)
    requires Inv(g) && D.InRange(g, a, b) && a != b && w != g.nullValue && |g.entry[a]| > 0
    ensures D.GetWeight(WeightedSetWeight(g, a, b, w), a, b) == w
    ensures D.GetWeight(WeightedSetWeight(g, a, b, w), b, a) == D.GetWeight(g, b, a)
    ensures !D.Has(g.entry[a], b) ==>
              D.ExistEdge(WeightedSetWeight(g, a, b, w), a, b) && !D.ExistEdge(WeightedSetWeight(g, a, b, w), b, a)
  {
    var r := WeightedSetWeight(g, a, b, w);
    assert r.entry[b] == g.entry[b];
  }

  /** The inherited RemoveVertex keeps the chains consistent. */
  lemma RemoveVertexSymmetric<T, W>(g: D.Graph<T, W>, v: nat)
    requires D.Valid(g) && Symmetric(g) && v < D.VertexNum(g)
    ensures Symmetric(D.RemoveVertex(g, v))
  {
    var r := D.RemoveVertex(g, v);
    forall i: nat, j: nat | i < |r.entry| && j < |r.entry|
      ensures D.Has(r.entry[i], j) <==> D.Has(r.entry[j], i)
    {
      assert D.ExistEdge(r, i, j) <==> D.ExistEdge(g, Shift(v, i), Shift(v, j));
      assert D.ExistEdge(r, j, i) <==> D.ExistEdge(g, Shift(v, j), Shift(v, i));
    }
  }

  /** Two vertices joined by one edge, consistently stored and counted. */
  function OneEdge<T, W>(x: T, y: T, w: W, nv: W): (g: D.Graph<T, W>)
    ensures D.Valid(g) && D.VertexNum(g) == 2 && g.edgeNum == 1
  {
    D.Graph([x, y], [[D.Node(1, w)], [D.Node(0, w)]], 1, nv)
  }

  lemma OneEdgeInv<T, W>(x: T, y: T, w: W, nv: W)
    ensures Inv(OneEdge(x, y, w, nv)) && D.ExistEdge(OneEdge(x, y, w, nv), 0, 1)
  {
    var g := OneEdge(x, y, w, nv);
    assert D.Has(g.entry[0], 1) by { assert g.entry[0][0].vertex == 1; }
    assert D.Has(g.entry[1], 0) by { assert g.entry[1][0].vertex == 0; }
    ChainEdgesOne(0, D.Node(1, w));
    ChainEdgesOne(1, D.Node(0, w));
    assert g.entry[..1] == [[D.Node(1, w)]];
    assert g.entry[..1][..0] == [];
    assert |D.Scan(g.entry[..1], true)| == 1;
    assert |D.Scan(g.entry, true)| == 1;
  }

  /** The inherited RemoveVertex destroys both nodes of every edge at `v`
      and takes one off per node: on the two-vertex graph with the single
      edge {0, 1}, removing vertex 0 leaves no edge and a counter of -1
      (2^64 - 1 as a size_t). */
  lemma RemoveVertexOvercount<T, W>(x: T, y: T, w: W, nv: W)
    ensures D.RemoveVertex(OneEdge(x, y, w, nv), 0).edgeNum == -1
    ensures Canon(D.RemoveVertex(OneEdge(x, y, w, nv), 0)) == 0
    ensures Size(D.RemoveVertex(OneEdge(x, y, w, nv), 0).edgeNum) == NPOS
  {
    var g := OneEdge(x, y, w, nv);
    assert D.Nodes(g.entry[..1]) == 1 by { assert g.entry[..1][..0] == []; }
    assert D.Nodes(g.entry) == 2;
    var r := D.RemoveVertex(g, 0);
    assert D.Strip([D.Node(0, w)], 0) == [] by { assert [D.Node(0, w)][..0] == []; }
    assert r.entry == [[]];
    assert r.entry[..0] == [];
    assert D.Nodes(r.entry) == 0;
    assert D.Scan(r.entry, true) == D.Scan(r.entry[..0], true) + D.ChainEdges(0, [], true);
  }
}

=== FILE: undirected_matrix.dfy ===
/** WeightedUndirectedMatrixGraph: the lower triangle of the symmetric
    matrix packed into one vector, cell (i, j) with i <= j at Pos(i, j). */
module UndirectedMatrix {
  import opened Common
  import opened Adjacency
  import opened MatrixGraph
  import DirectedMatrix

  ghost predicate IsUndirected<T, W>(g: Graph<T, W>)
  {
    Valid(g) && g.store.Triangle?
  }

  /** Appends a payload and the new packed row: n+1 NullValue cells. */
  function InsertVertex<T, W>(g: Graph<T, W>, x: T): (r: Graph<T, W>)
    requires IsUndirected(g)
    ensures IsUndirected(r) && r.vertexData == g.vertexData + [x]
    ensures |r.store.cells| == Tri(VertexNum(g) + 1)
    ensures r.edgeNum == g.edgeNum && r.nullValue == g.nullValue
    ensures forall i, j :: InRange(r, i, j) ==>
              GetWeight(r, i, j) == if InRange(g, i, j) then GetWeight(g, i, j) else g.nullValue
  {
    var n := VertexNum(g);
    var r := g.(vertexData := g.vertexData + [x], store := Triangle(g.store.cells + seq(n + 1, _ => g.nullValue)));
    assert forall i, j :: InRange(r, i, j) ==>
             GetWeight(r, i, j) == if InRange(g, i, j) then GetWeight(g, i, j) else g.nullValue by {
      forall i, j | InRange(r, i, j)
        ensures GetWeight(r, i, j) == if InRange(g, i, j) then GetWeight(g, i, j) else g.nullValue
      {
        TriIndexBound(i, j, n + 1);
        if InRange(g, i, j) {
          TriIndexBound(i, j, n);
        }
      }
    }
    r
  }

  lemma InsertVertexCounted<T, W>(g: Graph<T, W>, x: T)
    requires IsUndirected(g) && Counted(g)
    ensures Counted(InsertVertex(g, x))
  {
    var n := VertexNum(g);
    CountNotAppend(g.store.cells, seq(n + 1, _ => g.nullValue), g.nullValue);
    CountNotAllNull(seq(n + 1, _ => g.nullValue), g.nullValue);
  }

  /** Both orders of a pair name one cell, so a write through either is
      read through both. */
  lemma SetWeightSymmetric<T, W>(g: Graph<T, W>, a: nat, b: nat, w: W)
    requires IsUndirected(g) && InRange(g, a, b)
    ensures GetWeight(SetWeight(g, a, b, w), a, b) == w
    ensures GetWeight(SetWeight(g, a, b, w), b, a) == w
  {
    TriangleSymmetric(SetWeight(g, a, b, w), a, b);
  }

  /* ---------------- in-place vertex removal ---------------- */

  /** Cell (a, b) of the packed triangle `c`, a <= b < n. */
  ghost function At<W>(c: seq<W>, n: nat, a: nat, b: nat): W
    requires |c| == Tri(n) && a <= b < n
  {
    PosBound(a, b, n);
    c[Pos(a, b)]
  }

  /** First phase, after rows below `i` and the columns below `j` of row
      `i`: each cell (a, b) with a < v <= b < n-1 that has been visited
      holds the old cell (a, b+1); every other cell is untouched. */
  ghost predicate ColumnsShifted<W>(cells: seq<W>, c: seq<W>, n: nat, v: nat, i: nat, j: nat)
    requires |cells| == Tri(n) && |c| == Tri(n)
  {
    forall a: nat, b: nat {:trigger At(c, n, a, b)} :: a <= b < n ==>
      At(c, n, a, b) == if a < v <= b < n - 1 && (a < i || (a == i && b < j))
                        then At(cells, n, a, b + 1) else At(cells, n, a, b)
  }

  /** Second phase, over the first phase's result `c1`: each visited cell
      (a, b) with v <= a <= b < n-1 holds c1's cell (a+1, b+1). */
  ghost predicate CornerShifted<W>(c1: seq<W>, c: seq<W>, n: nat, v: nat, i: nat, j: nat)
    requires |c1| == Tri(n) && |c| == Tri(n)
  {
    forall a: nat, b: nat {:trigger At(c, n, a, b)} :: a <= b < n ==>
      At(c, n, a, b) == if v <= a && b < n - 1 && (a < i || (a == i && b < j))
                        then At(c1, n, a + 1, b + 1) else At(c1, n, a, b)
  }

  /** One write of either phase changes only the written cell. */
  lemma WriteOne<W>(c: seq<W>, n: nat, i: nat, j: nat, x: W, a: nat, b: nat)
    requires |c| == Tri(n) && i <= j < n && a <= b < n
    ensures TriIndex(i, j) < |c|
    ensures At(c[TriIndex(i, j) := x], n, a, b) == if a == i && b == j then x else At(c, n, a, b)
  {
    PosBound(i, j, n);
    PosBound(a, b, n);
    PosInjective(a, b, i, j);
  }

  /** Lines 95-97: for i < v and v <= j < n-1, cell (i, j) takes cell
      (i, j+1). Each read cell lies after the written one in the scan, so
      it still holds its original value. */
  method ShiftColumns<W>(cells: seq<W>, n: nat, v: nat) returns (c: seq<W>)
    requires v < n && |cells| == Tri(n)
    ensures |c| == Tri(n)
    ensures ColumnsShifted(cells, c, n, v, v, 0)
  {
    var m := n - 1;
    c := cells;
    for i := 0 to v
      invariant |c| == Tri(n)
      invariant ColumnsShifted(cells, c, n, v, i, 0)
    {
      assert ColumnsShifted(cells, c, n, v, i, v) by {
        forall a: nat, b: nat {:trigger At(c, n, a, b)} | a <= b < n
          ensures At(c, n, a, b) == if a < v <= b < n - 1 && (a < i || (a == i && b < v))
                                    then At(cells, n, a, b + 1) else At(cells, n, a, b)
        {
          assert ColumnsShifted(cells, c, n, v, i, 0);
        }
      }
      for j := v to m
        invariant |c| == Tri(n)
        invariant ColumnsShifted(cells, c, n, v, i, j)
      {
        ghost var prev := c;
        WriteOne(c, n, i, j + 1, c[0], i, j + 1);
        var x := c[TriIndex(i, j + 1)];
        assert x == At(cells, n, i, j + 1) by {
          PosBound(i, j + 1, n);
          assert TriIndex(i, j + 1) == Pos(i, j + 1);
          assert x == At(prev, n, i, j + 1);
          assert ColumnsShifted(cells, prev, n, v, i, j);
        }
        c := c[TriIndex(i, j) := x];
        forall a: nat, b: nat {:trigger At(c, n, a, b)} | a <= b < n
          ensures At(c, n, a, b) == if a < v <= b < n - 1 && (a < i || (a == i && b < j + 1))
                                    then At(cells, n, a, b + 1) else At(cells, n, a, b)
        {
          WriteOne(prev, n, i, j, x, a, b);
        }
      }
      assert ColumnsShifted(cells, c, n, v, i + 1, 0) by {
        forall a: nat, b: nat {:trigger At(c, n, a, b)} | a <= b < n
          ensures At(c, n, a, b) == if a < v <= b < n - 1 && (a < i + 1 || (a == i + 1 && b < 0))
                                    then At(cells, n, a, b + 1) else At(cells, n, a, b)
        {
        }
      }
    }
  }

  /** Lines 99-101: for v <= i <= j < n-1, cell (i, j) takes cell
      (i+1, j+1). The read cell lies in a later row than anything written
      so far, so it still holds the first phase's value. */
  method ShiftCorner<W>(c1: seq<W>, n: nat, v: nat) returns (c: seq<W>)
    requires v < n && |c1| == Tri(n)
    ensures |c| == Tri(n)
    ensures CornerShifted(c1, c, n, v, n - 1, 0)
  {
    var m := n - 1;
    c := c1;
    for i := v to m
      invariant |c| == Tri(n)
      invariant CornerShifted(c1, c, n, v, i, 0)
    {
      assert CornerShifted(c1, c, n, v, i, i) by {
        forall a: nat, b: nat {:trigger At(c, n, a, b)} | a <= b < n
          ensures At(c, n, a, b) == if v <= a && b < n - 1 && (a < i || (a == i && b < i))
                                    then At(c1, n, a + 1, b + 1) else At(c1, n, a, b)
        {
          assert CornerShifted(c1, c, n, v, i, 0);
        }
      }
      for j := i to m
        invariant |c| == Tri(n)
        invariant CornerShifted(c1, c, n, v, i, j)
      {
        ghost var prev := c;
        WriteOne(c, n, i + 1, j + 1, c[0], i + 1, j + 1);
        var x := c[TriIndex(i + 1, j + 1)];
        assert x == At(c1, n, i + 1, j + 1) by {
          assert TriIndex(i + 1, j + 1) == Pos(i + 1, j + 1);
          assert x == At(prev, n, i + 1, j + 1);
          assert CornerShifted(c1, prev, n, v, i, j);
        }
        c := c[TriIndex(i, j) := x];
        forall a: nat, b: nat {:trigger At(c, n, a, b)} | a <= b < n
          ensures At(c, n, a, b) == if v <= a && b < n - 1 && (a < i || (a == i && b < j + 1))
                                    then At(c1, n, a + 1, b + 1) else At(c1, n, a, b)
        {
          WriteOne(prev, n, i, j, x, a, b);
        }
      }
      assert CornerShifted(c1, c, n, v, i + 1, 0) by {
        forall a: nat, b: nat {:trigger At(c, n, a, b)} | a <= b < n
          ensures At(c, n, a, b) == if v <= a && b < n - 1 && (a < i + 1 || (a == i + 1 && b < 0))
                                    then At(c1, n, a + 1, b + 1) else At(c1, n, a, b)
        {
          assert CornerShifted(c1, c, n, v, i, n - 1);
        }
      }
    }
  }

  /** Both phases together: the first n-1 packed rows now hold the
      renumbered triangle. */
  lemma Shifted<W>(cells: seq<W>, c1: seq<W>, c2: seq<W>, n: nat, v: nat, a: nat, b: nat)
    requires v < n && |cells| == Tri(n) && |c1| == Tri(n) && |c2| == Tri(n)
    requires ColumnsShifted(cells, c1, n, v, v, 0) && CornerShifted(c1, c2, n, v, n - 1, 0)
    requires a <= b < n - 1
    ensures At(c2, n, a, b) == At(cells, n, Shift(v, a), Shift(v, b))
  {
    assert At(c2, n, a, b) == if v <= a then At(c1, n, a + 1, b + 1) else At(c1, n, a, b);
    if v <= a {
      assert At(c1, n, a + 1, b + 1) == At(cells, n, a + 1, b + 1);
    } else {
      assert At(c1, n, a, b) == if v <= b then At(cells, n, a, b + 1) else At(cells, n, a, b);
    }
  }

  /** Drops vertex `v`: the counter loses one per j with an edge (v, j),
      so a self-loop once, then the triangle is shifted in place and cut
      to n-1 packed rows. */
  method RemoveVertex<T, W(==)>(g: Graph<T, W>, v: nat) returns (r: Graph<T, W>)
    requires IsUndirected(g) && v < VertexNum(g)
    ensures IsUndirected(r) && r.vertexData == Erase(g.vertexData, v) && r.nullValue == g.nullValue
    ensures |r.store.cells| == Tri(VertexNum(g) - 1)
    ensures forall i, j :: InRange(r, i, j) ==> GetWeight(r, i, j) == GetWeight(g, Shift(v, i), Shift(v, j))
    ensures r.edgeNum == g.edgeNum - |OutNeighbors(g, v)|
    ensures Counted(g) ==> Counted(r)
  {
    var n := VertexNum(g);
    var edgeNum := g.edgeNum;
    ghost var mask := EdgeMask(g, v, true);
    for i := 0 to n
      invariant edgeNum == g.edgeNum - Count(mask[..i])
    {
      assert mask[..i + 1][..i] == mask[..i];
      if ExistEdge(g, v, i) {
        edgeNum := edgeNum - 1;
      }
    }
    assert mask[..n] == mask;
    IndicesCount(mask);
    var cells := g.store.cells;
    var c1 := ShiftColumns(cells, n, v);
    var c2 := ShiftCorner(c1, n, v);
    TriMono(n - 1, n);
    var c := c2[..Tri(n - 1)];
    r := Graph(Erase(g.vertexData, v), edgeNum, g.nullValue, Triangle(c));
    forall i, j | InRange(r, i, j)
      ensures GetWeight(r, i, j) == GetWeight(g, Shift(v, i), Shift(v, j))
    {
      ShiftedWeight(g, c1, c2, v, i, j);
    }
    if Counted(g) {
      RemoveVertexCounted(g, v, r);
    }
  }

  /** Reading a cell of the cut triangle is reading the renumbered old
      cell, in either argument order. */
  lemma ShiftedWeight<T, W>(g: Graph<T, W>, c1: seq<W>, c2: seq<W>, v: nat, i: nat, j: nat)
    requires IsUndirected(g) && v < VertexNum(g)
    requires |c1| == Tri(VertexNum(g)) && |c2| == Tri(VertexNum(g))
    requires ColumnsShifted(g.store.cells, c1, VertexNum(g), v, v, 0)
    requires CornerShifted(c1, c2, VertexNum(g), v, VertexNum(g) - 1, 0)
    requires i < VertexNum(g) - 1 && j < VertexNum(g) - 1
    ensures Tri(VertexNum(g) - 1) <= |c2|
    ensures TriIndex(i, j) < Tri(VertexNum(g) - 1)
    ensures c2[TriIndex(i, j)] == GetWeight(g, Shift(v, i), Shift(v, j))
  {
    var n := VertexNum(g);
    TriMono(n - 1, n);
    TriIndexBound(i, j, n - 1);
    var a, b := if i <= j then i else j, if i <= j then j else i;
    Shifted(g.store.cells, c1, c2, n, v, a, b);
    TriIndexBound(Shift(v, i), Shift(v, j), n);
  }

  /* ---------------- the counter after a removal ---------------- */

  /** The packed triangle `c` cut into its rows: row `b` holds the cells
      (0, b), ..., (b, b). */
  ghost function TriRows<W>(c: seq<W>, n: nat): (r: seq<seq<W>>)
    requires |c| == Tri(n)
    ensures |r| == n
    decreases n
  {
    if n == 0 then [] else TriRows(c[..Tri(n - 1)], n - 1) + [c[Tri(n - 1)..]]
  }

  /** Row `b` of the cut has `b + 1` cells, the cells (a, b). */
  lemma {:induction false} TriRowsAt<W>(c: seq<W>, n: nat)
    requires |c| == Tri(n)
    ensures forall b :: 0 <= b < n ==> |TriRows(c, n)[b]| == b + 1
    ensures forall a: nat, b: nat :: a <= b < n ==> TriRows(c, n)[b][a] == At(c, n, a, b)
    decreases n
  {
    if n > 0 {
      var init := c[..Tri(n - 1)];
      TriRowsAt(init, n - 1);
      forall a: nat, b: nat | a <= b < n - 1
        ensures At(init, n - 1, a, b) == At(c, n, a, b)
      {
        PosBound(a, b, n - 1);
      }
    }
  }

  lemma {:induction false} TriRowsCount<W>(c: seq<W>, n: nat, nv: W)
    requires |c| == Tri(n)
    ensures CountNot(c, nv) == RowsCount(TriRows(c, n), nv)
    decreases n
  {
    if n > 0 {
      var init := c[..Tri(n - 1)];
      TriRowsCount(init, n - 1, nv);
      assert TriRows(c, n)[..n - 1] == TriRows(init, n - 1);
      assert c == init + c[Tri(n - 1)..];
      CountNotAppend(init, c[Tri(n - 1)..], nv);
    }
  }

  /** One packed row after the renumbering: an old row below `v`, or the
      next old row with column `v` erased. */
  lemma RemovedRow<W>(cells: seq<W>, c: seq<W>, n: nat, v: nat, b: nat)
    requires v < n && |cells| == Tri(n) && |c| == Tri(n - 1) && b < n - 1
    requires forall a: nat, b: nat :: a <= b < n - 1 ==> At(c, n - 1, a, b) == At(cells, n, Shift(v, a), Shift(v, b))
    ensures v < b + 1 ==> v < |TriRows(cells, n)[b + 1]|
    ensures TriRows(c, n - 1)[b]
            == if b < v then TriRows(cells, n)[b] else Erase(TriRows(cells, n)[b + 1], v)
  {
    TriRowsAt(cells, n);
    TriRowsAt(c, n - 1);
    var row := if b < v then TriRows(cells, n)[b] else Erase(TriRows(cells, n)[b + 1], v);
    forall a | 0 <= a <= b
      ensures TriRows(c, n - 1)[b][a] == row[a]
    {
      assert At(c, n - 1, a, b) == At(cells, n, Shift(v, a), Shift(v, b));
    }
  }

  /** After the renumbering the packed rows are the old rows below `v`,
      followed by the old rows above `v` with column `v` erased. */
  lemma RemovedRows<W>(cells: seq<W>, c: seq<W>, n: nat, v: nat)
    requires v < n && |cells| == Tri(n) && |c| == Tri(n - 1)
    requires forall a: nat, b: nat :: a <= b < n - 1 ==> At(c, n - 1, a, b) == At(cells, n, Shift(v, a), Shift(v, b))
    ensures forall b :: v < b < n ==> v < |TriRows(cells, n)[b]|
    ensures TriRows(c, n - 1)
            == TriRows(cells, n)[..v] + DirectedMatrix.EraseColumn(TriRows(cells, n)[v + 1..], v)
  {
    TriRowsAt(cells, n);
    var rows := TriRows(cells, n);
    var tail := DirectedMatrix.EraseColumn(rows[v + 1..], v);
    forall b | 0 <= b < n - 1
      ensures TriRows(c, n - 1)[b] == (rows[..v] + tail)[b]
    {
      RemovedRowAt(cells, c, n, v, b, rows, tail);
    }
  }

  /** One position of the concatenation RemovedRows builds. */
  lemma RemovedRowAt<W>(cells: seq<W>, c: seq<W>, n: nat, v: nat, b: nat,
                        rows: seq<seq<W>>, tail: seq<seq<W>>)
    requires v < n && |cells| == Tri(n) && |c| == Tri(n - 1) && b < n - 1
    requires forall a: nat, b: nat :: a <= b < n - 1 ==> At(c, n - 1, a, b) == At(cells, n, Shift(v, a), Shift(v, b))
    requires rows == TriRows(cells, n)
    requires forall b :: v < b < n ==> v < |rows[b]|
    requires tail == DirectedMatrix.EraseColumn(rows[v + 1..], v)
    ensures TriRows(c, n - 1)[b] == (rows[..v] + tail)[b]
  {
    RemovedRow(cells, c, n, v, b);
    if b < v {
      assert (rows[..v] + tail)[b] == rows[b];
    } else {
      assert rows[v + 1..][b - v] == rows[b + 1];
      assert tail[b - v] == Erase(rows[b + 1], v);
      assert (rows[..v] + tail)[b] == tail[b - v];
    }
  }

  /** The cells naming `v` are row `v` and column `v` of the later rows;
      their non-null count is the number of neighbours of `v`. */
  lemma DegreeCount<T, W>(g: Graph<T, W>, v: nat)
    requires IsUndirected(g) && v < VertexNum(g)
    ensures forall b :: v < b < VertexNum(g) ==> v < |TriRows(g.store.cells, VertexNum(g))[b]|
    ensures CountNot(TriRows(g.store.cells, VertexNum(g))[v], g.nullValue)
            + CountNot(DirectedMatrix.Column(TriRows(g.store.cells, VertexNum(g))[v + 1..], v), g.nullValue)
            == |OutNeighbors(g, v)|
  {
    var n := VertexNum(g);
    TriRowsAt(g.store.cells, n);
    var rows := TriRows(g.store.cells, n);
    var col := DirectedMatrix.Column(rows[v + 1..], v);
    var s := rows[v] + col;
    var mask := EdgeMask(g, v, true);
    forall k | 0 <= k < n
      ensures mask[k] == (s[k] != g.nullValue)
    {
      if k <= v {
        assert s[k] == At(g.store.cells, n, k, v);
      } else {
        assert s[k] == rows[k][v] == At(g.store.cells, n, v, k);
      }
    }
    assert mask == seq(|s|, k requires 0 <= k < |s| => s[k] != g.nullValue);
    CountNotMask(s, g.nullValue);
    CountNotAppend(rows[v], col, g.nullValue);
    IndicesCount(mask);
  }

  /** Renumbering the triangle drops row `v` and column `v` of the later
      rows, and their non-null cells with them. */
  lemma RemovedCount<W>(cells: seq<W>, c: seq<W>, n: nat, v: nat, nv: W)
    requires v < n && |cells| == Tri(n) && |c| == Tri(n - 1)
    requires forall a: nat, b: nat :: a <= b < n - 1 ==> At(c, n - 1, a, b) == At(cells, n, Shift(v, a), Shift(v, b))
    ensures forall b :: v < b < n ==> v < |TriRows(cells, n)[b]|
    ensures CountNot(c, nv)
            == CountNot(cells, nv) - CountNot(TriRows(cells, n)[v], nv)
               - CountNot(DirectedMatrix.Column(TriRows(cells, n)[v + 1..], v), nv)
  {
    var rows := TriRows(cells, n);
    RemovedRows(cells, c, n, v);
    TriRowsCount(c, n - 1, nv);
    TriRowsCount(cells, n, nv);
    RowsCountAppend(rows[..v], DirectedMatrix.EraseColumn(rows[v + 1..], v), nv);
    DirectedMatrix.EraseColumnCount(rows[v + 1..], v, nv);
    RowsCountErase(rows, v, nv);
    RowsCountAppend(rows[..v], rows[v + 1..], nv);
  }

  /** The counter stays exact: RemoveVertex takes one off per neighbour of
      `v`, and exactly those non-null cells leave the triangle. Stated for
      any graph the contract of RemoveVertex describes. */
  lemma RemoveVertexCounted<T, W>(g: Graph<T, W>, v: nat, r: Graph<T, W>)
    requires IsUndirected(g) && v < VertexNum(g) && Counted(g)
    requires IsUndirected(r) && VertexNum(r) == VertexNum(g) - 1 && r.nullValue == g.nullValue
    requires forall i, j :: InRange(r, i, j) ==> GetWeight(r, i, j) == GetWeight(g, Shift(v, i), Shift(v, j))
    requires r.edgeNum == g.edgeNum - |OutNeighbors(g, v)|
    ensures Counted(r)
  {
    var n := VertexNum(g);
    var cells, c := g.store.cells, r.store.cells;
    forall a: nat, b: nat | a <= b < n - 1
      ensures At(c, n - 1, a, b) == At(cells, n, Shift(v, a), Shift(v, b))
    {
      assert InRange(r, a, b);
    }
    RemovedCount(cells, c, n, v, g.nullValue);
    DegreeCount(g, v);
  }

  /* ---------------- enumeration ---------------- */

  /** The triples ForeachEdge reports: each undirected edge once, as
      (i, j) with i <= j, row-major. */
  function ForeachEdge<T, W(==)>(g: Graph<T, W>): (r: seq<Edge<W>>)
    requires IsUndirected(g)
    ensures forall t :: 0 <= t < |r| ==> r[t].from <= r[t].to && Reports(g, r[t])
    ensures forall i, j :: InRange(g, i, j) && i <= j && ExistEdge(g, i, j) ==> Edge(i, j, GetWeight(g, i, j)) in r
    ensures Sorted(r)
  {
    ScanEdges(g, VertexNum(g), true)
  }

  /** Reports with from <= to in strict row-major order never paint a
      common cell, even mirrored. */
  lemma UpperDisjoint<W>(edges: seq<Edge<W>>)
    requires Sorted(edges)
    requires forall t :: 0 <= t < |edges| ==> edges[t].from <= edges[t].to
    ensures Disjoint(edges, true)
  {
    forall a, b | 0 <= a < b < |edges|
      ensures !Hits(edges[b], edges[a].from, edges[a].to, true)
    {
      assert RowMajor(edges[a], edges[b]);
    }
  }

  /** A vector of NullValue, then both cells of every reported edge. */
  function GetAdjacencyMatrix<T, W(==)>(g: Graph<T, W>): (r: seq<W>)
    requires IsUndirected(g)
    ensures |r| == VertexNum(g) * VertexNum(g)
    ensures forall i, j :: InRange(g, i, j) ==>
              Cell(VertexNum(g), i, j) < |r| && r[Cell(VertexNum(g), i, j)] == GetWeight(g, i, j)
  {
    var n := VertexNum(g);
    var edges := ForeachEdge(g);
    var init := seq(n * n, _ => g.nullValue);
    var r := Paint(init, n, edges, true);
    assert forall i, j :: InRange(g, i, j) ==> Cell(n, i, j) < |r| && r[Cell(n, i, j)] == GetWeight(g, i, j) by {
      forall i, j | InRange(g, i, j)
        ensures Cell(n, i, j) < |r| && r[Cell(n, i, j)] == GetWeight(g, i, j)
      {
        PaintedCell(g, edges, i, j);
      }
    }
    r
  }

  lemma PaintedCell<T, W>(g: Graph<T, W>, edges: seq<Edge<W>>, i: nat, j: nat)
    requires IsUndirected(g) && InRange(g, i, j) && edges == ForeachEdge(g)
    ensures InGrid(edges, VertexNum(g))
    ensures Cell(VertexNum(g), i, j) < VertexNum(g) * VertexNum(g)
    ensures Paint(seq(VertexNum(g) * VertexNum(g), _ => g.nullValue), VertexNum(g), edges, true)[Cell(VertexNum(g), i, j)]
            == GetWeight(g, i, j)
  {
    var n := VertexNum(g);
    UpperGrid(g, edges);
    var init := seq(n * n, _ => g.nullValue);
    PaintCells(init, n, edges, true, i, j);
    if ExistEdge(g, i, j) {
      var k := ReportedCell(g, edges, i, j);
    } else {
      UnreportedCell(g, edges, i, j);
      TriangleSymmetric(g, i, j);
    }
  }

  /** The reports lie in the grid and paint pairwise different cells. */
  lemma UpperGrid<T, W>(g: Graph<T, W>, edges: seq<Edge<W>>)
    requires IsUndirected(g) && edges == ForeachEdge(g)
    ensures InGrid(edges, VertexNum(g)) && Disjoint(edges, true)
  {
    forall k | 0 <= k < |edges|
      ensures edges[k].from < VertexNum(g) && edges[k].to < VertexNum(g)
    {
      assert Reports(g, edges[k]);
    }
    UpperDisjoint(edges);
  }

  /** An existing edge is reported by an edge that paints its cell. */
  lemma ReportedCell<T, W>(g: Graph<T, W>, edges: seq<Edge<W>>, i: nat, j: nat) returns (k: nat)
    requires IsUndirected(g) && InRange(g, i, j) && edges == ForeachEdge(g)
    requires ExistEdge(g, i, j)
    ensures k < |edges| && Hits(edges[k], i, j, true) && edges[k].w == GetWeight(g, i, j)
  {
    TriangleSymmetric(g, i, j);
    var a, b := if i <= j then i else j, if i <= j then j else i;
    assert ExistEdge(g, a, b);
    assert Edge(a, b, GetWeight(g, a, b)) in edges;
    k :| 0 <= k < |edges| && edges[k] == Edge(a, b, GetWeight(g, a, b));
  }

  /** A missing edge's cell is painted by no report. */
  lemma UnreportedCell<T, W>(g: Graph<T, W>, edges: seq<Edge<W>>, i: nat, j: nat)
    requires IsUndirected(g) && InRange(g, i, j) && edges == ForeachEdge(g)
    requires !ExistEdge(g, i, j)
    ensures forall k :: 0 <= k < |edges| ==> !Hits(edges[k], i, j, true)
  {
    forall k | 0 <= k < |edges|
      ensures !Hits(edges[k], i, j, true)
    {
      assert Reports(g, edges[k]);
      TriangleSymmetric(g, i, j);
    }
  }
}

=== FILE: unweighted_matrix.dfy ===
/** The unweighted matrix graphs: the char specialisations, whose insert
    stores `weight && 1`, and the bool "_Tiny" specialisations, which
    forward their insert unchanged. */
module UnweightedMatrix {
  import opened MatrixGraph
  import DirectedMatrix
  import UndirectedMatrix

  /** A C++ char (taken as signed, 8 bits). */
  type Char = x: int | -128 <= x < 128

  /** The char the expression `weight && 1` converts to: 1 for any
      non-zero weight, 0 otherwise. */
  function Normalize(c: Char): (r: Char)
    ensures r == 0 || r == 1
    ensures r == 0 <==> c == 0
  {
    if c != 0 then 1 else 0
  }

  /** A char graph with NullValue 0 whose cells all hold 0 or 1. */
  ghost predicate Binary<T>(g: Graph<T, Char>)
  {
    && Valid(g) && g.nullValue == 0
    && forall i, j :: InRange(g, i, j) ==> GetWeight(g, i, j) == 0 || GetWeight(g, i, j) == 1
  }

  /** UnweightedDirectedMatrixGraph::InsertEdge. */
  function DirectedInsertEdge<T>(g: Graph<T, Char>, a: nat, b: nat, c: Char): (r: Graph<T, Char>)
    requires DirectedMatrix.IsDirected(g) && g.nullValue == 0 && InRange(g, a, b)
    ensures DirectedMatrix.IsDirected(r) && r.vertexData == g.vertexData && r.nullValue == 0
    ensures ExistEdge(g, a, b) ==> r == g
    ensures !ExistEdge(g, a, b) ==> r.edgeNum == g.edgeNum + 1 && GetWeight(r, a, b) == Normalize(c)
    ensures c != 0 ==> ExistEdge(r, a, b)
    ensures forall i, j :: InRange(g, i, j) && !(i == a && j == b) ==> GetWeight(r, i, j) == GetWeight(g, i, j)
  {
    InsertEdge(g, a, b, Normalize(c))
  }

  /** UnweightedUndirectedMatrixGraph::InsertEdge: one triangular cell
      serves both orders. */
  function UndirectedInsertEdge<T>(g: Graph<T, Char>, a: nat, b: nat, c: Char): (r: Graph<T, Char>)
    requires UndirectedMatrix.IsUndirected(g) && g.nullValue == 0 && InRange(g, a, b)
    ensures UndirectedMatrix.IsUndirected(r) && r.vertexData == g.vertexData && r.nullValue == 0
    ensures ExistEdge(g, a, b) ==> r == g
    ensures !ExistEdge(g, a, b) ==>
              r.edgeNum == g.edgeNum + 1 && GetWeight(r, a, b) == Normalize(c) && GetWeight(r, b, a) == Normalize(c)
    ensures c != 0 ==> ExistEdge(r, a, b) && ExistEdge(r, b, a)
    ensures forall i, j :: InRange(g, i, j) && !Touches(g, a, b, i, j) ==> GetWeight(r, i, j) == GetWeight(g, i, j)
  {
    var r := InsertEdge(g, a, b, Normalize(c));
    TriangleSymmetric(r, a, b);
    r
  }

  /** Both normalising inserts keep every cell 0 or 1. */
  lemma InsertEdgeBinary<T>(g: Graph<T, Char>, a: nat, b: nat, c: Char)
    requires Binary(g) && InRange(g, a, b)
    ensures g.store.Square? ==> Binary(DirectedInsertEdge(g, a, b, c))
    ensures g.store.Triangle? ==> Binary(UndirectedInsertEdge(g, a, b, c))
  {
    var r := InsertEdge(g, a, b, Normalize(c));
    forall i, j | InRange(r, i, j)
      ensures GetWeight(r, i, j) == 0 || GetWeight(r, i, j) == 1
    {
      if Touches(g, a, b, i, j) && g.store.Triangle? {
        TriangleSymmetric(r, a, b);
        TriangleSymmetric(g, a, b);
      }
    }
  }

  /** With a non-zero weight the count stays equal to the number of
      non-zero cells; a zero weight on a missing edge raises the count
      without storing an edge. */
  lemma InsertEdgeCharCounted<T>(g: Graph<T, Char>, a: nat, b: nat, c: Char)
    requires Valid(g) && g.nullValue == 0 && InRange(g, a, b) && Counted(g)
    ensures c != 0 ==> Counted(InsertEdge(g, a, b, Normalize(c)))
    ensures c == 0 && !ExistEdge(g, a, b) ==>
              InsertEdge(g, a, b, Normalize(c)).edgeNum == CellCount(InsertEdge(g, a, b, Normalize(c))) + 1
  {
    if c != 0 {
      InsertEdgeCounted(g, a, b, Normalize(c));
    } else if !ExistEdge(g, a, b) {
      InsertNullDrift(g, a, b);
    }
  }

  /** After an undirected insert of a non-zero weight, inserting the
      reversed pair changes nothing. */
  lemma ReverseInsertNoop<T>(g: Graph<T, Char>, a: nat, b: nat, c: Char, c': Char)
    requires UndirectedMatrix.IsUndirected(g) && g.nullValue == 0 && InRange(g, a, b)
    requires c != 0
    ensures UndirectedInsertEdge(UndirectedInsertEdge(g, a, b, c), b, a, c') == UndirectedInsertEdge(g, a, b, c)
  {
  }

  /* ---------------- bool ("_Tiny") specialisations ---------------- */

  /** UnweightedDirectedMatrixGraph_Tiny::InsertEdge and its undirected
      twin: the bool weight reaches the matrix insert unchanged, so
      `false` on a missing edge raises the count without storing an edge. */
  function TinyInsertEdge<T>(g: Graph<T, bool>, a: nat, b: nat, w: bool): (r: Graph<T, bool>)
    requires Valid(g) && !g.nullValue && InRange(g, a, b)
    ensures Valid(r) && r.vertexData == g.vertexData && r.store.Square? == g.store.Square?
    ensures ExistEdge(g, a, b) ==> r == g
    ensures !ExistEdge(g, a, b) ==> r.edgeNum == g.edgeNum + 1 && GetWeight(r, a, b) == w
    ensures ExistEdge(r, a, b) <==> ExistEdge(g, a, b) || w
    ensures forall i, j :: InRange(g, i, j) && !Touches(g, a, b, i, j) ==> GetWeight(r, i, j) == GetWeight(g, i, j)
  {
    InsertEdge(g, a, b, w)
  }

  // The Tiny class's IsDirected answers true and its IsWeighted false: a
  // bool cell is the existence of its edge, and in the square storage
  // setting (a, b) leaves (b, a) alone (TinyInsertEdge's frame clause).
}

=== FILE: weighted_paths.dfy ===
/** Weighted walks over an n x n matrix of optional edge weights, the view
    the weighted shortest-path run has of a graph: ForeachOutNeighbor with
    a (from, to, weight) callback reports exactly the present cells of a
    row. */
module WeightedPaths {
  import opened Common
  import opened Paths

  /** Every row has one cell per vertex. */
  ghost predicate Square(wt: seq<seq<Option<nat>>>)
  {
    forall u :: 0 <= u < |wt| ==> |wt[u]| == |wt|
  }

  /** The out-neighbour lists and the weight matrix describe the same
      edges: every listed neighbour has a weight, every weight is listed. */
  ghost predicate Agree(adj: seq<seq<nat>>, wt: seq<seq<Option<nat>>>)
  {
    && Square(wt) && |adj| == |wt| && ValidAdj(adj)
    && (forall u, k :: 0 <= u < |adj| && 0 <= k < |adj[u]| ==> wt[u][adj[u][k]].Some?)
    && (forall u, v :: 0 <= u < |wt| && 0 <= v < |wt| && wt[u][v].Some? ==> v in adj[u])
  }

  /** A non-empty walk along present cells. */
  ghost predicate WPath(wt: seq<seq<Option<nat>>>, p: seq<nat>)
  {
    && Square(wt) && |p| > 0
    && (forall k :: 0 <= k < |p| ==> p[k] < |wt|)
    && (forall k :: 0 <= k < |p| - 1 ==> wt[p[k]][p[k + 1]].Some?)
  }

  /** The sum of the edge weights along a walk. */
  ghost function Weight(wt: seq<seq<Option<nat>>>, p: seq<nat>): nat
    requires WPath(wt, p)
    decreases |p|
  {
    if |p| == 1 then 0
    else
      assert WPath(wt, p[..|p| - 1]);
      Weight(wt, p[..|p| - 1]) + wt[p[|p| - 2]][p[|p| - 1]].value
  }

  ghost predicate WPathFromTo(wt: seq<seq<Option<nat>>>, p: seq<nat>, s: nat, t: nat)
  {
    WPath(wt, p) && p[0] == s && p[|p| - 1] == t
  }

  ghost predicate WReach(wt: seq<seq<Option<nat>>>, s: nat, t: nat)
  {
    exists p :: WPathFromTo(wt, p, s, t)
  }

  /** `d` is the least weight of a walk from `s` to `t`. */
  ghost predicate IsWDist(wt: seq<seq<Option<nat>>>, s: nat, t: nat, d: nat)
  {
    && (exists p :: WPathFromTo(wt, p, s, t) && Weight(wt, p) == d)
    && (forall p :: WPathFromTo(wt, p, s, t) ==> d <= Weight(wt, p))
  }

  /** Two least weights are the same weight. */
  lemma WDistUnique(wt: seq<seq<Option<nat>>>, s: nat, t: nat, d1: nat, d2: nat)
    requires IsWDist(wt, s, t, d1) && IsWDist(wt, s, t, d2)
    ensures d1 == d2
  {
    var p1 :| WPathFromTo(wt, p1, s, t) && Weight(wt, p1) == d1;
    var p2 :| WPathFromTo(wt, p2, s, t) && Weight(wt, p2) == d2;
  }

  /** Appending an edge keeps a walk a walk. */
  lemma WAppend(wt: seq<seq<Option<nat>>>, p: seq<nat>, w: nat)
    requires WPath(wt, p) && w < |wt| && wt[p[|p| - 1]][w].Some?
    ensures WPath(wt, p + [w])
  {
    var q := p + [w];
    forall k | 0 <= k < |q| - 1
      ensures wt[q[k]][q[k + 1]].Some?
    {
      if k < |p| - 1 {
        assert q[k] == p[k] && q[k + 1] == p[k + 1];
      }
    }
  }

  /** Appending an edge adds its weight. */
  lemma WExtend(wt: seq<seq<Option<nat>>>, p: seq<nat>, w: nat)
    requires WPath(wt, p) && w < |wt| && wt[p[|p| - 1]][w].Some?
    ensures WPath(wt, p + [w])
    ensures Weight(wt, p + [w]) == Weight(wt, p) + wt[p[|p| - 1]][w].value
  {
    WAppend(wt, p, w);
    var q := p + [w];
    assert q[..|q| - 1] == p;
  }

  /** Dropping the last vertex of a walk of two or more vertices leaves a
      walk, lighter by the weight of the dropped edge. */
  lemma WTrim(wt: seq<seq<Option<nat>>>, p: seq<nat>)
    requires WPath(wt, p) && |p| > 1
    ensures WPath(wt, p[..|p| - 1])
    ensures Weight(wt, p) == Weight(wt, p[..|p| - 1]) + wt[p[|p| - 2]][p[|p| - 1]].value
  {
  }

  /** Where the lists and the matrix agree, a walk of one is a walk of the
      other, so hop reachability and weighted reachability coincide. */
  lemma PathAgree(adj: seq<seq<nat>>, wt: seq<seq<Option<nat>>>, p: seq<nat>)
    requires Agree(adj, wt)
    ensures IsPath(adj, p) <==> WPath(wt, p)
  {
    if IsPath(adj, p) {
      forall k | 0 <= k < |p| - 1
        ensures wt[p[k]][p[k + 1]].Some?
      {
        var j :| 0 <= j < |adj[p[k]]| && adj[p[k]][j] == p[k + 1];
      }
    }
  }

  lemma ReachAgree(adj: seq<seq<nat>>, wt: seq<seq<Option<nat>>>, s: nat, t: nat)
    requires Agree(adj, wt)
    ensures Reachable(adj, s, t) <==> WReach(wt, s, t)
  {
    if Reachable(adj, s, t) {
      var p :| PathFromTo(adj, p, s, t);
      PathAgree(adj, wt, p);
      assert WPathFromTo(wt, p, s, t);
    }
    if WReach(wt, s, t) {
      var p :| WPathFromTo(wt, p, s, t);
      PathAgree(adj, wt, p);
      assert PathFromTo(adj, p, s, t);
    }
  }
}
